=== FILE: README.md ===
# api-page: a Dafny model of the content-tree core

This project models the core of `api-page`, a Go backend that stores a CMS's
versions, menus, menu items, pages, page partials (rows of columns) and
modules, with a key-value cache in front of the lookups. The model covers
the logic that reconciles nested content trees and keeps the cache coherent:

- the menu-tree engine: creating a menu's relations from a nested descriptor
  forest, reconciling a stored menu against a submitted snapshot, the
  canonical relation order, and syncing indexing options;
- the freshness (out-of-sync) detectors of the menu and page handlers;
- the two-level row/column reconciliation of a page partial and the page
  update with its indexing sync;
- assembling the ordered relation list back into the editor and published
  menu trees;
- the cache-aside lookups of menus, versions and modules, the per-locale
  version-menus cache, and invalidation after writes;
- the version lifecycle (enable, publish, delete, restore) and its handler
  guards, and the module service with its module-type scope;
- the small total functions: the URL slug, the `NewNull*` constructors and
  the `Indexing` enum's database conversions.

The store is explicit state. Auto-increment tables (menus, items, versions,
modules, partials, rows, columns) are sequences whose index is the id, and
a `deleted` flag marks a soft delete. Primary-key tables (relations,
indexing, pages, module types) are maps. The cache is a map, and the cache
commands that may fail on a call are given as a `Faults` value. A failing
store command is a boolean parameter, and so is the existence of an app,
whose table is not modelled. The clock is the parameter `now`,
in integer seconds, as every comparison in the source uses `.Unix()`. Go's
nullable columns are `Option`. Handler errors are the `Error` datatype:
`NotFound`, `OutOfSync`, `NameTaken`, `NotEnabled`, `IsPublished`,
`NotDeleted`, `StoreFailure`, `CacheFailure` and `UnsupportedType`.

Files, one module each:

- `wrappers.dfy` has `Option`, `Result` and `Error`.
- `utf8.dfy` has UTF-8 encoding and decoding, the reading Go gives a byte string.
- `name_index.dfy` has the name checks and the unique (scope, name) index shared by versions, modules, menus and page partials.
- `nullable.dfy`, `indexing.dfy` and `slug.dfy` hold the small total functions.
- `lookup_cache.dfy` has the shared cache-aside lookup and the name filter.
- `indexing_sync.dfy` syncs an owner's indexing options.
- `relation_order.dfy` has the relation order.
- `tree_assembly.dfy` and `menu_views.dfy` do tree assembly and the two views.
- Menus: `menu_requests.dfy`, `menu_engine.dfy`, `menu_freshness.dfy` and `menu_service.dfy`.
- Pages: `page_requests.dfy`, `page_freshness.dfy`, `partial_tables.dfy` and `page_service.dfy`.
- `version.dfy` and `module_service.dfy` hold the version and module services.

## Model

| member | source | states |
|---|---|---|
| Nullable.NewNullString | src/utils/new_null_string.go:6-11 | present exactly when a non-empty string was given, and then holds that string |
| Nullable.NewNullUInt | src/utils/new_null_uint.go:6-17 | present exactly when a non-zero id was given, and then holds it |
| Nullable.NewNullPresent | src/utils/new_null_int16.go:6-11 | present exactly when a value was given, zero included, and then holds it; `NewNullTime` (src/utils/new_null_time.go:9-14) behaves the same on times |
| Nullable.NullStringReadBack | src/utils/new_null_string.go:6-11 | reading the stored column back with its empty default gives the submitted text |
| Nullable.NullUIntReadBack | src/utils/new_null_uint.go:6-17 | reading the stored id back with its zero default gives the submitted id |
| Nullable.NullStringIdempotent | src/utils/new_null_string.go:6-11 | normalising twice is normalising once |
| Nullable.ZeroHandling | src/utils/new_null_uint.go:9-14 | zero is dropped by the unsigned constructor but kept by the int16 and time constructors |
| IndexingEnum.Scan | src/enums/indexing.go:34-48 | nil scans to the empty option, text to that text, bytes to the text they encode in UTF-8, any other kind to an error |
| IndexingEnum.ScanValueRoundTrip | src/enums/indexing.go:34-56 | scanning what `Value` writes gives back the same option; `String` is the text |
| Utf8.EncodeChar | src/enums/indexing.go:42-44 | a character takes one to four bytes: an ASCII byte or a valid lead byte, then continuation bytes |
| Utf8.DecodeEncode | src/enums/indexing.go:42-44 | decoding the UTF-8 encoding of any text gives the text back |
| IndexingEnum.ScanBytesRoundTrip | src/enums/indexing.go:42-44 | a driver handing any option's text back as its UTF-8 bytes scans to the same option as the text |
| Slug.URLEncodeIsJoinedWords | src/utils/url.go:19-50 | the slug is the lowered input's maximal ASCII-alphanumeric words joined by single dashes |
| Slug.URLEncodeBlank | src/utils/url.go:21-29 | empty or whitespace-only input gives the empty slug |
| Slug.URLEncodeIsSlug | src/utils/url.go:39-47 | the output holds only a-z, 0-9 and '-', has no doubled dash, and no dash at either end |
| Slug.URLEncodeKeepsAlnums | src/utils/url.go:31-42 | deleting the dashes from the output gives the input's letters and digits, lowered, in order |
| Slug.URLEncodeIdempotent | src/utils/url.go:19-50 | encoding a slug again changes nothing |
| LookupCache.Lookup | src/services/menu_service.go:119-134 | a present, readable, non-empty cached list answers; otherwise the store is asked and its list written back; cache read errors propagate, and write errors are ignored |
| LookupCache.LookupCoherent | src/services/menu_service.go:119-134 | when the cached entry is absent or equals the store's list, the lookup answers the store's list |
| LookupCache.WriteBackThenHit | src/services/menu_service.go:130-133 | after a miss wrote back a non-empty list, the next lookup answers from the cache whatever the store says |
| LookupCache.EmptyListIsMiss | src/services/menu_service.go:124-128 | an empty cached list never answers; the store is asked again |
| LookupCache.Contains | src/services/menu_service.go:143 | substring search: true exactly when the needle occurs at some index |
| LookupCache.FilterByName | src/services/menu_service.go:137-152 | a blank filter keeps the list; otherwise it keeps, in order, exactly the rows whose lowered name contains the trimmed, lowered filter |
| LookupCache.FilterByNameIdempotent | src/services/menu_service.go:137-152 | filtering a filtered list again changes nothing |
| LookupCache.Invalidate | src/services/version_service.go:326-333 | the written app's lookup key is removed and every other key is unchanged |
| NameIndex.FirstNamed | src/services/version_service.go:33-47 | finds a live row of the scope with the name, or none exactly when the name is ignored or no live row of the scope has it |
| IndexingSync.UpsertAll | src/services/menu_service.go:694-715 | every submitted option is stored with the value of its last entry; other rows are unchanged |
| IndexingSync.SyncIndexing | src/services/menu_service.go:694-729 | the corrected sync: the owner's stored options are exactly the submitted ones with their last values; other owners' rows are untouched |
| IndexingSync.SyncIndexingIdempotent | src/services/menu_service.go:694-729 | syncing the same request twice is syncing once |
| IndexingSync.GetOrCreateAllKeeps | src/services/menu_service.go:752-761 | the per-entry get-or-create fails exactly when an entry carries a value other than the one its option already holds; otherwise each option holds its stored value, or the first submitted one, and stored rows are unchanged |
| IndexingSync.SyncIndexingAsWritten | src/services/menu_service.go:694-729 | as written: fails exactly on a conflicting entry; otherwise the owner's options are exactly the submitted ones, each holding the value it already had or its first submitted one; other owners' rows are untouched |
| IndexingSync.ChangedValueFailsAsWritten | src/services/menu_service.go:703-716 | as written, a new value for a stored option fails the transaction; the corrected sync stores it |
| IndexingSync.NilValueKeptAsWritten | src/services/menu_service.go:703-716 | as written, a nil value for a stored option keeps the stored value; the corrected sync clears it |
| RelationOrder.LessTotal | src/services/menu_service.go:550-571 | relations with different children are strictly ordered one way |
| RelationOrder.Sort | src/services/menu_service.go:550-571 | the result is a permutation of the input, ordered by no-parent first, then parent id, position and child id |
| RelationOrder.SortIdempotent | src/services/menu_service.go:550-571 | sorting twice is sorting once |
| RelationOrder.SortDependsOnlyOnRows | src/services/menu_service.go:550-571 | with distinct children the sorted list depends only on the multiset of relations |
| TreeAssembly.FindParent | src/dto/responses/menu.go:46-60 | none exactly when no node has the id; otherwise a path to a node with that id |
| TreeAssembly.FindParentIsFirst | src/dto/responses/menu.go:46-60 | the node found is the first node with the id in pre-order |
| TreeAssembly.AppendAt | src/dto/responses/menu.go:36-41 | the child becomes the last child of the found node, and nothing else changes |
| TreeAssembly.Step | src/dto/responses/menu.go:26-41 | a root relation adds a top-level node; a placed child adds one node; a child whose parent is missing changes nothing |
| TreeAssembly.Assemble | src/dto/responses/menu.go:18-43 | the top level is the root relations in order; every node comes from a relation; there are never more nodes than relations |
| TreeAssembly.AssembleKeepsAllIffClosed | src/dto/responses/menu.go:26-42 | every relation yields a node exactly when each relation's parent was placed by an earlier relation |
| TreeAssembly.AssembleShapeIndependentOfPayload | src/dto/responses/published_menu.go:14-36 | the nesting does not depend on the payload built for each node |
| MenuViews.SetPublishedItem | src/dto/responses/published_menu_item.go:22-51 | only the first page is read; with no page the name, slug, flags, hashtag and url are empty; the icon comes from the item; children start empty |
| MenuViews.PublishedIgnoresLaterPages | src/dto/responses/published_menu_item.go:23-26 | pages after the first never change the published node |
| MenuViews.PublishedUrlName | src/dto/responses/published_menu_item.go:33 | the node's URL name is the slug of its page name |
| MenuViews.ViewsHaveSameNesting | src/dto/responses/published_menu.go:14-53 | the editor and published views nest the same ids at the same places |
| MenuViews.SortedAssemblyCanDropChild | src/services/menu_service.go:550-571 | the canonical order can list a child before its parent's own relation, and assembly then drops it |
| MenuRequests.PreAppend | src/controllers/menu_controller.go:227-257 | the pre-order of two forests side by side is the two pre-orders concatenated |
| MenuEngine.GetOrCreateItem | src/services/menu_service.go:681-691 | the first live item of the version with the name, and with the icon and enable time where they are given, is reused as stored; otherwise one is appended |
| MenuEngine.UpsertItem | src/services/menu_service.go:656-692 | an id must name a live item (otherwise not found), whose name, icon and enable time are overwritten; an id-less descriptor yields a live item of the version matching its given attributes |
| MenuEngine.FixEdge | src/services/menu_service.go:586-614 | the menu holds exactly one relation for the child, with the submitted parent and position; other relations are kept |
| MenuEngine.Cleanup | src/services/menu_service.go:628-650 | the items under the parent that were not submitted at this level are soft-deleted, and nothing else changes |
| MenuEngine.ReconcileLoop | src/services/menu_service.go:574-627 | the relations emitted follow the submitted forest in pre-order and submitted ids are kept; only the emitted items and the relations naming them are written, and an item is deleted only by a cleanup under an emitted parent; with no item emitted twice or under itself, each descriptor's item ends live and related under the parent at its position |
| MenuEngine.LoopPlaced | src/services/menu_service.go:577-625 | the first descriptor's item stays live and placed through its subtree and its later siblings when neither emits it again nor cleans under the level's parent |
| MenuEngine.ReconcileItems | src/services/menu_service.go:574-653 | the emitted relations follow the submitted forest; every item related under the parent and not submitted at this level ends soft-deleted; items outside the request keep their columns and relations; with no item emitted twice or under itself, the submitted items end live and placed as submitted |
| MenuEngine.CleanupLevel | src/services/menu_service.go:628-650 | the level cleanup deletes the unsubmitted children of the parent and keeps the placement the loop established |
| MenuEngine.SelfNestedItemEndsUnderItself | src/services/menu_service.go:586-624 | an item submitted inside its own subtree is accepted and ends related under itself, not where its outer descriptor put it |
| MenuEngine.UnresolvedIdFailsLevel | src/services/menu_service.go:660-662 | an id that names no live item fails the whole update |
| MenuEngine.GetOrCreateKeyed | src/services/menu_service.go:763-775 | a stored relation meeting the condition (a missing parent or position 0 match anything) is kept as stored, a missing one is added, and one failing it makes the insert fail on the primary key (menu, child) |
| MenuEngine.CreateItems | src/services/menu_service.go:736-790 | one relation per descriptor in pre-order, each the row `FirstOrCreate` left: it meets the enclosing item and the position where those are given, and is the stored relation of its child at the end; stored relations are never rewritten |
| MenuEngine.StoredRelationEmittedAsStored | src/services/menu_service.go:763-780 | a relation stored before the walk is emitted with its stored parent and position, whatever the descriptor asked for |
| MenuEngine.CreateMenuTx | src/services/menu_service.go:228-250 | a live equal menu is reused, otherwise one is appended, and a name only a soft-deleted menu of the version holds fails on the unique index; the result is the sorted list of the relations the create walk emitted for the forest, each the stored relation of its child |
| MenuEngine.UpdateMenuTx | src/services/menu_service.go:262-282 | a name another menu of the version holds, live or soft-deleted, fails on the unique index; otherwise only this menu is renamed, the result is the sorted list of the relations the walk emitted, and the top level's unsubmitted items are soft-deleted |
| MenuEngine.IdlessDescriptorReusesItem | src/services/menu_service.go:681-691 | a descriptor without an id that a live item matches, ignoring the attributes it leaves out, reuses an item at or before that one without adding a row |
| MenuEngine.MovedChildIsLost | src/services/menu_service.go:631-662 | moving a child under a later sibling fails: the earlier level's cleanup deleted it first |
| MenuFreshness.Flatten | src/controllers/menu_controller.go:227-257 | nil gives an empty list; otherwise every node appears exactly once, and each node is followed at once by all of its descendants |
| MenuFreshness.RevPreSameNodes | src/controllers/menu_controller.go:240-254 | the walk emits the same multiset of descriptors as a pre-order traversal |
| MenuFreshness.RelationTimesLast | src/controllers/menu_controller.go:261-266 | the time kept for a child is that of its last relation |
| MenuFreshness.IsMenuItemsOutOfSync | src/controllers/menu_controller.go:260-280 | true exactly when some descriptor at any depth names a stored child and is strictly older than it |
| MenuFreshness.OutOfSyncIff | src/controllers/menu_controller.go:260-280 | with unique children, out of sync exactly when some submitted id is a stored child whose time is newer than the submitted one |
| MenuFreshness.CheckUpdateMenu | src/controllers/menu_controller.go:144-164 | not found, then out of sync (stale root or item), then name taken; success exactly when none applies |
| MenuFreshness.StaleDescriptorBlocksUpdate | src/controllers/menu_controller.go:153-155 | one stale descriptor anywhere blocks the update |
| MenuService.LookupRows | src/services/menu_service.go:140-147 | exactly the version's live menus; the query states no order, and the model lists them in id order |
| MenuService.LookupAfterWriteIsFresh | src/services/menu_service.go:119-158 | once a write removed the version's lookup entry, the next lookup answers the store's current, filtered list |
| MenuService.GetMenuLookup | src/services/menu_service.go:119-158 | a coherent cache answers the filtered store list; a failed existence check reports a cache failure; other versions' entries are untouched |
| MenuService.SetVersionMenus | src/services/menu_service.go:456-492 | one locale is set, the version's other locales are kept; any failing command leaves the cache as it was |
| MenuService.DeleteVersionMenus | src/services/menu_service.go:494-538 | one locale is removed, and the whole key once no locale is left |
| MenuService.DeleteAllVersionMenus | src/services/menu_service.go:540-548 | the version's key is gone, and other versions are untouched |
| MenuService.GetMenusByVersion | src/services/menu_service.go:162-197 | a non-empty cached locale list answers; otherwise the store's list is rendered and cached for that locale |
| MenuService.RenderedLocaleIsCached | src/services/menu_service.go:162-197 | rendering a locale never evicts another, and the next read of that locale is a hit |
| MenuService.CreateMenuOp | src/services/menu_service.go:228-260 | the version's cache entries are invalidated only after the transaction succeeded |
| MenuService.UpdateMenuOp | src/services/menu_service.go:262-292 | the version's cache entries are invalidated only after the transaction succeeded |
| MenuService.DeleteMenuOp | src/services/menu_service.go:294-303 | the menu is soft-deleted and the version invalidated, or a failure changes nothing |
| MenuService.RestoreMenuOp | src/services/menu_service.go:305-320 | the mark is cleared; a failed version read returns an error after the restore and invalidates nothing |
| MenuService.DeletedMenuLeavesLookup | src/services/menu_service.go:294-303 | after a delete the next lookup no longer lists the menu |
| PageRequests.RowAttrsOf | src/services/page_service.go:270-292 | a row's attributes are its submitted values, each text through the empty-to-null rule |
| PageRequests.ColAttrsOf | src/services/page_service.go:334-356 | a column's attributes are its submitted values; module id 0 and empty texts become null, and sizes are kept |
| PageFreshness.RowTimes | src/controllers/page_controller.go:382-385 | every stored row id is indexed, each with the time of some row carrying it |
| PageFreshness.ColumnTimes | src/controllers/page_controller.go:386-389 | the columns of all stored rows are indexed together, each with the time of a stored column carrying its id |
| PageFreshness.IsPartialRowsOutOfSync | src/controllers/page_controller.go:381-416 | true exactly when a submitted row with id and time names a stored row and is older than it, or holds a known column older than stored |
| PageFreshness.MovedColumnStillChecked | src/controllers/page_controller.go:386-410 | a stale column is found even when submitted under another row |
| PageFreshness.StaleAfterDrop | src/controllers/page_controller.go:392-399 | a stale row of the list other than a non-stale one stays found when that row is removed |
| PageFreshness.StaleBeforeInsert | src/controllers/page_controller.go:392-399 | inserting a row never hides a stale row |
| PageFreshness.UnknownRowColumnsIgnored | src/controllers/page_controller.go:392-399 | a row without id or time, or with an unknown id, and all its columns, never affect the result |
| PageFreshness.StoredTimesAreFresh | src/controllers/page_controller.go:381-416 | a request that sends back the stored times of the rows and columns it names is never out of sync |
| PageFreshness.CheckUpdatePage | src/controllers/page_controller.go:144-155 | a missing page is not found; an older copy is out of sync; success otherwise |
| PageFreshness.CheckUpdatePartial | src/controllers/page_controller.go:189-229 | not found, then out of sync (stale root, row or column), then name taken; success exactly when none applies |
| PartialTables.Children | src/services/page_service.go:248-250 | exactly the parent's live children |
| PartialTables.Upsert | src/services/page_service.go:255-268 | a submitted id among the parent's children is overwritten in place; otherwise an equal live child is reused or a new child is appended |
| PartialTables.DeleteMissing | src/services/page_service.go:388-395 | the parent's previous children that were not written are soft-deleted; nothing else changes |
| PartialTables.WriteAll | src/services/page_service.go:252-306 | rows are written in order; resubmitted ids are kept; each row's last write holds its attributes; only written rows change |
| PartialTables.Reconcile | src/services/page_service.go:248-395 | the parent's live children are exactly the written ids; other parents' children are unchanged |
| PageService.GetPage | src/services/page_service.go:83-98 | a page reads as present exactly when it is stored and neither it, its item nor a menu holding the item is deleted |
| PageService.GetOrCreatePage | src/services/page_service.go:101-131 | a deleted page is neither read nor created; an existing page is read; otherwise an empty page is created under an existing item |
| PageService.GetOrCreatePageIdempotent | src/services/page_service.go:101-131 | a second get-or-create stores and returns what the first did |
| PageService.WritePage | src/services/page_service.go:173-180 | the stored page reflects every submitted field, the texts through the empty-to-null rule |
| PageService.ZeroFieldsAreNotWritten | src/services/page_service.go:184-186 | as written, switching a flag off or clearing a text is not stored |
| IndexingSync.MapValuesOptions | src/services/page_service.go:197-203 | turning each submitted value into a nullable one keeps the submitted options |
| IndexingSync.MapValuesLast | src/services/page_service.go:197-203 | after the empty-to-null rule each option's last value is the rule applied to its last submitted value |
| IndexingSync.SyncIndexingMapped | src/services/page_service.go:196-213 | the page's stored options are the submitted ones, each holding the converted last value; other pages' rows stay |
| PageService.UpdatePage | src/services/page_service.go:165-235 | a deleted page is not found; otherwise the page reflects the request, and its indexing options are exactly the submitted ones with their values; nothing else changes |
| PageService.UpdatePageOp | src/controllers/page_controller.go:144-158 | not found, then out of sync, then the service update; a success stores the submitted fields |
| PageService.ProcessRowsWritesRows | src/services/page_service.go:252-306 | the row loop writes the row table exactly as the plain ordered write of all rows |
| PageService.UpdatePartialTx | src/services/page_service.go:237-404 | a name another partial of the page holds, live or soft-deleted, fails on the unique index and writes nothing; otherwise the partial is renamed, each row's live columns are exactly those last submitted for it and hold the submitted attributes, and other partials' columns are unchanged |
| PageService.ColumnsWrittenKept | src/services/page_service.go:310-356 | a later row's write keeps the columns, and their attributes, an earlier row's last write left |
| PageService.UpdatePartialTxRows | src/services/page_service.go:248-395 | after a successful update the row table is the one-level reconcile of the submitted rows |
| PageService.ForeignColumnNotMoved | src/services/page_service.go:310-332 | a successful update never changes a column stored under another partial's row |
| PageService.TakenNames | src/services/page_service.go:15-32 | exactly the names of the page's live partials |
| PageService.UpdatePagePartialOp | src/controllers/page_controller.go:171-243 | the handler guards, then the transaction; it succeeds exactly when no guard fails and no soft-deleted partial of the page holds the new name |
| VersionService.IsVersionAvailable | src/services/version_service.go:33-47 | available exactly when the name is the ignored one, or no live version of the app has it |
| VersionService.LookupRows | src/services/version_service.go:124-131 | exactly the app's live, enabled versions; the query states no order, and the model lists them in id order |
| VersionService.LookupRowsReadsOnly | src/services/version_service.go:124-131 | tables that agree on app, name, deletion and enablement give the same lookup |
| VersionService.GetVersionLookup | src/services/version_service.go:112-152 | a coherent cache answers the filtered store list; other apps' entries are untouched |
| VersionService.WriteThenLookupIsFresh | src/services/version_service.go:239-246 | after a successful delete of an unpublished version the next lookup answers the store's current, filtered list |
| VersionService.CreateVersion | src/services/version_service.go:177-191 | an equal live version is reused, otherwise one is appended unpublished; an unknown app (the foreign key of src/models/version.go:20) or a clash on (app, name) with any row fails, and nothing else does; the app's lookup is invalidated only on success |
| VersionService.UpdateVersion | src/services/version_service.go:194-209 | the name and enable time are overwritten (a missing time clears it); the app's lookup is invalidated; a name clash fails |
| VersionService.PublishVersion | src/services/version_service.go:212-236 | the app's live versions are unpublished and the target published; other apps are untouched; a failure changes nothing |
| VersionService.DeleteVersion | src/services/version_service.go:239-246 | the version is soft-deleted and the lookup invalidated only after success |
| VersionService.RestoreVersion | src/services/version_service.go:249-262 | the mark is cleared; a failed read of the app returns an error after the restore and invalidates nothing |
| VersionService.CreateVersionOp | src/controllers/version_controller.go:145-186 | the app must exist and the name be free; the new version is unpublished, so at most one published version per app still holds |
| VersionService.UpdateVersionOp | src/controllers/version_controller.go:189-248 | not found, out of sync, name taken, and a published version cannot be disabled; at most one published version per app still holds |
| VersionService.PublishVersionOp | src/controllers/version_controller.go:251-283 | publishing needs a live, enabled, unpublished version; afterwards it is the app's only published version |
| VersionService.DeleteVersionOp | src/controllers/version_controller.go:286-312 | a published version cannot be deleted; the publish invariant is kept |
| VersionService.RestoreVersionOp | src/controllers/version_controller.go:315-333 | only a deleted version is restored; the publish invariant is kept |
| VersionService.PublishKeepsLookup | src/services/version_service.go:212-236 | publishing changes nothing the lookup reads, so leaving the cache alone keeps it coherent |
| ModuleService.IsModuleNameAvailable | src/services/module_service.go:24-38 | available exactly when the name is the ignored one, or no live module of the app has it |
| ModuleService.IsModuleDeleted | src/services/module_service.go:50-56 | true exactly when the id names a soft-deleted module |
| ModuleService.LookupRows | src/services/module_service.go:123-131 | exactly the app's live modules whose type is live; the query states no order, and the model lists them in id order |
| ModuleService.GetModuleLookup | src/services/module_service.go:110-151 | a coherent cache answers the filtered store list; other apps' entries are untouched |
| ModuleService.GetModuleByID | src/services/module_service.go:154-162 | found exactly when the module is live and its type is live |
| ModuleService.DeletedTypeHidesModule | src/services/module_service.go:295-300 | a module of a soft-deleted type is in no lookup and not found by id |
| ModuleService.CreateModule | src/services/module_service.go:165-181 | an equal live module is reused, otherwise one is appended; an unknown app or type (the foreign keys of src/models/module.go:16-17) or a clash on (app, name) fails, and nothing else does; the lookup is invalidated only on success |
| ModuleService.UpdateModule | src/services/module_service.go:184-196 | name, type and settings are overwritten, and the app and id are kept; the app's lookup is invalidated |
| ModuleService.DeleteModule | src/services/module_service.go:199-205 | the module is soft-deleted and the lookup invalidated only after success |
| ModuleService.RestoreModule | src/services/module_service.go:208-222 | the mark is cleared; a failed read of the app returns an error after the restore and invalidates nothing |
| ModuleService.CreateModuleOp | src/controllers/module_controller.go:96-143 | the app and a live type must exist, and the name must be free |
| ModuleService.UpdateModuleOp | src/controllers/module_controller.go:146-207 | the type must be live, the module visible, the copy fresh and a new name free |
| ModuleService.DeleteModuleOp | src/controllers/module_controller.go:210-231 | only a visible module is deleted, and its app's lookup is invalidated |
| ModuleService.RestoreModuleOp | src/controllers/module_controller.go:234-254 | only a deleted module is restored |
| ModuleService.DeleteThenRestore | src/services/module_service.go:199-222 | deleting then restoring gives back the table, up to the update time, and the module is visible again |

## Findings

| source | as written | input that shows it | evidently intended | confidence | as-written member | corrected member |
|---|---|---|---|---|---|---|
| src/services/menu_service.go:703-716 | `FirstOrCreate` on (item, option, value), then an update to the value it left in the struct | a stored option holding "a"; a request giving it "b" (the insert hits the key and the transaction fails), or giving it no value (the stored "a" stays) | the option holds the submitted value, as the comment on line 711 says | medium, not executed | IndexingSync.ChangedValueFailsAsWritten | IndexingSync.SyncIndexing |
| src/services/page_service.go:184-186 | the page is saved with a struct `Updates`, which skips fields holding their type's zero value | a stored page with new-tab enabled and a meta title; a request with new-tab off and no meta title | every submitted field is written, as lines 173-180 prepare | medium, not executed | PageService.ZeroFieldsAreNotWritten | PageService.WritePage |

`IndexingSync.SyncIndexingAsWritten` is the as-written indexing sync, and `IndexingSync.NilValueKeptAsWritten` shows the nil case; `MenuEngine.UpsertItem` uses the corrected `IndexingSync.SyncIndexing`. The page update's indexing loop (src/services/page_service.go:197-213) has the same shape, and `PageService.UpdatePage` uses the corrected sync too. `PageService.WritePageSkippingZeros` is the as-written write.

Two more behaviours are proved as the source has them and left as they are, without a corrected member, because the source does not say what it intends instead:

- `MenuViews.SortedAssemblyCanDropChild`: the canonical relation order can put a child before its parent's own relation, and the tree assembly then drops that child's subtree. Whether the order or the assembly should change is not stated.
- `MenuEngine.MovedChildIsLost`: moving an item under a later sibling fails, because the earlier level's cleanup soft-deletes it before the later level resolves its id. `PageService.UpdatePage` uses the corrected `PageService.WritePage`.

## Left out

- HTTP plumbing (body parsing, validation, status codes, routes), connections, migrations, and the pagination of `GetMenus`, `GetVersions` and `GetModules`: these are transport or external-library code.
- Cache transport (JSON, the key formats, Valkey commands, the TTL from the environment): the cache is a map. A failing cache delete, whose error the source ignores, is not modelled; invalidation always removes the key.
- `deletePagesFromCacheByMenuItemID`, called from `upsertMenuItem`, is not part of this model.
- Concurrency: the race between a freshness check and the following transaction is not modelled.
- The version's publish UUID set on creation is random and is not modelled.
- Slug.URLEncode: lowering is ASCII-only, and the NFD decomposition with mark removal is not modelled; every non-ASCII character counts as a non-alphanumeric.
- PageService.IsPageDeleted: the single SQL query is stated as the condition it checks over the model's tables. The query text itself is not modelled.
- IndexingSync.SyncIndexing: it is the corrected sync and stores every submitted value. As written, a changed non-nil value fails on the primary key and a nil value keeps the stored one (see Findings). The page indexing of `PageService.UpdatePage` and `IndexingSync.SyncIndexingMapped` use the corrected sync; as written, an empty page value becomes null there and would keep the stored value.
- PageService.UpdatePage: the page indexing table declares its primary key as (menu item, locale) only (src/models/page_indexing.go:9-10). The model keys its rows by (page, option), as the unique index and the per-option handling intend.
- PageService.UpdatePage: the request's enable time is not stored, as in the source.
- PageService.UpdatePartialTx: rows and columns are written with a full overwrite. The zero-value skipping of their struct updates is not modelled.
- PageService.UpdatePartialTx: the stored row has no position or hashtag column in the model the handler reads, while the request carries them. The model stores the request's values.
- PageService.UpdatePartialTx: a soft-deleted row keeps its columns live, as in the source.
- PageService.UpdatePagePartialOp: the handler does not check that the partial belongs to the page, and the model keeps that. Its call into the service does not match the service's signature; the service body is modelled.
- MenuService: the handler calls to `DeleteMenu` do not match the service signature; the service body is modelled.
- PageFreshness.IsPartialRowsOutOfSync: the page-partial row request (src/dto/requests/update_page_partial_row.go) declares no update time, although the check reads one at src/controllers/page_controller.go:392. The model gives the row request an optional time.
- IndexingEnum.Scan: bytes that are not well-formed UTF-8, which Go keeps as they are, cannot be held by the model's text; each ill-formed byte decodes to U+FFFD.
- LookupCache.FilterByName: lowering and trimming are ASCII-only; Go's Unicode `strings.ToLower` and `strings.TrimSpace` are not modelled.
- MenuEngine.ReconcileItems: the placement of the submitted items is promised only when the request emits no item twice and places none inside its own subtree; `MenuEngine.SelfNestedItemEndsUnderItself` shows an item that ends elsewhere.
- MenuEngine.ReconcileLoop: the same condition bounds its placement promise, for the same reason.
- ModuleService.CreateModule: the settings JSON is compared as text.
- PartialTables.Upsert: an id-less row or column is reused only when all its attributes are equal. `FirstOrCreate` (src/services/page_service.go:302 and 366) drops zero-valued columns (false flags, null texts, size 0) from its condition, so it can reuse a row that differs in those; that is not modelled.

=== FILE: indexing.dfy ===
/** `enums.Indexing`: a robots-directive name stored as a string-typed
    database enum, with its `sql.Scanner` / `driver.Valuer` conversions. */
module IndexingEnum {
  import opened Wrappers
  import Utf8

  /** An indexing option is its text; the type does not restrict the text. */
  datatype Indexing = Indexing(text: string)

  /** The directive names the enum declares (src/enums/indexing.go:8-30). */
  const Vocabulary: set<string> := {
    "all", "follow", "index", "indexifembedded", "max-image-preview",
    "max-snippet", "max-video-preview", "noai", "noarchive", "nocache",
    "nofollow", "noimageai", "noimageindex", "noindex", "noindexifembedded",
    "none", "noodp", "nosnippet", "notranslate", "noydir", "unavailable_after"
  }

  /** What the database driver hands to `Scan`. */
  datatype DbValue =
    | DbNull
    | DbText(s: string)
    | DbBytes(b: seq<Utf8.byte>)
    | DbOther(kind: string)   // any other dynamic type, named by its Go type

  /** Go's `string(b)`: the bytes become the string unchanged, which is
      the text they encode in UTF-8. */
  function BytesToText(b: seq<Utf8.byte>): (t: string)
    ensures |t| <= |b|
    ensures forall s :: Utf8.Encode(s) == b ==> t == s
  {
    forall s | Utf8.Encode(s) == b
      ensures Utf8.Decode(b) == s
    {
      Utf8.DecodeEncode(s);
    }
    Utf8.Decode(b)
  }

  /** `Indexing.Scan`. */
  function Scan(v: DbValue): (r: Result<Indexing>)
    ensures r.Err? <==> v.DbOther?
    ensures r.Err? ==> r.error == UnsupportedType
    ensures v.DbNull? ==> r == Ok(Indexing(""))
    ensures v.DbText? ==> r == Ok(Indexing(v.s))
    ensures v.DbBytes? ==> r.Ok? && forall s :: Utf8.Encode(s) == v.b ==> r.value.text == s
  {
    match v
    case DbNull => Ok(Indexing(""))
    case DbText(s) => Ok(Indexing(s))
    case DbBytes(b) => Ok(Indexing(BytesToText(b)))
    case DbOther(_) => Err(UnsupportedType)
  }

  /** `Indexing.Value`: the option is written as its text. */
  function Value(i: Indexing): (v: DbValue)
    ensures v.DbText?
  {
    DbText(i.text)
  }

  /** `Indexing.String`. */
  function ToString(i: Indexing): string {
    i.text
  }

  /** Writing an option and scanning it back gives the same option. */
  lemma ScanValueRoundTrip(i: Indexing)
    ensures Scan(Value(i)) == Ok(i)
    ensures ToString(i) == i.text
  {
  }

  /** A driver that returns the text as its UTF-8 bytes scans to the same
      option as one that returns it as text. */
  lemma ScanBytesRoundTrip(i: Indexing)
    ensures Scan(DbBytes(Utf8.Encode(i.text))) == Scan(DbText(i.text)) == Ok(i)
  {
  }
}

=== FILE: indexing_sync.dfy ===
/** Syncing an owner's indexing options with a submitted list, as the
    update paths of menu items and pages do: write every submitted option
    in order (a later entry for the same option wins), then delete the
    owner's stored options the request does not name.

    The indexing table is keyed by (owner, option); the owner is a menu item
    id or a page's (menu item, locale) key. */
module IndexingSync {
  import opened Wrappers
  import IndexingEnum

  /** One submitted indexing option with its optional value. */
  datatype IndexingReq = IndexingReq(option: IndexingEnum.Indexing, value: Option<string>)

  /** The options a request names. */
  function Options(req: seq<IndexingReq>): (r: set<IndexingEnum.Indexing>)
    ensures forall i :: 0 <= i < |req| ==> req[i].option in r
    ensures forall o | o in r :: exists i :: 0 <= i < |req| && req[i].option == o
  {
    set i | 0 <= i < |req| :: req[i].option
  }

  /** The value the last entry for `o` carries. */
  function LastValue(req: seq<IndexingReq>, o: IndexingEnum.Indexing): Option<string>
    requires o in Options(req)
  {
    var n := |req|;
    if req[n - 1].option == o then req[n - 1].value
    else
      assert o in Options(req[..n - 1]) by {
        var i :| 0 <= i < n && req[i].option == o;
        assert req[..n - 1][i] == req[i];
      }
      LastValue(req[..n - 1], o)
  }

  /** The request with every value passed through `f`, as the page update
      passes each value through the empty-to-null rule before storing it. */
  function MapValues(req: seq<IndexingReq>, f: Option<string> -> Option<string>): (r: seq<IndexingReq>)
    ensures |r| == |req|
    ensures forall i :: 0 <= i < |req| ==> r[i] == IndexingReq(req[i].option, f(req[i].value))
  {
    seq(|req|, i requires 0 <= i < |req| => IndexingReq(req[i].option, f(req[i].value)))
  }

  /** Mapping the values keeps the options. */
  lemma MapValuesOptions(req: seq<IndexingReq>, f: Option<string> -> Option<string>)
    ensures Options(MapValues(req, f)) == Options(req)
  {
    var m := MapValues(req, f);
    forall x | x in Options(m)
      ensures x in Options(req)
    {
      var i :| 0 <= i < |m| && m[i].option == x;
      assert req[i].option == x;
    }
  }

  /** The position of the last entry for `o`. */
  function LastIndex(req: seq<IndexingReq>, o: IndexingEnum.Indexing): (i: nat)
    requires o in Options(req)
    ensures i < |req| && req[i].option == o
    ensures forall j :: i < j < |req| ==> req[j].option != o
  {
    var n := |req|;
    if req[n - 1].option == o then n - 1
    else
      var pre := req[..n - 1];
      assert o in Options(pre) by {
        var i :| 0 <= i < n && req[i].option == o;
        assert pre[i] == req[i];
      }
      var i := LastIndex(pre, o);
      assert forall j :: i < j < n - 1 ==> pre[j] == req[j];
      i
  }

  /** The value of `LastValue` is the one carried by the entry no later
      entry for the same option follows. */
  lemma {:induction false} LastValueAt(req: seq<IndexingReq>, o: IndexingEnum.Indexing, i: nat)
    requires i < |req| && req[i].option == o
    requires forall j :: i < j < |req| ==> req[j].option != o
    ensures o in Options(req) && LastValue(req, o) == req[i].value
    decreases |req|
  {
    var n := |req|;
    if i < n - 1 {
      var pre := req[..n - 1];
      assert pre[i] == req[i];
      assert forall j :: i < j < n - 1 ==> pre[j] == req[j];
      LastValueAt(pre, o, i);
    }
  }

  /** Mapping the values maps the last value of each option. */
  lemma MapValuesLast(req: seq<IndexingReq>, f: Option<string> -> Option<string>, o: IndexingEnum.Indexing)
    requires o in Options(req)
    ensures o in Options(MapValues(req, f)) && LastValue(MapValues(req, f), o) == f(LastValue(req, o))
  {
    var i := LastIndex(req, o);
    LastValueAt(req, o, i);
    LastValueAt(MapValues(req, f), o, i);
  }

  /** Every entry written in request order; a later entry for the same
      option overwrites an earlier one. */
  function UpsertAll<K(==)>(ix: map<(K, IndexingEnum.Indexing), Option<string>>, owner: K, req: seq<IndexingReq>): (r: map<(K, IndexingEnum.Indexing), Option<string>>)
    ensures forall o | o in Options(req) :: (owner, o) in r && r[(owner, o)] == LastValue(req, o)
    ensures forall k | k in ix :: k in r
    ensures forall k | k in r && (k.0 != owner || k.1 !in Options(req)) :: k in ix && r[k] == ix[k]
  {
    if |req| == 0 then ix
    else
      var n := |req|;
      var pre := UpsertAll(ix, owner, req[..n - 1]);
      assert forall o :: o in Options(req) <==> o in Options(req[..n - 1]) || o == req[n - 1].option by {
        forall o | o in Options(req)
          ensures o in Options(req[..n - 1]) || o == req[n - 1].option
        {
          var i :| 0 <= i < n && req[i].option == o;
          if i < n - 1 {
            assert req[..n - 1][i] == req[i];
          }
        }
      }
      pre[(owner, req[n - 1].option) := req[n - 1].value]
  }

  /** The sync: afterwards the owner's options are exactly the submitted
      ones, each with the value of its last entry; every other owner's
      options are untouched. */
  function SyncIndexing<K(==,!new)>(ix: map<(K, IndexingEnum.Indexing), Option<string>>, owner: K, req: seq<IndexingReq>): (r: map<(K, IndexingEnum.Indexing), Option<string>>)
    ensures forall o :: (owner, o) in r <==> o in Options(req)
    ensures forall o | o in Options(req) :: r[(owner, o)] == LastValue(req, o)
    ensures forall k: (K, IndexingEnum.Indexing) | k.0 != owner :: (k in r <==> k in ix) && (k in ix ==> r[k] == ix[k])
  {
    var up := UpsertAll(ix, owner, req);
    map k | k in up && (k.0 != owner || k.1 in Options(req)) :: up[k]
  }

  /** `SyncIndexing` of the request with its values passed through `f`. */
  function SyncIndexingMapped<K(==,!new)>(ix: map<(K, IndexingEnum.Indexing), Option<string>>, owner: K, req: seq<IndexingReq>, f: Option<string> -> Option<string>)
    : (r: map<(K, IndexingEnum.Indexing), Option<string>>)
    ensures forall o :: (owner, o) in r <==> o in Options(req)
    ensures forall o | o in Options(req) :: r[(owner, o)] == f(LastValue(req, o))
    ensures forall k: (K, IndexingEnum.Indexing) | k.0 != owner :: (k in r <==> k in ix) && (k in ix ==> r[k] == ix[k])
  {
    var r := SyncIndexing(ix, owner, MapValues(req, f));
    MapValuesOptions(req, f);
    forall o | o in Options(req)
      ensures r[(owner, o)] == f(LastValue(req, o))
    {
      MapValuesLast(req, f, o);
    }
    r
  }

  /** Re-submitting the same options changes nothing. */
  lemma SyncIndexingIdempotent<K(!new)>(ix: map<(K, IndexingEnum.Indexing), Option<string>>, owner: K, req: seq<IndexingReq>)
    ensures SyncIndexing(SyncIndexing(ix, owner, req), owner, req) == SyncIndexing(ix, owner, req)
  {
    var a := SyncIndexing(ix, owner, req);
    var b := SyncIndexing(a, owner, req);
    forall k
      ensures k in a <==> k in b
      ensures k in a ==> a[k] == b[k]
    {
      if k.0 == owner {
        assert k == (owner, k.1);
      }
    }
  }
  // ---------------------------------------------------------------------
  // The sync as the menu item's update path writes it: per entry a
  // `FirstOrCreate` on (owner, option, value), where a nil value drops out
  // of the condition, followed by an update of the value to the one the
  // `FirstOrCreate` left in the struct.

  /** The value of the first entry for `o`. */
  function FirstValue(req: seq<IndexingReq>, o: IndexingEnum.Indexing): Option<string>
    requires o in Options(req)
  {
    if req[0].option == o then req[0].value
    else
      assert o in Options(req[1..]) by {
        var i :| 0 <= i < |req| && req[i].option == o;
        assert req[1..][i - 1] == req[i];
      }
      FirstValue(req[1..], o)
  }

  /** The value an option of `owner` holds once the request has named it:
      the stored one, or else the one its first entry inserted.  Nothing
      the loop does afterwards can change it. */
  function Kept<K(==)>(ix: map<(K, IndexingEnum.Indexing), Option<string>>, owner: K, req: seq<IndexingReq>, o: IndexingEnum.Indexing): Option<string>
    requires o in Options(req)
  {
    if (owner, o) in ix then ix[(owner, o)] else FirstValue(req, o)
  }

  /** Whether every entry that carries a value carries the value its option
      keeps: the condition under which no insert hits the primary key. */
  predicate NoConflict<K(==)>(ix: map<(K, IndexingEnum.Indexing), Option<string>>, owner: K, req: seq<IndexingReq>) {
    forall i :: 0 <= i < |req| && req[i].value.Some? ==> req[i].value == Kept(ix, owner, req, req[i].option)
  }

  /** The entries in request order: a stored row meeting the condition is
      kept as stored, a missing row is inserted with the entry's value, and a
      stored row with another value makes the insert fail on the primary
      key (owner, option).  What it computes is stated by `GetOrCreateAllKeeps`. */
  function GetOrCreateAll<K(==)>(ix: map<(K, IndexingEnum.Indexing), Option<string>>, owner: K, req: seq<IndexingReq>): (r: Result<map<(K, IndexingEnum.Indexing), Option<string>>>)
    ensures r.Err? ==> r.error == StoreFailure
    decreases |req|
  {
    if |req| == 0 then Ok(ix)
    else
      var k := (owner, req[0].option);
      if k in ix && req[0].value.Some? && ix[k] != req[0].value then Err(StoreFailure)
      else GetOrCreateAll(if k in ix then ix else ix[k := req[0].value], owner, req[1..])
  }

  /** The loop fails exactly on a conflicting entry; otherwise every named
      option holds the value it keeps, stored rows are unchanged, and only
      the named options of `owner` are added. */
  lemma {:induction false} GetOrCreateAllKeeps<K>(ix: map<(K, IndexingEnum.Indexing), Option<string>>, owner: K, req: seq<IndexingReq>)
    ensures var r := GetOrCreateAll(ix, owner, req);
      && (r.Ok? <==> NoConflict(ix, owner, req))
      && (r.Ok? ==> forall o | o in Options(req) :: (owner, o) in r.value && r.value[(owner, o)] == Kept(ix, owner, req, o))
      && (r.Ok? ==> forall k | k in ix :: k in r.value && r.value[k] == ix[k])
      && (r.Ok? ==> forall k | k in r.value && k !in ix :: k.0 == owner && k.1 in Options(req))
    decreases |req|
  {
    if |req| > 0 {
      var k := (owner, req[0].option);
      if k in ix && req[0].value.Some? && ix[k] != req[0].value {
        assert Kept(ix, owner, req, req[0].option) == ix[k];
      } else {
        var ix1 := if k in ix then ix else ix[k := req[0].value];
        GetOrCreateAllKeeps(ix1, owner, req[1..]);
        KeptStep(ix, owner, req, ix1);
      }
    }
  }

  /** The step of `GetOrCreateAll`: after the first entry, the rest of the
      request keeps the same values and meets the same condition. */
  lemma KeptStep<K>(ix: map<(K, IndexingEnum.Indexing), Option<string>>, owner: K, req: seq<IndexingReq>, ix1: map<(K, IndexingEnum.Indexing), Option<string>>)
    requires |req| > 0
    requires var k := (owner, req[0].option);
      && !(k in ix && req[0].value.Some? && ix[k] != req[0].value)
      && ix1 == if k in ix then ix else ix[k := req[0].value]
    ensures forall o | o in Options(req[1..]) :: o in Options(req) && Kept(ix1, owner, req[1..], o) == Kept(ix, owner, req, o)
    ensures (owner, req[0].option) in ix1 && ix1[(owner, req[0].option)] == Kept(ix, owner, req, req[0].option)
    ensures NoConflict(ix1, owner, req[1..]) <==> NoConflict(ix, owner, req)
    ensures forall k | k in ix :: k in ix1 && ix1[k] == ix[k]
    ensures forall k | k in ix1 && k !in ix :: k == (owner, req[0].option)
    ensures Options(req) == Options(req[1..]) + {req[0].option}
  {
    var rest := req[1..];
    forall o | o in Options(rest)
      ensures o in Options(req) && Kept(ix1, owner, rest, o) == Kept(ix, owner, req, o)
    {
      var i :| 0 <= i < |rest| && rest[i].option == o;
      assert req[i + 1] == rest[i];
    }
    assert Options(req) == Options(rest) + {req[0].option} by {
      forall o | o in Options(req)
        ensures o in Options(rest) + {req[0].option}
      {
        var i :| 0 <= i < |req| && req[i].option == o;
        if i > 0 {
          assert rest[i - 1] == req[i];
        }
      }
    }
    if NoConflict(ix1, owner, rest) {
      forall i | 0 <= i < |req| && req[i].value.Some?
        ensures req[i].value == Kept(ix, owner, req, req[i].option)
      {
        if i > 0 {
          assert rest[i - 1] == req[i];
        }
      }
    }
    if NoConflict(ix, owner, req) {
      forall i | 0 <= i < |rest| && rest[i].value.Some?
        ensures rest[i].value == Kept(ix1, owner, rest, rest[i].option)
      {
        assert rest[i] == req[i + 1];
      }
    }
  }

  /** The indexing sync of `upsertMenuItem` as written:
      the per-entry get-or-create, then the deletion of the owner's options
      the request does not name. */
  function SyncIndexingAsWritten<K(==,!new)>(ix: map<(K, IndexingEnum.Indexing), Option<string>>, owner: K, req: seq<IndexingReq>): (r: Result<map<(K, IndexingEnum.Indexing), Option<string>>>)
    ensures r.Ok? <==> NoConflict(ix, owner, req)
    ensures r.Err? ==> r.error == StoreFailure
    ensures r.Ok? ==> forall o :: (owner, o) in r.value <==> o in Options(req)
    ensures r.Ok? ==> forall o | o in Options(req) :: r.value[(owner, o)] == Kept(ix, owner, req, o)
    ensures r.Ok? ==> forall k: (K, IndexingEnum.Indexing) | k.0 != owner :: (k in r.value <==> k in ix) && (k in ix ==> r.value[k] == ix[k])
  {
    GetOrCreateAllKeeps(ix, owner, req);
    var up :- GetOrCreateAll(ix, owner, req);
    Ok(map k | k in up && (k.0 != owner || k.1 in Options(req)) :: up[k])
  }

  /** As written, submitting a new value for a stored option fails the
      whole transaction, where the intended sync stores the new value. */
  lemma ChangedValueFailsAsWritten<K(!new)>(ix: map<(K, IndexingEnum.Indexing), Option<string>>, owner: K, o: IndexingEnum.Indexing, v: string)
    requires (owner, o) in ix && ix[(owner, o)] != Some(v)
    ensures SyncIndexingAsWritten(ix, owner, [IndexingReq(o, Some(v))]) == Err(StoreFailure)
    ensures SyncIndexing(ix, owner, [IndexingReq(o, Some(v))])[(owner, o)] == Some(v)
  {
    var req := [IndexingReq(o, Some(v))];
    assert req[0].option == o;
    assert !NoConflict(ix, owner, req);
    LastValueAt(req, o, 0);
  }

  /** As written, submitting no value for a stored option keeps the stored
      value, where the intended sync clears it. */
  lemma NilValueKeptAsWritten<K(!new)>(ix: map<(K, IndexingEnum.Indexing), Option<string>>, owner: K, o: IndexingEnum.Indexing)
    requires (owner, o) in ix
    ensures var r := SyncIndexingAsWritten(ix, owner, [IndexingReq(o, None)]);
      r.Ok? && r.value[(owner, o)] == ix[(owner, o)]
    ensures SyncIndexing(ix, owner, [IndexingReq(o, None)])[(owner, o)] == None
  {
    var req := [IndexingReq(o, None)];
    assert req[0].option == o && o in Options(req);
    LastValueAt(req, o, 0);
  }
}

=== FILE: lookup_cache.dfy ===
/** The cache-aside lookup shared by the menu, version and module lookups,
    and the optional name filter applied to its result.

    The cache is a map from key to cached list.  Which cache commands fail
    on a given call is a parameter; the store query is passed in as its
    result. */
module LookupCache {
  import opened Wrappers
  import Slug

  /** Which cache commands fail on this call: the existence check, the
      read, and the write-back. */
  datatype Faults = Faults(existsFails: bool, getFails: bool, setFails: bool)

  const NoFaults := Faults(false, false, false)

  /** The cached list is used: it exists, reads, and is non-empty. */
  predicate Hit<K, T>(c: map<K, seq<T>>, key: K, fx: Faults) {
    !fx.existsFails && key in c && !fx.getFails && |c[key]| > 0
  }

  /** The store is queried: the key is absent, or holds an empty list. */
  predicate Miss<K, T>(c: map<K, seq<T>>, key: K, fx: Faults) {
    !fx.existsFails && (key !in c || (!fx.getFails && |c[key]| == 0))
  }

  /** The unfiltered part of `GetMenuLookup`, `GetVersionLookup` and
      `GetModuleLookup`.  A failing existence check or read is an error; a
      hit returns the cached list; a miss returns the store's rows and
      writes them back, ignoring a failing write. */
  function Lookup<K(!new), T>(c: map<K, seq<T>>, key: K, fx: Faults, query: Result<seq<T>>): (r: (map<K, seq<T>>, Result<seq<T>>))
    ensures fx.existsFails ==> r == (c, Err(CacheFailure))
    ensures !fx.existsFails && key in c && fx.getFails ==> r == (c, Err(CacheFailure))
    ensures Hit(c, key, fx) ==> r == (c, Ok(c[key]))
    ensures Miss(c, key, fx) && query.Err? ==> r == (c, Err(query.error))
    ensures Miss(c, key, fx) && query.Ok? ==>
      r.1 == query && r.0 == (if fx.setFails then c else c[key := query.value])
    ensures forall k | k != key :: (k in r.0 <==> k in c) && (k in c ==> r.0[k] == c[k])
  {
    if fx.existsFails then (c, Err(CacheFailure))
    else if key in c && fx.getFails then (c, Err(CacheFailure))
    else if key in c && |c[key]| > 0 then (c, Ok(c[key]))
    else match query {
      case Err(e) => (c, Err(e))
      case Ok(rows) => (if fx.setFails then c else c[key := rows], Ok(rows))
    }
  }

  /** A coherent cache answers like the store: when the key is absent or
      holds exactly the store's rows, the lookup returns the store's rows
      and leaves the cache coherent. */
  lemma LookupCoherent<K(!new), T>(c: map<K, seq<T>>, key: K, rows: seq<T>)
    requires key !in c || c[key] == rows
    ensures Lookup(c, key, NoFaults, Ok(rows)).1 == Ok(rows)
    ensures Lookup(c, key, NoFaults, Ok(rows)).0 == c[key := rows]
  {
  }

  /** After a miss that wrote back a non-empty list, the next lookup is a
      hit on that list whatever the store would answer. */
  lemma WriteBackThenHit<K(!new), T>(c: map<K, seq<T>>, key: K, rows: seq<T>, later: Result<seq<T>>)
    requires Miss(c, key, NoFaults) && |rows| > 0
    ensures var c' := Lookup(c, key, NoFaults, Ok(rows)).0;
            Lookup(c', key, NoFaults, later) == (c', Ok(rows))
  {
  }

  /** An empty cached list never answers: the store is asked again. */
  lemma EmptyListIsMiss<K(!new), T>(c: map<K, seq<T>>, key: K, fx: Faults, query: Result<seq<T>>)
    requires !fx.existsFails && key in c && !fx.getFails && |c[key]| == 0
    ensures Lookup(c, key, fx, query).1 == query
  {
  }

  /** A write drops the lookup key of the app it touched: that key is gone,
      every other key is as it was. */
  function Invalidate<T>(c: map<string, seq<T>>, app: string): (r: map<string, seq<T>>)
    ensures app !in r
    ensures forall a | a != app :: (a in r <==> a in c) && (a in c ==> r[a] == c[a])
  {
    c - {app}
  }

  // ---------------------------------------------------------------------
  // The name filter.

  /** `needle` occurs in `hay` starting at index `i`. */
  predicate OccursAt(hay: string, needle: string, i: nat) {
    i + |needle| <= |hay| && hay[i..i + |needle|] == needle
  }

  /** `strings.Contains`. */
  function Contains(hay: string, needle: string): (r: bool)
    ensures r <==> exists i: nat :: OccursAt(hay, needle, i)
    decreases |hay|
  {
    if |needle| > |hay| then false
    else if hay[..|needle|] == needle then
      assert OccursAt(hay, needle, 0);
      true
    else
      var r := Contains(hay[1..], needle);
      assert r ==> exists i: nat :: OccursAt(hay, needle, i) by {
        if r {
          var i: nat :| OccursAt(hay[1..], needle, i);
          assert hay[i + 1..i + 1 + |needle|] == hay[1..][i..i + |needle|];
          assert OccursAt(hay, needle, i + 1);
        }
      }
      assert (exists i: nat :: OccursAt(hay, needle, i)) ==> r by {
        if i: nat :| OccursAt(hay, needle, i) {
          assert i != 0;
          assert hay[1..][i - 1..i - 1 + |needle|] == hay[i..i + |needle|];
          assert OccursAt(hay[1..], needle, i - 1);
        }
      }
      r
  }

  /** No filter, or one that is blank after trimming. */
  predicate Blank(name: Option<string>) {
    name.None? || Slug.TrimSpace(name.value) == ""
  }

  /** Whether a row's name passes a non-blank filter: the trimmed filter,
      lower-cased, occurs in the lower-cased name. */
  predicate Matches(rowName: string, filter: string) {
    Contains(Slug.ToLower(rowName), Slug.ToLower(Slug.TrimSpace(filter)))
  }

  /** `a` is `b` with some elements left out, order kept. */
  predicate IsSubsequence<T(==)>(a: seq<T>, b: seq<T>)
    decreases |b|
  {
    if |a| == 0 then true
    else if |b| == 0 then false
    else if a[0] == b[0] then IsSubsequence(a[1..], b[1..])
    else IsSubsequence(a, b[1..])
  }

  function KeepMatching<T(==)>(rows: seq<T>, nameOf: T -> string, filter: string): (r: seq<T>)
    ensures IsSubsequence(r, rows)
    ensures forall i :: 0 <= i < |r| ==> Matches(nameOf(r[i]), filter)
    ensures forall i :: 0 <= i < |rows| && Matches(nameOf(rows[i]), filter) ==> rows[i] in r
    decreases |rows|
  {
    if |rows| == 0 then []
    else
      var rest := KeepMatching(rows[1..], nameOf, filter);
      assert forall i :: 1 <= i < |rows| ==> rows[i] == rows[1..][i - 1];
      if Matches(nameOf(rows[0]), filter) then
        var r := [rows[0]] + rest;
        assert r[1..] == rest;
        r
      else rest
  }

  /** The name filter of the three lookups: a blank filter keeps the list;
      otherwise exactly the matching rows are kept, in order. */
  function FilterByName<T(==)>(rows: seq<T>, nameOf: T -> string, name: Option<string>): (r: seq<T>)
    ensures Blank(name) ==> r == rows
    ensures IsSubsequence(r, rows)
    ensures !Blank(name) ==> forall i :: 0 <= i < |r| ==> Matches(nameOf(r[i]), name.value)
    ensures !Blank(name) ==> forall i :: 0 <= i < |rows| && Matches(nameOf(rows[i]), name.value) ==> rows[i] in r
  {
    if Blank(name) then
      SubsequenceRefl(rows);
      rows
    else KeepMatching(rows, nameOf, name.value)
  }

  lemma {:induction false} SubsequenceRefl<T>(s: seq<T>)
    ensures IsSubsequence(s, s)
    decreases |s|
  {
    if |s| > 0 {
      SubsequenceRefl(s[1..]);
    }
  }

  /** Filtering a filtered list again changes nothing. */
  lemma {:induction false} KeepMatchingIdempotent<T>(rows: seq<T>, nameOf: T -> string, filter: string)
    ensures KeepMatching(KeepMatching(rows, nameOf, filter), nameOf, filter) == KeepMatching(rows, nameOf, filter)
    decreases |rows|
  {
    if |rows| > 0 {
      var rest := KeepMatching(rows[1..], nameOf, filter);
      KeepMatchingIdempotent(rows[1..], nameOf, filter);
      if Matches(nameOf(rows[0]), filter) {
        var r := [rows[0]] + rest;
        assert r[1..] == rest;
      }
    }
  }

  lemma FilterByNameIdempotent<T>(rows: seq<T>, nameOf: T -> string, name: Option<string>)
    ensures FilterByName(FilterByName(rows, nameOf, name), nameOf, name) == FilterByName(rows, nameOf, name)
  {
    if !Blank(name) {
      KeepMatchingIdempotent(rows, nameOf, name.value);
    }
  }
}

=== FILE: menu_engine.dfy ===
// The menu-tree engine: building a menu's relations from a nested create
// request, and reconciling a stored menu against a nested update request.
//
// The store is explicit state.  Menu rows and item rows live in sequences
// whose index is the auto-increment id; relations are keyed by their
// primary key (menu, child); indexing options are keyed by (item, option).
// A failed step aborts the enclosing transaction, so every operation here
// returns either the new store or an error and never a partial store.

module MenuEngine {
  import opened Wrappers
  import opened RelationOrder
  import opened MenuRequests
  import opened IndexingSync
  import opened NameIndex
  import IndexingEnum

  /** A stored menu row. */
  datatype MenuRec = MenuRec(versionId: nat, name: string, deleted: bool)

  /** A stored menu item row; `deleted` is the soft-delete mark. */
  datatype ItemRec = ItemRec(versionId: nat, name: string, icon: Option<string>, enabledAt: Option<int>, deleted: bool)

  /** The non-key columns of a relation row. */
  datatype Edge = Edge(parent: Option<nat>, position: nat)

  datatype Store = Store(
    menus: seq<MenuRec>,
    items: seq<ItemRec>,
    edges: map<(nat, nat), Edge>,
    indexing: map<(nat, IndexingEnum.Indexing), Option<string>>)

  /** A menu row's entry in the unique (version, name) index, which also
      holds soft-deleted rows. */
  function MenuKey(m: MenuRec): NameKey<nat> {
    NameKey(m.versionId, m.name, !m.deleted)
  }

  /** The menu being written: its id and its version. */
  datatype MenuRef = MenuRef(id: nat, versionId: nat)

  /** An emitted relation carries the child row as it was when emitted. */
  type Rel = Relation<ItemRec>

  predicate Live(s: Store, id: nat) {
    id < |s.items| && !s.items[id].deleted
  }

  /** Later states only append rows; menus are not touched by the tree
      operations. */
  predicate Grows(s: Store, s': Store) {
    |s.items| <= |s'.items| && s'.menus == s.menus
  }

  // ---------------------------------------------------------------------
  // Get-or-create of item rows.

  /** The condition `FirstOrCreate` builds from a new item row: version and
      name, and the icon and the enabled-at only when given, since a column
      holding its zero value drops out of the condition.  The default scope
      skips soft-deleted rows. */
  predicate ItemMatches(x: ItemRec, versionId: nat, name: string, icon: Option<string>, enabledAt: Option<int>) {
    && !x.deleted && x.versionId == versionId && x.name == name
    && (icon.None? || x.icon == icon)
    && (enabledAt.None? || x.enabledAt == enabledAt)
  }

  function FirstMatch(items: seq<ItemRec>, versionId: nat, name: string, icon: Option<string>, enabledAt: Option<int>, i: nat): (r: Option<nat>)
    requires i <= |items|
    ensures r.Some? ==> i <= r.value < |items| && ItemMatches(items[r.value], versionId, name, icon, enabledAt)
    ensures r.Some? ==> forall j :: i <= j < r.value ==> !ItemMatches(items[j], versionId, name, icon, enabledAt)
    ensures r.None? ==> forall j :: i <= j < |items| ==> !ItemMatches(items[j], versionId, name, icon, enabledAt)
    decreases |items| - i
  {
    if i == |items| then None
    else if ItemMatches(items[i], versionId, name, icon, enabledAt) then Some(i)
    else FirstMatch(items, versionId, name, icon, enabledAt, i + 1)
  }

  /** `FirstOrCreate` of an item row: the first matching row, kept as
      stored, or else a new row with the given attributes. */
  function GetOrCreateItem(items: seq<ItemRec>, versionId: nat, name: string, icon: Option<string>, enabledAt: Option<int>): (r: (seq<ItemRec>, nat))
    ensures r.1 < |r.0| && ItemMatches(r.0[r.1], versionId, name, icon, enabledAt)
    ensures (exists j :: 0 <= j < |items| && ItemMatches(items[j], versionId, name, icon, enabledAt)) ==>
      r.0 == items && forall j :: 0 <= j < r.1 ==> !ItemMatches(items[j], versionId, name, icon, enabledAt)
    ensures (forall j :: 0 <= j < |items| ==> !ItemMatches(items[j], versionId, name, icon, enabledAt)) ==>
      r.0 == items + [ItemRec(versionId, name, icon, enabledAt, false)] && r.1 == |items|
  {
    match FirstMatch(items, versionId, name, icon, enabledAt, 0) {
      case Some(j) => (items, j)
      case None => (items + [ItemRec(versionId, name, icon, enabledAt, false)], |items|)
    }
  }

  // ---------------------------------------------------------------------
  // The update path.

  /** `upsertMenuItem`.  A descriptor with an id must name a live item,
      whose name, icon and enabled-at are then overwritten; a descriptor
      without an id is get-or-created by version, name, and the icon and
      enabled-at it gives.  Then the item's indexing is synced. */
  function UpsertItem(s: Store, versionId: nat, d: UpdateItem): (r: Result<(Store, nat)>)
    ensures d.id.Some? ==> (r.Err? <==> !Live(s, d.id.value))
    ensures r.Err? ==> r.error == NotFound
    ensures r.Ok? ==>
      var (s', id) := r.value;
      && Grows(s, s') && Live(s', id)
      && (d.id.Some? ==> s'.items[id].name == d.name && s'.items[id].icon == d.icon && s'.items[id].enabledAt == d.enabledAt)
      && (d.id.None? ==> ItemMatches(s'.items[id], versionId, d.name, d.icon, d.enabledAt))
      && (forall j :: 0 <= j < |s.items| && j != id ==> s'.items[j] == s.items[j])
      && s'.edges == s.edges
      && s'.indexing == SyncIndexing(s.indexing, id, d.indexing)
    ensures r.Ok? && d.id.Some? ==>
      r.value.1 == d.id.value && |r.value.0.items| == |s.items|
      && r.value.0.items[r.value.1].versionId == s.items[d.id.value].versionId
    ensures d.id.None? ==> r.Ok?
    ensures d.id.None? && r.Ok? ==>
      var (items', id) := GetOrCreateItem(s.items, versionId, d.name, d.icon, d.enabledAt);
      r.value.0.items == items' && r.value.1 == id
  {
    match d.id {
      case Some(id) =>
        if !Live(s, id) then Err(NotFound)
        else
          var rec := s.items[id].(name := d.name, icon := d.icon, enabledAt := d.enabledAt);
          Ok((s.(items := s.items[id := rec], indexing := SyncIndexing(s.indexing, id, d.indexing)), id))
      case None =>
        var (items', id) := GetOrCreateItem(s.items, versionId, d.name, d.icon, d.enabledAt);
        Ok((s.(items := items', indexing := SyncIndexing(s.indexing, id, d.indexing)), id))
    }
  }

  /** The relation for `child` in `menu` gets the wanted parent and
      position: a differing row is deleted and the wanted one created, so
      afterwards exactly one row exists for the child and no other row
      changed. */
  function FixEdge(edges: map<(nat, nat), Edge>, menu: nat, child: nat, parent: Option<nat>, position: nat): (r: map<(nat, nat), Edge>)
    ensures (menu, child) in r && r[(menu, child)] == Edge(parent, position)
    ensures r.Keys == edges.Keys + {(menu, child)}
    ensures forall k | k in edges && k != (menu, child) :: r[k] == edges[k]
  {
    edges[(menu, child) := Edge(parent, position)]
  }

  /** Whether the level cleanup under `parent` soft-deletes item `c`: it is
      related under that parent in this menu and was not submitted at this
      level. */
  predicate Doomed(s: Store, menu: nat, parent: Option<nat>, processed: set<nat>, c: nat) {
    (menu, c) in s.edges && s.edges[(menu, c)].parent == parent && c !in processed
  }

  /** The cleanup at the end of `reconcileMenuItems`: soft-delete the items
      related under this parent that were not processed.  Only the deleted
      mark changes, and only for those items; relations and indexing
      stay. */
  function Cleanup(s: Store, menu: nat, parent: Option<nat>, processed: set<nat>): (r: Store)
    ensures r.menus == s.menus && r.edges == s.edges && r.indexing == s.indexing
    ensures |r.items| == |s.items|
    ensures forall c :: 0 <= c < |s.items| ==>
      r.items[c].deleted == (s.items[c].deleted || Doomed(s, menu, parent, processed, c))
    ensures forall c :: 0 <= c < |s.items| ==>
      r.items[c] == s.items[c].(deleted := r.items[c].deleted)
  {
    var items' := seq(|s.items|, c requires 0 <= c < |s.items| =>
      if Doomed(s, menu, parent, processed, c) then s.items[c].(deleted := true) else s.items[c]);
    s.(items := items')
  }

  /** The shape of a submitted forest: positions, ids where given, and
      nesting. */
  datatype Shape = Shape(position: nat, id: Option<nat>, children: seq<Shape>)

  function ShapeSize(f: seq<Shape>): nat
    decreases f
  {
    if |f| == 0 then 0 else 1 + ShapeSize(f[0].children) + ShapeSize(f[1..])
  }

  function UpdateShape(f: seq<UpdateItem>): (r: seq<Shape>)
    ensures |r| == |f| && ShapeSize(r) == Size(f)
    decreases f
  {
    if |f| == 0 then []
    else
      var r := [Shape(f[0].position, f[0].id, UpdateShape(f[0].items))] + UpdateShape(f[1..]);
      assert r[1..] == UpdateShape(f[1..]);
      r
  }

  function CreateShape(f: seq<CreateItem>): (r: seq<Shape>)
    ensures |r| == |f| && ShapeSize(r) == CreateSize(f)
    decreases f
  {
    if |f| == 0 then []
    else
      var r := [Shape(f[0].position, None, CreateShape(f[0].items))] + CreateShape(f[1..]);
      assert r[1..] == CreateShape(f[1..]);
      r
  }

  /** The two walks over a submitted forest.  The update walk deletes a
      relation that differs from the wanted one before its `FirstOrCreate`,
      so the relation it emits is exactly the wanted one.  The create walk
      does not, and its `FirstOrCreate` reads a stored relation meeting the
      condition back into the relation it emits. */
  datatype Walk = UpdateWalk | CreateWalk

  /** Whether a relation with edge `emitted` may stand for a descriptor that
      wanted `wanted` in the given walk. */
  predicate EdgeFits(walk: Walk, emitted: Edge, wanted: Edge) {
    match walk
    case UpdateWalk => emitted == wanted
    case CreateWalk => EdgeMatches(emitted, wanted)
  }

  /** `rels` is what walking `f` in pre-order emits: one relation per
      descriptor, a node before its subtree, each in the menu, with the
      descriptor's id when it has one, and with an edge that fits the
      enclosing item as parent (`parent` at the top) and the descriptor's
      position.  The children are walked with the emitted item as parent. */
  predicate Emits(walk: Walk, f: seq<Shape>, menu: nat, parent: Option<nat>, rels: seq<Rel>)
    decreases f
  {
    if |f| == 0 then rels == []
    else
      var k := 1 + ShapeSize(f[0].children);
      && k <= |rels|
      && rels[0].menu == menu
      && EdgeFits(walk, Edge(rels[0].parent, rels[0].position), Edge(parent, f[0].position))
      && (f[0].id.Some? ==> rels[0].child == f[0].id.value)
      && Emits(walk, f[0].children, menu, Some(rels[0].child), rels[1..k])
      && Emits(walk, f[1..], menu, parent, rels[k..])
  }

  lemma {:induction false} EmitsLength(walk: Walk, f: seq<Shape>, menu: nat, parent: Option<nat>, rels: seq<Rel>)
    requires Emits(walk, f, menu, parent, rels)
    ensures |rels| == ShapeSize(f)
    decreases f
  {
    if |f| > 0 {
      var k := 1 + ShapeSize(f[0].children);
      EmitsLength(walk, f[0].children, menu, Some(rels[0].child), rels[1..k]);
      EmitsLength(walk, f[1..], menu, parent, rels[k..]);
    }
  }

  lemma EmitsCons(walk: Walk, f: seq<Shape>, menu: nat, parent: Option<nat>, rel: Rel, sub: seq<Rel>, rest: seq<Rel>)
    requires |f| > 0 && |sub| == ShapeSize(f[0].children)
    requires rel.menu == menu && EdgeFits(walk, Edge(rel.parent, rel.position), Edge(parent, f[0].position))
    requires f[0].id.Some? ==> rel.child == f[0].id.value
    requires Emits(walk, f[0].children, menu, Some(rel.child), sub)
    requires Emits(walk, f[1..], menu, parent, rest)
    ensures Emits(walk, f, menu, parent, [rel] + sub + rest)
  {
    var rels := [rel] + sub + rest;
    var k := 1 + |sub|;
    assert rels[1..k] == sub;
    assert rels[k..] == rest;
  }

  // ---------------------------------------------------------------------
  // What one level of the update walk does to the store.

  /** The items the emitted relations name as children. */
  function Children(rels: seq<Rel>): set<nat> {
    set i | 0 <= i < |rels| :: rels[i].child
  }

  /** The same items, as the parent a deeper level is reconciled under. */
  function Parents(rels: seq<Rel>): set<Option<nat>> {
    set i | 0 <= i < |rels| :: Some(rels[i].child)
  }

  /** The children the walk of `f` emitted at its top level, in order: the
      first relation, then those of the later siblings, skipping each
      subtree. */
  function TopChildren(f: seq<Shape>, rels: seq<Rel>): seq<nat>
    decreases f
  {
    if |f| == 0 then []
    else
      var k := 1 + ShapeSize(f[0].children);
      if k <= |rels| then [rels[0].child] + TopChildren(f[1..], rels[k..]) else []
  }

  /** From `s` to `s'` only the items in `touched` were written: every other
      existing item keeps all its columns but the deleted mark, gains that
      mark only when it was related in `menu` under one of `parents`, and
      keeps its relation row, or its lack of one.  Relations of other menus
      stay. */
  predicate TouchesOnly(s: Store, s': Store, menu: nat, touched: set<nat>, parents: set<Option<nat>>) {
    && Grows(s, s')
    && (forall c :: 0 <= c < |s.items| && c !in touched ==>
          s'.items[c] == s.items[c].(deleted := s'.items[c].deleted))
    && (forall c :: 0 <= c < |s.items| && c !in touched && s'.items[c].deleted && !s.items[c].deleted ==>
          (menu, c) in s.edges && s.edges[(menu, c)].parent in parents)
    && (forall k | k in s.edges && (k.0 != menu || k.1 !in touched) :: k in s'.edges && s'.edges[k] == s.edges[k])
    && (forall k | k in s'.edges && (k.0 != menu || k.1 !in touched) :: k in s.edges)
  }

  lemma {:induction false} TouchesOnlyTrans(s: Store, s1: Store, s2: Store, menu: nat, t1: set<nat>, p1: set<Option<nat>>, t2: set<nat>, p2: set<Option<nat>>)
    requires TouchesOnly(s, s1, menu, t1, p1) && TouchesOnly(s1, s2, menu, t2, p2)
    ensures TouchesOnly(s, s2, menu, t1 + t2, p1 + p2)
  {
    forall c | 0 <= c < |s.items| && c !in t1 + t2 && s2.items[c].deleted && !s.items[c].deleted
      ensures (menu, c) in s.edges && s.edges[(menu, c)].parent in p1 + p2
    {
      if !s1.items[c].deleted {
        assert (menu, c) in s1.edges;
      }
    }
  }

  /** Each top-level descriptor's item is live and related under `parent`
      at the descriptor's position. */
  predicate Placed(s: Store, menu: nat, parent: Option<nat>, items: seq<UpdateItem>, ids: seq<nat>) {
    && |ids| == |items|
    && forall k :: 0 <= k < |items| ==>
         Live(s, ids[k]) && (menu, ids[k]) in s.edges && s.edges[(menu, ids[k])] == Edge(parent, items[k].position)
  }

  /** Every item related under `parent` in `menu` that is not among
      `processed` is soft-deleted. */
  predicate LevelCleaned(s: Store, menu: nat, parent: Option<nat>, processed: seq<nat>) {
    forall c :: 0 <= c < |s.items| && (menu, c) in s.edges && s.edges[(menu, c)].parent == parent && c !in processed ==>
      s.items[c].deleted
  }

  /** One descriptor of the loop before its children: upsert the item, fix
      its relation, and build the relation to emit. */
  function ReconcileOne(s: Store, menu: MenuRef, parent: Option<nat>, d: UpdateItem): (r: Result<(Store, Rel)>)
    ensures r.Ok? ==> Grows(s, r.value.0)
    ensures r.Ok? ==> var (s1, rel) := r.value;
      && rel.menu == menu.id && rel.parent == parent && rel.position == d.position
      && (d.id.Some? ==> rel.child == d.id.value)
      && Live(s1, rel.child) && rel.item == s1.items[rel.child]
      && (menu.id, rel.child) in s1.edges && s1.edges[(menu.id, rel.child)] == Edge(parent, d.position)
    ensures r.Ok? ==> TouchesOnly(s, r.value.0, menu.id, {r.value.1.child}, {})
    ensures d.id.Some? ==> (r.Err? <==> !Live(s, d.id.value))
  {
    var up :- UpsertItem(s, menu.versionId, d);
    var s1 := up.0.(edges := FixEdge(up.0.edges, menu.id, up.1, parent, d.position));
    Ok((s1, Relation(menu.id, parent, up.1, d.position, s1.items[up.1])))
  }

  /** The loop of `reconcileMenuItems` over one level: upsert, fix the
      relation, emit it, recurse into the children, and record the id as
      processed.  When the request names no item twice and never places an
      item inside its own subtree, every descriptor's item ends live and
      related as submitted. */
  function ReconcileLoop(s: Store, menu: MenuRef, parent: Option<nat>, items: seq<UpdateItem>): (r: Result<(Store, seq<Rel>, seq<nat>)>)
    ensures r.Ok? ==> Grows(s, r.value.0)
    ensures r.Ok? ==> Emits(UpdateWalk, UpdateShape(items), menu.id, parent, r.value.1)
    ensures r.Ok? ==> |r.value.2| == |items|
    ensures r.Ok? ==> forall k :: 0 <= k < |items| && items[k].id.Some? ==> r.value.2[k] == items[k].id.value
    ensures r.Ok? ==> r.value.2 == TopChildren(UpdateShape(items), r.value.1)
    ensures r.Ok? ==> TouchesOnly(s, r.value.0, menu.id, Children(r.value.1), Parents(r.value.1))
    ensures r.Ok? && UniqueChildren(r.value.1) && parent !in Parents(r.value.1) ==>
      Placed(r.value.0, menu.id, parent, items, r.value.2)
    decreases Size(items), 0
  {
    if |items| == 0 then Ok((s, [], []))
    else
      var d := items[0];
      var one :- ReconcileOne(s, menu, parent, d);
      var rel := one.1;
      var sub :- ReconcileItems(one.0, menu, Some(rel.child), d.items);
      var rest :- ReconcileLoop(sub.0, menu, parent, items[1..]);
      LoopStep(s, menu, parent, items, one.0, rel, sub.0, sub.1, rest.0, rest.1, rest.2);
      Ok((rest.0, [rel] + sub.1 + rest.1, [rel.child] + rest.2))
  }

  /** The loop's contract for a non-empty level, from the contracts of the
      first descriptor's step, of its subtree and of the later siblings. */
  lemma LoopStep(s: Store, menu: MenuRef, parent: Option<nat>, items: seq<UpdateItem>,
                 s1: Store, rel: Rel, s2: Store, sub: seq<Rel>, s3: Store, rest: seq<Rel>, restIds: seq<nat>)
    requires |items| > 0
    requires Grows(s, s1) && TouchesOnly(s, s1, menu.id, {rel.child}, {})
    requires rel.menu == menu.id && rel.parent == parent && rel.position == items[0].position
    requires items[0].id.Some? ==> rel.child == items[0].id.value
    requires Live(s1, rel.child) && (menu.id, rel.child) in s1.edges && s1.edges[(menu.id, rel.child)] == Edge(parent, items[0].position)
    requires Grows(s1, s2) && Emits(UpdateWalk, UpdateShape(items[0].items), menu.id, Some(rel.child), sub)
    requires TouchesOnly(s1, s2, menu.id, Children(sub), Parents(sub) + {Some(rel.child)})
    requires Grows(s2, s3) && Emits(UpdateWalk, UpdateShape(items[1..]), menu.id, parent, rest)
    requires |restIds| == |items| - 1
    requires forall k :: 0 <= k < |items[1..]| && items[1..][k].id.Some? ==> restIds[k] == items[1..][k].id.value
    requires restIds == TopChildren(UpdateShape(items[1..]), rest)
    requires TouchesOnly(s2, s3, menu.id, Children(rest), Parents(rest))
    requires UniqueChildren(rest) && parent !in Parents(rest) ==> Placed(s3, menu.id, parent, items[1..], restIds)
    ensures var rels, ids := [rel] + sub + rest, [rel.child] + restIds;
      && Grows(s, s3)
      && Emits(UpdateWalk, UpdateShape(items), menu.id, parent, rels)
      && |ids| == |items|
      && (forall k :: 0 <= k < |items| && items[k].id.Some? ==> ids[k] == items[k].id.value)
      && ids == TopChildren(UpdateShape(items), rels)
      && TouchesOnly(s, s3, menu.id, Children(rels), Parents(rels))
      && (UniqueChildren(rels) && parent !in Parents(rels) ==> Placed(s3, menu.id, parent, items, ids))
  {
    EmitsLength(UpdateWalk, UpdateShape(items[0].items), menu.id, Some(rel.child), sub);
    assert UpdateShape(items)[0].children == UpdateShape(items[0].items);
    assert UpdateShape(items)[1..] == UpdateShape(items[1..]);
    EmitsCons(UpdateWalk, UpdateShape(items), menu.id, parent, rel, sub, rest);
    IdsKept(items, rel.child, restIds);
    TopChildrenCons(UpdateShape(items), rel, sub, rest);
    ChildrenCons(rel, sub, rest);
    TouchesOnlyTrans(s, s1, s2, menu.id, {rel.child}, {}, Children(sub), Parents(sub) + {Some(rel.child)});
    TouchesOnlyTrans(s, s2, s3, menu.id, {rel.child} + Children(sub), {} + (Parents(sub) + {Some(rel.child)}), Children(rest), Parents(rest));
    if UniqueChildren([rel] + sub + rest) && parent !in Parents([rel] + sub + rest) {
      LoopPlaced(s1, s2, s3, menu.id, parent, items, rel, sub, rest, restIds);
    }
  }

  /** The ids the loop reports keep every submitted id in place. */
  lemma IdsKept(items: seq<UpdateItem>, first: nat, rest: seq<nat>)
    requires |items| > 0 && |rest| == |items| - 1
    requires items[0].id.Some? ==> first == items[0].id.value
    requires forall k :: 0 <= k < |items| - 1 && items[1..][k].id.Some? ==> rest[k] == items[1..][k].id.value
    ensures forall k :: 0 <= k < |items| && items[k].id.Some? ==> ([first] + rest)[k] == items[k].id.value
  {
    forall k | 1 <= k < |items| && items[k].id.Some?
      ensures ([first] + rest)[k] == items[k].id.value
    {
      assert items[k] == items[1..][k - 1];
    }
  }

  lemma TopChildrenCons(f: seq<Shape>, rel: Rel, sub: seq<Rel>, rest: seq<Rel>)
    requires |f| > 0 && |sub| == ShapeSize(f[0].children)
    ensures TopChildren(f, [rel] + sub + rest) == [rel.child] + TopChildren(f[1..], rest)
  {
    assert ([rel] + sub + rest)[1 + |sub|..] == rest;
  }

  lemma {:induction false} ChildrenCons(rel: Rel, sub: seq<Rel>, rest: seq<Rel>)
    ensures Children([rel] + sub + rest) == {rel.child} + Children(sub) + Children(rest)
    ensures Parents([rel] + sub + rest) == {} + (Parents(sub) + {Some(rel.child)}) + Parents(rest)
  {
    var all := [rel] + sub + rest;
    assert all[0] == rel;
    assert forall i :: 0 <= i < |sub| ==> all[1 + i] == sub[i];
    assert forall i :: 0 <= i < |rest| ==> all[1 + |sub| + i] == rest[i];
    forall i | 0 <= i < |all|
      ensures all[i].child in {rel.child} + Children(sub) + Children(rest)
    {
      if 1 <= i < 1 + |sub| {
        assert all[i] == sub[i - 1];
      } else if 1 + |sub| <= i {
        assert all[i] == rest[i - 1 - |sub|];
      }
    }
  }

  /** In a sequence of relations without repeated children, the first
      child recurs in neither part of the rest, and the tail has no repeats
      either. */
  lemma UniqueSplit(rel: Rel, sub: seq<Rel>, rest: seq<Rel>)
    requires UniqueChildren([rel] + sub + rest)
    ensures rel.child !in Children(sub) && rel.child !in Children(rest)
    ensures UniqueChildren(rest)
  {
    var all := [rel] + sub + rest;
    assert all[0].child == rel.child;
    forall i | 0 <= i < |sub|
      ensures sub[i].child != rel.child
    {
      assert all[1 + i] == sub[i];
    }
    forall i | 0 <= i < |rest|
      ensures rest[i].child != rel.child
    {
      assert all[1 + |sub| + i] == rest[i];
    }
    forall i, j | 0 <= i < |rest| && 0 <= j < |rest| && rest[i].child == rest[j].child
      ensures i == j
    {
      assert all[1 + |sub| + i] == rest[i] && all[1 + |sub| + j] == rest[j];
    }
  }

  /** An item placed under a parent stays placed across a write that
      neither touches it nor cleans up under that parent. */
  lemma StaysPlaced(s: Store, s': Store, menu: nat, id: nat, e: Edge, touched: set<nat>, parents: set<Option<nat>>)
    requires Live(s, id) && (menu, id) in s.edges && s.edges[(menu, id)] == e
    requires TouchesOnly(s, s', menu, touched, parents) && id !in touched && e.parent !in parents
    ensures Live(s', id) && (menu, id) in s'.edges && s'.edges[(menu, id)] == e
  {
  }

  /** The step of the loop's placement fact: the first descriptor's item is
      neither written by its own subtree nor by the later siblings, nor
      deleted by any cleanup those run, because none of them relates it
      again. */
  lemma {:induction false} LoopPlaced(s1: Store, s2: Store, s3: Store, menu: nat, parent: Option<nat>, items: seq<UpdateItem>,
                                      rel: Rel, sub: seq<Rel>, rest: seq<Rel>, restIds: seq<nat>)
    requires |items| > 0
    requires Live(s1, rel.child) && (menu, rel.child) in s1.edges && s1.edges[(menu, rel.child)] == Edge(parent, items[0].position)
    requires TouchesOnly(s1, s2, menu, Children(sub), Parents(sub) + {Some(rel.child)})
    requires TouchesOnly(s2, s3, menu, Children(rest), Parents(rest))
    requires UniqueChildren(rest) && parent !in Parents(rest) ==> Placed(s3, menu, parent, items[1..], restIds)
    requires |restIds| == |items| - 1
    requires Children([rel] + sub + rest) == {rel.child} + Children(sub) + Children(rest)
    requires Parents([rel] + sub + rest) == {} + (Parents(sub) + {Some(rel.child)}) + Parents(rest)
    requires UniqueChildren([rel] + sub + rest) && parent !in Parents([rel] + sub + rest)
    ensures Placed(s3, menu, parent, items, [rel.child] + restIds)
  {
    var all := [rel] + sub + rest;
    var id := rel.child;
    UniqueSplit(rel, sub, rest);
    assert Some(all[0].child) in Parents(all);
    StaysPlaced(s1, s2, menu, id, Edge(parent, items[0].position), Children(sub), Parents(sub) + {Some(id)});
    StaysPlaced(s2, s3, menu, id, Edge(parent, items[0].position), Children(rest), Parents(rest));
    forall k | 1 <= k < |items|
      ensures items[k] == items[1..][k - 1]
    {
    }
  }

  /** `reconcileMenuItems`: the level loop followed by the level cleanup.
      Afterwards every item related under `parent` and not submitted at
      this level is soft-deleted; items outside the request are otherwise
      left alone. */
  function ReconcileItems(s: Store, menu: MenuRef, parent: Option<nat>, items: seq<UpdateItem>): (r: Result<(Store, seq<Rel>)>)
    ensures r.Ok? ==> Grows(s, r.value.0)
    ensures r.Ok? ==> Emits(UpdateWalk, UpdateShape(items), menu.id, parent, r.value.1)
    ensures r.Ok? ==> LevelCleaned(r.value.0, menu.id, parent, TopChildren(UpdateShape(items), r.value.1))
    ensures r.Ok? ==> TouchesOnly(s, r.value.0, menu.id, Children(r.value.1), Parents(r.value.1) + {parent})
    ensures r.Ok? && UniqueChildren(r.value.1) && parent !in Parents(r.value.1) ==>
      Placed(r.value.0, menu.id, parent, items, TopChildren(UpdateShape(items), r.value.1))
    decreases Size(items), 1
  {
    var res :- ReconcileLoop(s, menu, parent, items);
    var cleaned := Cleanup(res.0, menu.id, parent, set id | id in res.2);
    CleanupLevel(s, res.0, menu.id, parent, items, res.1, res.2);
    Ok((cleaned, res.1))
  }

  /** The level's contract from the loop's: the cleanup deletes exactly the
      unsubmitted children of `parent`, which spares the items the loop
      placed. */
  lemma CleanupLevel(s: Store, s1: Store, menu: nat, parent: Option<nat>, items: seq<UpdateItem>, rels: seq<Rel>, ids: seq<nat>)
    requires TouchesOnly(s, s1, menu, Children(rels), Parents(rels))
    requires UniqueChildren(rels) && parent !in Parents(rels) ==> Placed(s1, menu, parent, items, ids)
    ensures var cleaned := Cleanup(s1, menu, parent, set id | id in ids);
      && LevelCleaned(cleaned, menu, parent, ids)
      && TouchesOnly(s, cleaned, menu, Children(rels), Parents(rels) + {parent})
      && (UniqueChildren(rels) && parent !in Parents(rels) ==> Placed(cleaned, menu, parent, items, ids))
  {
    var cleaned := Cleanup(s1, menu, parent, set id | id in ids);
    CleanupTouches(s1, menu, parent, set id | id in ids);
    TouchesOnlyTrans(s, s1, cleaned, menu, Children(rels), Parents(rels), {}, {parent});
    assert Children(rels) + {} == Children(rels);
  }

  /** The cleanup writes only deleted marks, and only under `parent`. */
  lemma CleanupTouches(s: Store, menu: nat, parent: Option<nat>, processed: set<nat>)
    ensures TouchesOnly(s, Cleanup(s, menu, parent, processed), menu, {}, {parent})
  {
  }

  /** A failed upsert of the first descriptor fails the whole level. */
  lemma UnresolvedIdFailsLevel(s: Store, menu: MenuRef, parent: Option<nat>, items: seq<UpdateItem>)
    requires |items| > 0 && items[0].id.Some? && !Live(s, items[0].id.value)
    ensures ReconcileItems(s, menu, parent, items) == Err(NotFound)
  {
  }

  // ---------------------------------------------------------------------
  // The create path.

  /** The condition `FirstOrCreate` builds from a relation row: a missing
      parent and position 0 are zero columns and drop out. */
  predicate EdgeMatches(stored: Edge, wanted: Edge) {
    && (wanted.parent.None? || stored.parent == wanted.parent)
    && (wanted.position == 0 || stored.position == wanted.position)
  }

  /** `FirstOrCreate` on a row keyed by its primary key: a stored row under
      the key that meets the condition is kept as stored, a missing row is
      inserted, and a stored row that fails the condition makes the insert
      fail on the primary key. */
  function GetOrCreateKeyed<K, V>(m: map<K, V>, k: K, v: V, matches: (V, V) -> bool): (r: Result<map<K, V>>)
    ensures r.Ok? <==> k !in m || matches(m[k], v)
    ensures r.Err? ==> r.error == StoreFailure
    ensures r.Ok? && k in m ==> r.value == m
    ensures r.Ok? && k !in m ==> r.value == m[k := v]
  {
    if k !in m then Ok(m[k := v])
    else if matches(m[k], v) then Ok(m)
    else Err(StoreFailure)
  }

  /** The relation row stored for `rel`'s child in `rel`'s menu has
      `rel`'s parent and position. */
  predicate RelStored(edges: map<(nat, nat), Edge>, rel: Rel) {
    (rel.menu, rel.child) in edges && edges[(rel.menu, rel.child)] == Edge(rel.parent, rel.position)
  }

  /** `createMenuItemHierarchy` over a list of sibling descriptors: for each,
      get-or-create the item, create its indexing and its relation, emit the
      relation as `FirstOrCreate` left it (the stored row when one met the
      condition), then recurse into the children with the item as parent.
      A stored relation is never rewritten, so every emitted relation is
      still the stored one at the end. */
  function CreateItems(s: Store, menu: MenuRef, parent: Option<nat>, items: seq<CreateItem>): (r: Result<(Store, seq<Rel>)>)
    ensures r.Ok? ==> Grows(s, r.value.0)
    ensures r.Ok? ==> Emits(CreateWalk, CreateShape(items), menu.id, parent, r.value.1)
    ensures r.Ok? ==> forall k | k in s.edges :: k in r.value.0.edges && r.value.0.edges[k] == s.edges[k]
    ensures r.Ok? ==> forall i :: 0 <= i < |r.value.1| ==> RelStored(r.value.0.edges, r.value.1[i])
    decreases CreateSize(items)
  {
    if |items| == 0 then Ok((s, []))
    else
      var d := items[0];
      var (items1, id) := GetOrCreateItem(s.items, menu.versionId, d.name, d.icon, d.enabledAt);
      var ix :- GetOrCreateAll(s.indexing, id, d.indexing);
      var edges :- GetOrCreateKeyed(s.edges, (menu.id, id), Edge(parent, d.position), EdgeMatches);
      var s1 := s.(items := items1, indexing := ix, edges := edges);
      var e := edges[(menu.id, id)];
      var rel := Relation(menu.id, e.parent, id, e.position, items1[id]);
      var sub :- CreateItems(s1, menu, Some(id), d.items);
      var rest :- CreateItems(sub.0, menu, parent, items[1..]);
      EmitsLength(CreateWalk, CreateShape(d.items), menu.id, Some(id), sub.1);
      EmitsCons(CreateWalk, CreateShape(items), menu.id, parent, rel, sub.1, rest.1);
      CreateStored(edges, sub.0.edges, rest.0.edges, rel, sub.1, rest.1);
      Ok((rest.0, [rel] + sub.1 + rest.1))
  }

  /** The emitted relations stay stored: the first one in the map it was
      read from, the subtree's and the later siblings' in theirs, and later
      steps keep every stored relation. */
  lemma CreateStored(e1: map<(nat, nat), Edge>, e2: map<(nat, nat), Edge>, e3: map<(nat, nat), Edge>, rel: Rel, sub: seq<Rel>, rest: seq<Rel>)
    requires RelStored(e1, rel)
    requires forall k | k in e1 :: k in e2 && e2[k] == e1[k]
    requires forall k | k in e2 :: k in e3 && e3[k] == e2[k]
    requires forall i :: 0 <= i < |sub| ==> RelStored(e2, sub[i])
    requires forall i :: 0 <= i < |rest| ==> RelStored(e3, rest[i])
    ensures forall i :: 0 <= i < |[rel] + sub + rest| ==> RelStored(e3, ([rel] + sub + rest)[i])
  {
    var all := [rel] + sub + rest;
    forall i | 0 <= i < |all|
      ensures RelStored(e3, all[i])
    {
      if 1 <= i <= |sub| {
        assert all[i] == sub[i - 1];
      } else if |sub| < i {
        assert all[i] == rest[i - 1 - |sub|];
      }
    }
  }

  // ---------------------------------------------------------------------
  // Whole-menu operations (the transactional bodies of the service).

  /** The body of `CreateMenu`: get-or-create the menu row by (version,
      name), build every top-level descriptor's hierarchy, and sort the
      emitted relations into the canonical order.  The lookup sees live rows
      only, but the unique index also holds soft-deleted ones: when only a
      deleted row has the name, the insert fails. */
  function CreateMenuTx(s: Store, req: CreateMenu): (r: Result<(Store, nat, seq<Rel>)>)
    ensures var rec := MenuRec(req.versionId, req.name, false);
      (forall j :: 0 <= j < |s.menus| ==> s.menus[j] != rec) && NameInIndex(s.menus, MenuKey, req.versionId, req.name, -1) ==>
        r == Err(StoreFailure)
    ensures r.Ok? ==> r.value.1 < |r.value.0.menus| && r.value.0.menus[r.value.1] == MenuRec(req.versionId, req.name, false)
    ensures r.Ok? ==>
      || (r.value.0.menus == s.menus && r.value.1 < |s.menus|)
      || (r.value.0.menus == s.menus + [MenuRec(req.versionId, req.name, false)] && r.value.1 == |s.menus|
          && !NameInIndex(s.menus, MenuKey, req.versionId, req.name, -1))
    ensures r.Ok? ==> exists e :: Emits(CreateWalk, CreateShape(req.items), r.value.1, None, e) && r.value.2 == Sort(e)
    ensures r.Ok? ==> |r.value.2| == CreateSize(req.items) && Sorted(r.value.2)
    ensures r.Ok? ==> forall i :: 0 <= i < |r.value.2| ==> r.value.2[i].menu == r.value.1
    ensures r.Ok? ==> forall i :: 0 <= i < |r.value.2| ==> RelStored(r.value.0.edges, r.value.2[i])
  {
    var rec := MenuRec(req.versionId, req.name, false);
    var found := exists j :: 0 <= j < |s.menus| && s.menus[j] == rec;
    if !found && NameInIndex(s.menus, MenuKey, req.versionId, req.name, -1) then Err(StoreFailure)
    else
      var (menus, id) := if found then (s.menus, FirstMenu(s.menus, rec)) else (s.menus + [rec], |s.menus|);
      var res :- CreateSorted(s.(menus := menus), MenuRef(id, req.versionId), req.items);
      Ok((res.0, id, res.1))
  }

  /** The item half of `CreateMenu`: the create walk over the top-level
      descriptors, its emitted relations sorted into the canonical order. */
  function CreateSorted(s: Store, menu: MenuRef, items: seq<CreateItem>): (r: Result<(Store, seq<Rel>)>)
    ensures r.Ok? ==> Grows(s, r.value.0)
    ensures r.Ok? ==> exists e :: Emits(CreateWalk, CreateShape(items), menu.id, None, e) && r.value.1 == Sort(e)
    ensures r.Ok? ==> |r.value.1| == CreateSize(items) && Sorted(r.value.1)
    ensures r.Ok? ==> forall i :: 0 <= i < |r.value.1| ==> r.value.1[i].menu == menu.id
    ensures r.Ok? ==> forall i :: 0 <= i < |r.value.1| ==> RelStored(r.value.0.edges, r.value.1[i])
  {
    var res :- CreateItems(s, menu, None, items);
    EmitsLength(CreateWalk, CreateShape(items), menu.id, None, res.1);
    EmitsMenu(CreateWalk, CreateShape(items), menu.id, None, res.1);
    var sorted := Sort(res.1);
    assert |sorted| == |multiset(sorted)| == |multiset(res.1)|;
    SortKeepsMenu(res.1, menu.id);
    SortKeepsStored(res.1, res.0.edges);
    Ok((res.0, sorted))
  }

  function FirstMenu(menus: seq<MenuRec>, rec: MenuRec): (r: nat)
    requires exists j :: 0 <= j < |menus| && menus[j] == rec
    ensures r < |menus| && menus[r] == rec
    ensures forall j :: 0 <= j < r ==> menus[j] != rec
  {
    if menus[0] == rec then 0
    else
      var j :| 0 <= j < |menus| && menus[j] == rec;
      assert menus[1..][j - 1] == rec;
      1 + FirstMenu(menus[1..], rec)
  }

  lemma {:induction false} EmitsMenu(walk: Walk, f: seq<Shape>, menu: nat, parent: Option<nat>, rels: seq<Rel>)
    requires Emits(walk, f, menu, parent, rels)
    ensures forall i :: 0 <= i < |rels| ==> rels[i].menu == menu
    decreases f
  {
    if |f| > 0 {
      var k := 1 + ShapeSize(f[0].children);
      EmitsMenu(walk, f[0].children, menu, Some(rels[0].child), rels[1..k]);
      EmitsMenu(walk, f[1..], menu, parent, rels[k..]);
      forall i | 0 <= i < |rels|
        ensures rels[i].menu == menu
      {
        if 1 <= i < k {
          assert rels[i] == rels[1..k][i - 1];
        } else if k <= i {
          assert rels[i] == rels[k..][i - k];
        }
      }
    }
  }

  lemma SortKeepsMenu(rels: seq<Rel>, menu: nat)
    requires forall i :: 0 <= i < |rels| ==> rels[i].menu == menu
    ensures forall i :: 0 <= i < |Sort(rels)| ==> Sort(rels)[i].menu == menu
  {
    var r := Sort(rels);
    forall i | 0 <= i < |r|
      ensures r[i].menu == menu
    {
      assert r[i] in multiset(rels);
    }
  }

  lemma SortKeepsStored(rels: seq<Rel>, edges: map<(nat, nat), Edge>)
    requires forall i :: 0 <= i < |rels| ==> RelStored(edges, rels[i])
    ensures forall i :: 0 <= i < |Sort(rels)| ==> RelStored(edges, Sort(rels)[i])
  {
    var r := Sort(rels);
    forall i | 0 <= i < |r|
      ensures RelStored(edges, r[i])
    {
      assert r[i] in multiset(rels);
    }
  }

  /** The body of `UpdateMenu`: rename the menu, reconcile the top level,
      and sort the emitted relations.  Renaming onto a name another row of
      the version holds, live or soft-deleted, violates the unique index. */
  function UpdateMenuTx(s: Store, menu: MenuRef, req: UpdateMenu): (r: Result<(Store, seq<Rel>)>)
    ensures menu.id < |s.menus| && NameInIndex(s.menus, MenuKey, s.menus[menu.id].versionId, req.name, menu.id) ==>
      r == Err(StoreFailure)
    ensures r.Ok? ==> exists e ::
      && Emits(UpdateWalk, UpdateShape(req.items), menu.id, None, e) && r.value.1 == Sort(e)
      && LevelCleaned(r.value.0, menu.id, None, TopChildren(UpdateShape(req.items), e))
    ensures r.Ok? ==> |r.value.1| == Size(req.items) && Sorted(r.value.1)
    ensures r.Ok? ==> |r.value.0.menus| == |s.menus|
    ensures r.Ok? ==> forall j :: 0 <= j < |s.menus| && j != menu.id ==> r.value.0.menus[j] == s.menus[j]
    ensures r.Ok? && menu.id < |s.menus| ==> r.value.0.menus[menu.id] == s.menus[menu.id].(name := req.name)
  {
    if menu.id < |s.menus| && NameInIndex(s.menus, MenuKey, s.menus[menu.id].versionId, req.name, menu.id) then Err(StoreFailure)
    else
      var menus := if menu.id < |s.menus| then s.menus[menu.id := s.menus[menu.id].(name := req.name)] else s.menus;
      var res :- ReconcileItems(s.(menus := menus), menu, None, req.items);
      EmitsLength(UpdateWalk, UpdateShape(req.items), menu.id, None, res.1);
      assert |Sort(res.1)| == |multiset(Sort(res.1))| == |multiset(res.1)|;
      Ok((res.0, Sort(res.1)))
  }

  // ---------------------------------------------------------------------
  // Consequences of the update path.

  /** A descriptor without an id that a live item matches is bound to that
      item: no row is added and the first matching item's id is used.  A
      descriptor that gives no icon or no enabled-at matches an item with
      any. */
  lemma IdlessDescriptorReusesItem(s: Store, versionId: nat, d: UpdateItem, j: nat)
    requires d.id.None? && j < |s.items|
    requires ItemMatches(s.items[j], versionId, d.name, d.icon, d.enabledAt)
    ensures UpsertItem(s, versionId, d).Ok?
    ensures UpsertItem(s, versionId, d).value.0.items == s.items
    ensures UpsertItem(s, versionId, d).value.1 <= j
  {
  }

  function MoveItem(name: string): ItemRec { ItemRec(1, name, None, None, false) }

  /** Stored: items a (0) and b (1) at the top of menu 1, item c (2) under
      a. */
  function MoveStore(): Store {
    Store([MenuRec(1, "main", false)],
          [MoveItem("a"), MoveItem("b"), MoveItem("c")],
          map[(1, 0) := Edge(None, 0), (1, 1) := Edge(None, 1), (1, 2) := Edge(Some(0), 0)],
          map[])
  }

  function MoveDescriptor(id: nat, name: string, position: nat, items: seq<UpdateItem>): UpdateItem {
    UpdateItem(Some(id), position, name, None, 0, None, [], items)
  }

  /** Submitted: a with no children, then b with c under it. */
  function MoveRequest(): seq<UpdateItem> {
    [MoveDescriptor(0, "a", 0, []), MoveDescriptor(1, "b", 1, [MoveDescriptor(2, "c", 0, [])])]
  }

  /** Moving a child to a later sibling fails: the cleanup under a runs
      before b's children are reached and soft-deletes c, whose upsert then
      finds no live row. */
  lemma MovedChildIsLost()
    ensures ReconcileItems(MoveStore(), MenuRef(1, 1), None, MoveRequest()) == Err(NotFound)
  {
    var cleaned := MoveFirstSibling();
    MoveSecondSibling(cleaned);
  }

  /** Descriptor a reconciles and its (empty) level cleanup soft-deletes c;
      the rest of the level then continues from that store. */
  lemma MoveFirstSibling() returns (cleaned: Store)
    ensures |cleaned.items| == 3 && Live(cleaned, 1) && cleaned.items[2].deleted
    ensures ReconcileLoop(cleaned, MenuRef(1, 1), None, [MoveRequest()[1]]).Err? ==>
      ReconcileLoop(MoveStore(), MenuRef(1, 1), None, MoveRequest())
        == ReconcileLoop(cleaned, MenuRef(1, 1), None, [MoveRequest()[1]])
  {
    var m, req := MenuRef(1, 1), MoveRequest();
    var one := ReconcileOne(MoveStore(), m, None, req[0]);
    MoveFirstUpsert();
    var sub := ReconcileItems(one.value.0, m, Some(0), []);
    MoveFirstCleanup(one.value.0);
    cleaned := sub.value.0;
    assert req[1..] == [req[1]];
  }

  /** Descriptor a resolves to the stored row 0 and leaves rows and
      relations as they were. */
  lemma MoveFirstUpsert()
    ensures var one := ReconcileOne(MoveStore(), MenuRef(1, 1), None, MoveRequest()[0]);
      one.Ok? && one.value.1.child == 0
      && one.value.0.items == MoveStore().items && one.value.0.edges == MoveStore().edges
  {
    var s := MoveStore();
    var up := UpsertItem(s, 1, MoveRequest()[0]);
    assert up.Ok? && up.value.1 == 0;
    var s1 := up.value.0.(edges := FixEdge(up.value.0.edges, 1, 0, None, 0));
    assert s1.edges == s.edges && s1.items == s.items;
  }

  /** Nothing is submitted under a, so its cleanup soft-deletes c. */
  lemma MoveFirstCleanup(s1: Store)
    requires s1.items == MoveStore().items && s1.edges == MoveStore().edges
    ensures var sub := ReconcileItems(s1, MenuRef(1, 1), Some(0), []);
      sub.Ok? && |sub.value.0.items| == 3 && Live(sub.value.0, 1) && sub.value.0.items[2].deleted
  {
    var m := MenuRef(1, 1);
    assert ReconcileLoop(s1, m, Some(0), []) == Ok((s1, [], []));
    var none: seq<nat> := [];
    var cleaned := Cleanup(s1, 1, Some(0), set id | id in none);
    assert ReconcileItems(s1, m, Some(0), []) == Ok((cleaned, []));
    assert LevelCleaned(cleaned, 1, Some(0), TopChildren(UpdateShape([]), []));
    assert TouchesOnly(s1, cleaned, 1, Children([]), Parents([]) + {Some(0)});
  }

  /** Descriptor b reconciles, and c under it no longer resolves. */
  lemma MoveSecondSibling(cleaned: Store)
    requires |cleaned.items| == 3 && Live(cleaned, 1) && cleaned.items[2].deleted
    ensures ReconcileLoop(cleaned, MenuRef(1, 1), None, [MoveRequest()[1]]) == Err(NotFound)
  {
    var m, dB := MenuRef(1, 1), MoveRequest()[1];
    var up := UpsertItem(cleaned, 1, dB);
    assert up.Ok? && up.value.1 == 1;
    var s2 := up.value.0.(edges := FixEdge(up.value.0.edges, 1, 1, None, 1));
    assert s2.items[2].deleted;
    UnresolvedIdFailsLevel(s2, m, Some(1), dB.items);
  }

  /** Submitted: a, with a itself again as its only child. */
  function SelfNestRequest(): seq<UpdateItem> {
    [MoveDescriptor(0, "a", 0, [MoveDescriptor(0, "a", 0, [])])]
  }

  /** An item placed inside its own subtree is accepted, but the inner
      descriptor rewrites its relation last, so the item ends related under
      itself rather than at the top: the placement promise of
      `ReconcileItems` needs the condition it states. */
  lemma SelfNestedItemEndsUnderItself()
    ensures var r := ReconcileItems(MoveStore(), MenuRef(1, 1), None, SelfNestRequest());
      r.Ok? && (1, 0) in r.value.0.edges && r.value.0.edges[(1, 0)] == Edge(Some(0), 0)
  {
    var m, req := MenuRef(1, 1), SelfNestRequest();
    var one := ReconcileOne(MoveStore(), m, None, req[0]);
    assert one.Ok? && one.value.1.child == 0 && Live(one.value.0, 0);
    var inner := SelfNestInner(one.value.0);
    var loop := ReconcileLoop(MoveStore(), m, None, req);
    assert req[1..] == [];
    assert loop.Ok? && loop.value.0.edges == inner.edges;
  }

  /** Under a, descriptor a reconciles again: its relation now names a as
      its parent, and its empty level changes no relation. */
  lemma SelfNestInner(s1: Store) returns (s2: Store)
    requires Live(s1, 0)
    ensures var r := ReconcileItems(s1, MenuRef(1, 1), Some(0), SelfNestRequest()[0].items);
      r.Ok? && r.value.0 == s2 && (1, 0) in s2.edges && s2.edges[(1, 0)] == Edge(Some(0), 0)
  {
    var m, d := MenuRef(1, 1), SelfNestRequest()[0].items[0];
    var one := ReconcileOne(s1, m, Some(0), d);
    assert one.Ok? && one.value.1.child == 0;
    EmptyLevelKeepsEdges(one.value.0, m, Some(0));
    var loop := ReconcileLoop(s1, m, Some(0), [d]);
    assert loop.Ok? && loop.value.0.edges == one.value.0.edges;
    s2 := ReconcileItems(s1, m, Some(0), [d]).value.0;
  }

  /** A level with no descriptors only soft-deletes: no relation changes. */
  lemma EmptyLevelKeepsEdges(s: Store, menu: MenuRef, parent: Option<nat>)
    ensures var r := ReconcileItems(s, menu, parent, []);
      r.Ok? && r.value.1 == [] && r.value.0.edges == s.edges
  {
    assert ReconcileLoop(s, menu, parent, []) == Ok((s, [], []));
  }

  /** A relation the store already held before the create walk is emitted
      as stored, whatever parent and position the descriptor asked for: a
      child submitted twice keeps the edge of its first relation. */
  lemma StoredRelationEmittedAsStored(s: Store, menu: MenuRef, parent: Option<nat>, items: seq<CreateItem>)
    ensures var r := CreateItems(s, menu, parent, items);
      r.Ok? ==> forall i :: 0 <= i < |r.value.1| && (menu.id, r.value.1[i].child) in s.edges ==>
        s.edges[(menu.id, r.value.1[i].child)] == Edge(r.value.1[i].parent, r.value.1[i].position)
  {
    var r := CreateItems(s, menu, parent, items);
    if r.Ok? {
      EmitsMenu(CreateWalk, CreateShape(items), menu.id, parent, r.value.1);
    }
  }
}

=== FILE: menu_freshness.dfy ===
// Optimistic-concurrency check of a menu update: the client sends back the
// `updatedAt` it last saw for the menu and for every item, and the update is
// refused when any of them is older than what is stored now.

module MenuFreshness {
  import opened Wrappers
  import opened RelationOrder
  import opened MenuRequests
  import MenuViews

  /** A stored menu as the controller loads it: its row and its relations,
      each with the child item attached. */
  datatype StoredMenu = StoredMenu(
    id: nat,
    versionId: nat,
    name: string,
    updatedAt: int,
    relations: seq<Relation<MenuViews.MenuItem>>)

  /** The order in which the explicit-stack walk emits descriptors: the last
      top-level descriptor first, then (in the same manner) its subtree, then
      the remaining top-level descriptors. */
  function RevPre(f: seq<UpdateItem>): (r: seq<UpdateItem>)
    ensures |r| == Size(f)
    decreases f
  {
    if |f| == 0 then []
    else
      var n := |f|;
      SizeLast(f);
      [f[n - 1]] + RevPre(f[n - 1].items) + RevPre(f[..n - 1])
  }

  lemma {:induction false} RevPreAppend(a: seq<UpdateItem>, b: seq<UpdateItem>)
    ensures RevPre(a + b) == RevPre(b) + RevPre(a)
    decreases |b|
  {
    if |b| == 0 {
      assert a + b == a;
    } else {
      var n := |b|;
      assert (a + b)[|a + b| - 1] == b[n - 1];
      assert (a + b)[..|a + b| - 1] == a + b[..n - 1];
      RevPreAppend(a, b[..n - 1]);
    }
  }

  /** The walk emits the same descriptors as a pre-order traversal. */
  lemma {:induction false} RevPreSameNodes(f: seq<UpdateItem>)
    ensures multiset(RevPre(f)) == multiset(Pre(f))
    decreases f
  {
    if |f| > 0 {
      var n := |f|;
      RevPreSameNodes(f[n - 1].items);
      RevPreSameNodes(f[..n - 1]);
      PreLast(f);
    }
  }

  /** In `r`, the entry at `i` is immediately followed by the walk of its
      own subtree. */
  predicate Follows(r: seq<UpdateItem>, i: nat)
    requires i < |r|
  {
    && i + 1 + Size(r[i].items) <= |r|
    && r[i + 1..i + 1 + Size(r[i].items)] == RevPre(r[i].items)
  }

  lemma FollowsPrefix(x: seq<UpdateItem>, y: seq<UpdateItem>, i: nat)
    requires i < |x| && Follows(x, i)
    ensures Follows(x + y, i)
  {
    var s := Size(x[i].items);
    assert (x + y)[i] == x[i];
    assert (x + y)[i + 1..i + 1 + s] == x[i + 1..i + 1 + s];
  }

  lemma FollowsShift(x: seq<UpdateItem>, y: seq<UpdateItem>, i: nat)
    requires i < |y| && Follows(y, i)
    ensures Follows(x + y, |x| + i)
  {
    var s := Size(y[i].items);
    assert (x + y)[|x| + i] == y[i];
    assert (x + y)[|x| + i + 1..|x| + i + 1 + s] == y[i + 1..i + 1 + s];
  }

  /** In the walk's output every descriptor is immediately followed by the
      walk of its own subtree, so it comes before all of its descendants. */
  lemma {:induction false} SubtreeFollows(f: seq<UpdateItem>, i: nat)
    requires i < |RevPre(f)|
    ensures Follows(RevPre(f), i)
    decreases f
  {
    var n := |f|;
    var last := f[n - 1];
    var la := [last] + RevPre(last.items);
    var b := RevPre(f[..n - 1]);
    assert RevPre(f) == la + b;
    if i < |la| {
      if i > 0 {
        SubtreeFollows(last.items, i - 1);
      }
      FollowsInHead(last, b, i);
    } else {
      var k := i - |la|;
      SubtreeFollows(f[..n - 1], k);
      FollowsShift(la, b, k);
      assert |la| + k == i;
    }
    assert Follows(la + b, i);
  }

  /** The head of a walk step: the popped descriptor followed by the walk
      of its subtree. */
  lemma FollowsInHead(last: UpdateItem, b: seq<UpdateItem>, i: nat)
    requires i <= |RevPre(last.items)|
    requires i > 0 ==> Follows(RevPre(last.items), i - 1)
    ensures Follows([last] + RevPre(last.items) + b, i)
  {
    var a := RevPre(last.items);
    var la := [last] + a;
    if i == 0 {
      assert la[1..] == a;
      assert Follows(la, 0);
    } else {
      FollowsShift([last], a, i - 1);
    }
    FollowsPrefix(la, b, i);
  }

  lemma WalkFacts(f: seq<UpdateItem>)
    ensures multiset(RevPre(f)) == multiset(Pre(f))
    ensures forall i :: 0 <= i < |RevPre(f)| ==> Follows(RevPre(f), i)
  {
    RevPreSameNodes(f);
    forall i | 0 <= i < |RevPre(f)|
      ensures Follows(RevPre(f), i)
    {
      SubtreeFollows(f, i);
    }
  }

  /** One step of the walk: popping the last descriptor and pushing its
      children leaves the rest of the output unchanged. */
  lemma PopPush(stack: seq<UpdateItem>)
    requires |stack| > 0
    ensures var cur := stack[|stack| - 1];
            RevPre(stack) == [cur] + RevPre(stack[..|stack| - 1] + cur.items)
  {
    var n := |stack|;
    RevPreAppend(stack[..n - 1], stack[n - 1].items);
  }

  /** ... and shrinks the stack. */
  lemma PopPushShrinks(stack: seq<UpdateItem>)
    requires |stack| > 0
    ensures Size(stack[..|stack| - 1] + stack[|stack| - 1].items) < Size(stack)
  {
    var n := |stack|;
    SizeLast(stack);
    SizeAppend(stack[..n - 1], stack[n - 1].items);
  }

  /** `flattenUpdateMenuItems`: an explicit stack seeded with the top-level
      descriptors; each step pops the last one, emits it and pushes its
      children.  An absent list yields nothing. */
  method Flatten(items: Option<seq<UpdateItem>>) returns (out: seq<UpdateItem>)
    ensures items.None? ==> out == []
    ensures items.Some? ==> out == RevPre(items.value)
    ensures items.Some? ==> |out| == Size(items.value)
    ensures items.Some? ==> multiset(out) == multiset(Pre(items.value))
    ensures forall i :: 0 <= i < |out| ==> Follows(out, i)
  {
    if items.None? {
      return [];
    }
    var f := items.value;
    out := [];
    var stack := f;
    while |stack| > 0
      invariant out + RevPre(stack) == RevPre(f)
      decreases Size(stack)
    {
      var n := |stack|;
      var cur := stack[n - 1];
      PopPush(stack);
      PopPushShrinks(stack);
      out := out + [cur];
      stack := stack[..n - 1] + cur.items;
    }
    assert out == RevPre(f);
    WalkFacts(f);
  }

  /** Child id to the stored child's `updatedAt`; a later relation for the
      same child overwrites an earlier one. */
  function RelationTimes(rels: seq<Relation<MenuViews.MenuItem>>): (m: map<nat, int>)
    ensures forall j :: 0 <= j < |rels| ==> rels[j].child in m
  {
    if |rels| == 0 then map[]
    else
      var n := |rels|;
      assert forall j :: 0 <= j < n - 1 ==> rels[..n - 1][j] == rels[j];
      RelationTimes(rels[..n - 1])[rels[n - 1].child := rels[n - 1].item.updatedAt]
  }

  /** Every key comes from some relation, with that relation's time. */
  lemma {:induction false} RelationTimesSource(rels: seq<Relation<MenuViews.MenuItem>>, k: nat) returns (j: nat)
    requires k in RelationTimes(rels)
    ensures j < |rels| && rels[j].child == k && RelationTimes(rels)[k] == rels[j].item.updatedAt
  {
    var n := |rels|;
    if rels[n - 1].child == k {
      j := n - 1;
    } else {
      j := RelationTimesSource(rels[..n - 1], k);
    }
  }

  /** The time kept for a child is that of its last relation. */
  lemma {:induction false} RelationTimesLast(rels: seq<Relation<MenuViews.MenuItem>>, j: nat)
    requires j < |rels|
    requires forall j' :: j < j' < |rels| ==> rels[j'].child != rels[j].child
    ensures RelationTimes(rels)[rels[j].child] == rels[j].item.updatedAt
  {
    var n := |rels|;
    if j < n - 1 {
      var pre := rels[..n - 1];
      assert pre[j] == rels[j];
      assert forall j' :: j < j' < |pre| ==> pre[j'] == rels[j'];
      RelationTimesLast(pre, j);
    }
  }

  /** A submitted descriptor is stale when it names a stored child whose
      stored `updatedAt` is strictly later than the submitted one. */
  predicate Stale(times: map<nat, int>, d: UpdateItem) {
    d.id.Some? && d.id.value in times && d.updatedAt < times[d.id.value]
  }

  /** The scan of the flattened descriptors, stopping at the first stale
      one. */
  function AnyStale(times: map<nat, int>, flat: seq<UpdateItem>): (r: bool)
    ensures r <==> exists i :: 0 <= i < |flat| && Stale(times, flat[i])
  {
    if |flat| == 0 then false
    else if Stale(times, flat[0]) then true
    else
      assert forall i :: 1 <= i < |flat| ==> flat[i] == flat[1..][i - 1];
      AnyStale(times, flat[1..])
  }

  /** `isMenuItemsOutOfSync`. */
  function IsMenuItemsOutOfSync(rels: seq<Relation<MenuViews.MenuItem>>, items: seq<UpdateItem>): (r: bool)
    ensures r <==> exists d | d in Pre(items) :: Stale(RelationTimes(rels), d)
  {
    var flat := RevPre(items);
    RevPreSameNodes(items);
    AnyStaleOfSameNodes(RelationTimes(rels), flat, Pre(items));
    AnyStale(RelationTimes(rels), flat)
  }

  /** The scan's answer depends only on which descriptors occur. */
  lemma AnyStaleOfSameNodes(times: map<nat, int>, flat: seq<UpdateItem>, pre: seq<UpdateItem>)
    requires multiset(flat) == multiset(pre)
    ensures AnyStale(times, flat) <==> exists d | d in pre :: Stale(times, d)
  {
    if AnyStale(times, flat) {
      var i :| 0 <= i < |flat| && Stale(times, flat[i]);
      assert flat[i] in multiset(pre);
    }
    if d :| d in pre && Stale(times, d) {
      assert d in multiset(flat);
      var i :| 0 <= i < |flat| && flat[i] == d;
    }
  }

  /** Freshness spelled out against the stored relations: the check fails
      exactly when some submitted descriptor, at any depth, carries the id of
      a stored child and an `updatedAt` before the one stored for it (the
      last relation of that child when it occurs more than once). */
  lemma OutOfSyncIff(rels: seq<Relation<MenuViews.MenuItem>>, items: seq<UpdateItem>)
    requires UniqueChildren(rels)
    ensures IsMenuItemsOutOfSync(rels, items) <==>
      exists d, j | d in Pre(items) && 0 <= j < |rels| ::
        d.id == Some(rels[j].child) && d.updatedAt < rels[j].item.updatedAt
  {
    var m := RelationTimes(rels);
    if IsMenuItemsOutOfSync(rels, items) {
      var d :| d in Pre(items) && Stale(m, d);
      var j := RelationTimesSource(rels, d.id.value);
    }
    forall d, j | d in Pre(items) && 0 <= j < |rels| && d.id == Some(rels[j].child) && d.updatedAt < rels[j].item.updatedAt
      ensures Stale(m, d)
    {
      RelationTimesLast(rels, j);
    }
  }

  /** The controller's guard before a menu update, in its order: the menu
      must exist, neither the menu nor any item may be stale, and a new name
      must not be taken by another menu of the version. `takenNames` are the
      names of the version's live menus. */
  function CheckUpdateMenu(stored: Option<StoredMenu>, req: UpdateMenu, takenNames: set<string>): (r: Result<StoredMenu>)
    ensures stored.None? ==> r == Err(NotFound)
    ensures stored.Some? ==>
      (r == Err(OutOfSync) <==>
        req.updatedAt < stored.value.updatedAt || IsMenuItemsOutOfSync(stored.value.relations, req.items))
    ensures r.Ok? <==>
      && stored.Some?
      && stored.value.updatedAt <= req.updatedAt
      && !IsMenuItemsOutOfSync(stored.value.relations, req.items)
      && (req.name == stored.value.name || req.name !in takenNames)
    ensures r.Ok? ==> r.value == stored.value
    ensures r.Err? ==> r.error in {NotFound, OutOfSync, NameTaken}
  {
    if stored.None? then Err(NotFound)
    else
      var prev := stored.value;
      if req.updatedAt < prev.updatedAt || IsMenuItemsOutOfSync(prev.relations, req.items) then Err(OutOfSync)
      else if req.name != prev.name && req.name in takenNames then Err(NameTaken)
      else Ok(prev)
  }

  /** A stale descriptor anywhere in the tree blocks the update, whatever
      else the request holds. */
  lemma StaleDescriptorBlocksUpdate(stored: StoredMenu, req: UpdateMenu, takenNames: set<string>, d: UpdateItem)
    requires d in Pre(req.items) && Stale(RelationTimes(stored.relations), d)
    ensures CheckUpdateMenu(Some(stored), req, takenNames) == Err(OutOfSync)
  {
  }
}

=== FILE: menu_requests.dfy ===
// The nested item descriptors a client submits when it creates or updates a
// menu, and the measures the rest of the model uses to recurse over them.

module MenuRequests {
  import opened Wrappers
  import opened IndexingSync

  /** An item of an update request.  `id` is absent for an item the client
      has not stored yet; `updatedAt` is the stored timestamp the client last
      saw, in seconds. */
  datatype UpdateItem = UpdateItem(
    id: Option<nat>,
    position: nat,
    name: string,
    icon: Option<string>,
    updatedAt: int,
    enabledAt: Option<int>,
    indexing: seq<IndexingReq>,
    items: seq<UpdateItem>)

  /** The body of a menu update. */
  datatype UpdateMenu = UpdateMenu(name: string, updatedAt: int, items: seq<UpdateItem>)

  /** An item of a create request. */
  datatype CreateItem = CreateItem(
    position: nat,
    name: string,
    icon: Option<string>,
    enabledAt: Option<int>,
    indexing: seq<IndexingReq>,
    items: seq<CreateItem>)

  /** The body of a menu creation. */
  datatype CreateMenu = CreateMenu(versionId: nat, name: string, items: seq<CreateItem>)

  /** Number of descriptors in an update forest, at every depth. */
  function Size(f: seq<UpdateItem>): nat
    decreases f
  {
    if |f| == 0 then 0 else 1 + Size(f[0].items) + Size(f[1..])
  }

  /** Number of descriptors in a create forest, at every depth. */
  function CreateSize(f: seq<CreateItem>): nat
    decreases f
  {
    if |f| == 0 then 0 else 1 + CreateSize(f[0].items) + CreateSize(f[1..])
  }

  /** The descriptors of an update forest in pre-order: a node, then its
      subtree, then its later siblings. */
  function Pre(f: seq<UpdateItem>): (r: seq<UpdateItem>)
    ensures |r| == Size(f)
    decreases f
  {
    if |f| == 0 then [] else [f[0]] + Pre(f[0].items) + Pre(f[1..])
  }

  lemma {:induction false} SizeAppend(a: seq<UpdateItem>, b: seq<UpdateItem>)
    ensures Size(a + b) == Size(a) + Size(b)
  {
    if |a| == 0 {
      assert a + b == b;
    } else {
      assert (a + b)[0] == a[0];
      assert (a + b)[1..] == a[1..] + b;
      SizeAppend(a[1..], b);
    }
  }

  lemma {:induction false} PreAppend(a: seq<UpdateItem>, b: seq<UpdateItem>)
    ensures Pre(a + b) == Pre(a) + Pre(b)
  {
    if |a| == 0 {
      assert a + b == b;
    } else {
      assert (a + b)[0] == a[0];
      assert (a + b)[1..] == a[1..] + b;
      PreAppend(a[1..], b);
    }
  }

  /** Pre-order split at the last top-level descriptor. */
  lemma PreLast(f: seq<UpdateItem>)
    requires |f| > 0
    ensures Pre(f) == Pre(f[..|f| - 1]) + [f[|f| - 1]] + Pre(f[|f| - 1].items)
  {
    var n := |f|;
    assert f == f[..n - 1] + [f[n - 1]];
    PreAppend(f[..n - 1], [f[n - 1]]);
    assert [f[n - 1]][1..] == [];
  }

  /** Size split at the last top-level descriptor. */
  lemma SizeLast(f: seq<UpdateItem>)
    requires |f| > 0
    ensures Size(f) == Size(f[..|f| - 1]) + 1 + Size(f[|f| - 1].items)
  {
    var n := |f|;
    assert f == f[..n - 1] + [f[n - 1]];
    SizeAppend(f[..n - 1], [f[n - 1]]);
    assert [f[n - 1]][1..] == [];
  }
}

=== FILE: menu_service.dfy ===
/** The menu service around the tree engine: the menu lookup, the
    version × locale cache of rendered menus, and the write operations
    with their cache invalidation.

    The cache holds two maps: the lookup lists per version, and per version
    a map from locale to that locale's rendered menus.  Every write
    invalidates both entries of the menu's version, and only once the store
    operation has succeeded. */
module MenuService {
  import opened Wrappers
  import opened LookupCache
  import opened MenuEngine
  import MenuRequests

  /** A row of the menu lookup: id and name only. */
  datatype MenuRow = MenuRow(id: nat, name: string)

  /** A rendered menu as cached per locale. */
  datatype CachedMenu = CachedMenu(id: nat, name: string, relations: seq<Rel>)

  type LocaleMenus = map<string, seq<CachedMenu>>

  datatype MenuCache = MenuCache(lookup: map<nat, seq<MenuRow>>, versionMenus: map<nat, LocaleMenus>)

  datatype State = State(store: Store, cache: MenuCache)

  function RowName(r: MenuRow): string { r.name }

  /** The lookup query: the live menus of a version, in id order. */
  function LookupRows(menus: seq<MenuRec>, versionId: nat): (r: seq<MenuRow>)
    ensures forall i :: 0 <= i < |r| ==>
      r[i].id < |menus| && menus[r[i].id].versionId == versionId && !menus[r[i].id].deleted
      && r[i].name == menus[r[i].id].name
    ensures forall j :: 0 <= j < |menus| && menus[j].versionId == versionId && !menus[j].deleted ==>
      MenuRow(j, menus[j].name) in r
    ensures forall i, k :: 0 <= i < k < |r| ==> r[i].id < r[k].id
  {
    if |menus| == 0 then []
    else
      var n := |menus| - 1;
      var pre := LookupRows(menus[..n], versionId);
      assert forall j :: 0 <= j < n ==> menus[..n][j] == menus[j];
      if menus[n].versionId == versionId && !menus[n].deleted then pre + [MenuRow(n, menus[n].name)] else pre
  }

  /** `GetMenuLookup`: the cache-aside lookup of a version's menus followed
      by the optional name filter.  A failing store query is `queryFails`. */
  function GetMenuLookup(st: State, versionId: nat, name: Option<string>, fx: Faults, queryFails: bool): (r: (MenuCache, Result<seq<MenuRow>>))
    ensures fx.existsFails ==> r == (st.cache, Err(CacheFailure))
    ensures r.0.versionMenus == st.cache.versionMenus
    ensures r.1.Ok? && !Blank(name) ==> forall i :: 0 <= i < |r.1.value| ==> Matches(r.1.value[i].name, name.value)
    ensures forall v | v != versionId :: (v in r.0.lookup <==> v in st.cache.lookup) && (v in st.cache.lookup ==> r.0.lookup[v] == st.cache.lookup[v])
    ensures var rows := LookupRows(st.store.menus, versionId);
            fx == NoFaults && !queryFails && (versionId !in st.cache.lookup || st.cache.lookup[versionId] == rows) ==>
              r.1 == Ok(FilterByName(rows, RowName, name)) && versionId in r.0.lookup && r.0.lookup[versionId] == rows
  {
    var query := if queryFails then Err(StoreFailure) else Ok(LookupRows(st.store.menus, versionId));
    var (lookup, res) := Lookup(st.cache.lookup, versionId, fx, query);
    var out := match res {
      case Err(e) => Err(e)
      case Ok(rows) => Ok(FilterByName(rows, RowName, name))
    };
    (st.cache.(lookup := lookup), out)
  }

  // ---------------------------------------------------------------------
  // The version × locale cache.

  /** `setVersionMenusToCache`: read the version's locale map, set one
      locale, write the map back.  Any failing command leaves the cache as
      it was. */
  function SetVersionMenus(vm: map<nat, LocaleMenus>, versionId: nat, locale: string, menus: seq<CachedMenu>, fx: Faults): (r: map<nat, LocaleMenus>)
    ensures fx.existsFails || (versionId in vm && fx.getFails) || fx.setFails ==> r == vm
    ensures !fx.existsFails && !(versionId in vm && fx.getFails) && !fx.setFails ==>
      && versionId in r && locale in r[versionId] && r[versionId][locale] == menus
      && (forall l | l != locale :: (l in r[versionId] <==> versionId in vm && l in vm[versionId])
                                    && (versionId in vm && l in vm[versionId] ==> r[versionId][l] == vm[versionId][l]))
    ensures forall v | v != versionId :: (v in r <==> v in vm) && (v in vm ==> r[v] == vm[v])
  {
    if fx.existsFails || (versionId in vm && fx.getFails) || fx.setFails then vm
    else
      var current := if versionId in vm then vm[versionId] else map[];
      vm[versionId := current[locale := menus]]
  }

  /** `deleteVersionMenusFromCache`: drop one locale; the version's key
      goes once no locale is left. */
  function DeleteVersionMenus(vm: map<nat, LocaleMenus>, versionId: nat, locale: string, fx: Faults): (r: map<nat, LocaleMenus>)
    ensures fx.existsFails || (versionId in vm && fx.getFails) || versionId !in vm ==> r == vm
    ensures !fx.existsFails && versionId in vm && !fx.getFails && !fx.setFails ==>
      && (forall l | l != locale :: versionId in r && l in r[versionId] <==> l in vm[versionId])
      && (forall l | l != locale && l in vm[versionId] :: r[versionId][l] == vm[versionId][l])
      && (versionId in r ==> locale !in r[versionId] && |r[versionId]| > 0)
      && (versionId !in r <==> vm[versionId].Keys <= {locale})
    ensures forall v | v != versionId :: (v in r <==> v in vm) && (v in vm ==> r[v] == vm[v])
  {
    if fx.existsFails || versionId !in vm || fx.getFails then vm
    else
      var rest := vm[versionId] - {locale};
      if |rest| > 0 then (if fx.setFails then vm else vm[versionId := rest])
      else if fx.setFails then vm
      else
        assert rest.Keys == vm[versionId].Keys - {locale};
        assert rest.Keys == {};
        vm - {versionId}
  }

  /** `deleteAllVersionMenusFromCache`: drop every locale of a version. */
  function DeleteAllVersionMenus(vm: map<nat, LocaleMenus>, versionId: nat): (r: map<nat, LocaleMenus>)
    ensures versionId !in r
    ensures forall v | v != versionId :: (v in r <==> v in vm) && (v in vm ==> r[v] == vm[v])
  {
    vm - {versionId}
  }

  /** The cached menus of a version in a locale, if present. */
  function CachedLocale(vm: map<nat, LocaleMenus>, versionId: nat, locale: string): Option<seq<CachedMenu>> {
    if versionId in vm && locale in vm[versionId] then Some(vm[versionId][locale]) else None
  }

  /** `GetMenusByVersionID`: a non-empty cached list for the locale is used;
      otherwise the store's answer (`query`) is returned and written back,
      ignoring a failing write. */
  function GetMenusByVersion(vm: map<nat, LocaleMenus>, versionId: nat, locale: string, fx: Faults, query: Result<seq<CachedMenu>>): (r: (map<nat, LocaleMenus>, Result<seq<CachedMenu>>))
    ensures fx.existsFails || (versionId in vm && fx.getFails) ==> r.1 == Err(CacheFailure) && r.0 == vm
    ensures !fx.existsFails && !(versionId in vm && fx.getFails) ==>
      match CachedLocale(vm, versionId, locale) {
        case Some(ms) => |ms| > 0 ==> r == (vm, Ok(ms))
        case None => r.1 == query
      }
    ensures forall v | v != versionId :: (v in r.0 <==> v in vm) && (v in vm ==> r.0[v] == vm[v])
  {
    if fx.existsFails || (versionId in vm && fx.getFails) then (vm, Err(CacheFailure))
    else
      var cached := CachedLocale(vm, versionId, locale);
      if cached.Some? && |cached.value| > 0 then (vm, Ok(cached.value))
      else match query {
        case Err(e) => (vm, Err(e))
        case Ok(ms) => (SetVersionMenus(vm, versionId, locale, ms, fx), Ok(ms))
      }
  }

  /** Rendering a locale never evicts another locale, and a second read of
      the same locale is served from the cache. */
  lemma RenderedLocaleIsCached(vm: map<nat, LocaleMenus>, versionId: nat, locale: string, ms: seq<CachedMenu>, other: string, later: Result<seq<CachedMenu>>)
    requires CachedLocale(vm, versionId, locale).None? && |ms| > 0 && other != locale
    ensures var vm' := GetMenusByVersion(vm, versionId, locale, NoFaults, Ok(ms)).0;
            && CachedLocale(vm', versionId, other) == CachedLocale(vm, versionId, other)
            && GetMenusByVersion(vm', versionId, locale, NoFaults, later) == (vm', Ok(ms))
  {
  }

  // ---------------------------------------------------------------------
  // Writes and invalidation.

  /** Both cache entries of a version gone. */
  function Invalidate(c: MenuCache, versionId: nat): (r: MenuCache)
    ensures versionId !in r.lookup && versionId !in r.versionMenus
    ensures forall v | v != versionId :: (v in r.lookup <==> v in c.lookup) && (v in c.lookup ==> r.lookup[v] == c.lookup[v])
    ensures forall v | v != versionId :: (v in r.versionMenus <==> v in c.versionMenus) && (v in c.versionMenus ==> r.versionMenus[v] == c.versionMenus[v])
  {
    MenuCache(c.lookup - {versionId}, DeleteAllVersionMenus(c.versionMenus, versionId))
  }

  /** `CreateMenu`: the transaction, then invalidation of the version. */
  function CreateMenuOp(st: State, req: MenuRequests.CreateMenu): (r: (State, Result<(nat, seq<Rel>)>))
    ensures r.1.Err? ==> r.0 == st
    ensures r.1.Ok? ==> r.0.cache == Invalidate(st.cache, req.versionId)
    ensures r.1.Ok? ==> CreateMenuTx(st.store, req).Ok? && r.0.store == CreateMenuTx(st.store, req).value.0
  {
    match CreateMenuTx(st.store, req) {
      case Err(e) => (st, Err(e))
      case Ok((s, id, rels)) => (State(s, Invalidate(st.cache, req.versionId)), Ok((id, rels)))
    }
  }

  /** `UpdateMenu`: the transaction, then invalidation of the menu's
      version. */
  function UpdateMenuOp(st: State, menu: MenuRef, req: MenuRequests.UpdateMenu): (r: (State, Result<seq<Rel>>))
    ensures r.1.Err? ==> r.0 == st
    ensures r.1.Ok? ==> r.0.cache == Invalidate(st.cache, menu.versionId)
    ensures r.1.Ok? ==> UpdateMenuTx(st.store, menu, req).Ok? && r.0.store == UpdateMenuTx(st.store, menu, req).value.0
  {
    match UpdateMenuTx(st.store, menu, req) {
      case Err(e) => (st, Err(e))
      case Ok((s, rels)) => (State(s, Invalidate(st.cache, menu.versionId)), Ok(rels))
    }
  }

  /** `DeleteMenu`: soft-delete the menu row; on success invalidate the
      given version. */
  function DeleteMenuOp(st: State, versionId: nat, menuId: nat, fails: bool): (r: (State, Result<()>))
    ensures fails ==> r == (st, Err(StoreFailure))
    ensures |r.0.store.menus| == |st.store.menus|
    ensures !fails ==> r.1.Ok? && r.0.cache == Invalidate(st.cache, versionId)
    ensures !fails && menuId < |st.store.menus| ==> r.0.store.menus[menuId].deleted
    ensures !fails ==> forall j :: 0 <= j < |st.store.menus| && j != menuId ==> r.0.store.menus[j] == st.store.menus[j]
  {
    if fails then (st, Err(StoreFailure))
    else
      var menus := if menuId < |st.store.menus| then st.store.menus[menuId := st.store.menus[menuId].(deleted := true)] else st.store.menus;
      (State(st.store.(menus := menus), Invalidate(st.cache, versionId)), Ok(()))
  }

  /** `RestoreMenu`: clear the deleted mark, then look up the menu's version
      and invalidate it.  An unknown id reads as version 0.  When the
      version lookup fails the restore stays committed, the error is
      returned, and nothing is invalidated. */
  function RestoreMenuOp(st: State, menuId: nat, fails: bool, versionLookupFails: bool): (r: (State, Result<()>))
    ensures fails ==> r == (st, Err(StoreFailure))
    ensures |r.0.store.menus| == |st.store.menus|
    ensures !fails && menuId < |st.store.menus| ==> !r.0.store.menus[menuId].deleted
    ensures !fails && versionLookupFails ==> r.1.Err? && r.0.cache == st.cache
    ensures !fails && !versionLookupFails ==> r.1.Ok?
    ensures !fails && !versionLookupFails ==>
      r.0.cache == Invalidate(st.cache, if menuId < |st.store.menus| then st.store.menus[menuId].versionId else 0)
  {
    if fails then (st, Err(StoreFailure))
    else
      var menus := if menuId < |st.store.menus| then st.store.menus[menuId := st.store.menus[menuId].(deleted := false)] else st.store.menus;
      var store := st.store.(menus := menus);
      if versionLookupFails then (State(store, st.cache), Err(StoreFailure))
      else
        var v := if menuId < |st.store.menus| then st.store.menus[menuId].versionId else 0;
        (State(store, Invalidate(st.cache, v)), Ok(()))
  }

  /** After any successful write the next lookup of that version goes to
      the store, so it answers with the store's current menus. */
  lemma LookupAfterWriteIsFresh(st: State, versionId: nat, name: Option<string>)
    requires versionId !in st.cache.lookup
    ensures GetMenuLookup(st, versionId, name, NoFaults, false).1 == Ok(FilterByName(LookupRows(st.store.menus, versionId), RowName, name))
  {
  }

  /** A successful delete is visible in the next lookup: the deleted menu is
      no longer listed. */
  lemma DeletedMenuLeavesLookup(st: State, versionId: nat, menuId: nat)
    requires menuId < |st.store.menus|
    ensures var st' := DeleteMenuOp(st, versionId, menuId, false).0;
            forall row | row in GetMenuLookup(st', versionId, None, NoFaults, false).1.value :: row.id != menuId
  {
    var st' := DeleteMenuOp(st, versionId, menuId, false).0;
    LookupAfterWriteIsFresh(st', versionId, None);
  }
}

=== FILE: menu_views.dfy ===
// The two rendered views of a menu: the editor view, whose nodes carry the
// stored item, and the published view, whose nodes carry the item's first
// page reduced to what a site needs (name, slug, link flags).

module MenuViews {
  import opened Wrappers
  import opened RelationOrder
  import opened TreeAssembly
  import Slug
  import IndexingEnum

  /** The page fields the published view reads. */
  datatype PageRef = PageRef(
    name: string,
    hashtag: Option<string>,
    url: Option<string>,
    urlEnabled: bool,
    newTabEnabled: bool)

  /** A stored menu item as loaded with its relation, with its indexing
      options and the pages attached to it. */
  datatype MenuItem = MenuItem(
    id: nat,
    versionId: nat,
    name: string,
    icon: Option<string>,
    enabledAt: Option<int>,
    createdAt: int,
    updatedAt: int,
    indexing: seq<(IndexingEnum.Indexing, Option<string>)>,
    pages: seq<PageRef>)

  /** One node of the published view, without its children. */
  datatype PublishedItem = PublishedItem(
    id: nat,
    position: nat,
    name: string,
    urlName: string,
    hashtag: Option<string>,
    icon: Option<string>,
    url: Option<string>,
    urlEnabled: bool,
    newTabEnabled: bool)

  /** The published node for an item at a position.  Only the first page
      counts; without a page the text fields are empty and the flags off. */
  function SetPublishedItem(item: MenuItem, position: nat): (v: PublishedItem)
    ensures v.id == item.id && v.position == position && v.icon == item.icon
    ensures |item.pages| == 0 ==>
      v.name == "" && v.urlName == "" && !v.urlEnabled && !v.newTabEnabled
      && v.hashtag.None? && v.url.None?
    ensures |item.pages| > 0 ==>
      var page := item.pages[0];
      v.name == page.name && v.urlName == Slug.URLEncode(page.name)
      && v.urlEnabled == page.urlEnabled && v.newTabEnabled == page.newTabEnabled
      && v.hashtag == page.hashtag && v.url == page.url
    ensures Slug.IsSlug(v.urlName)
  {
    if |item.pages| > 0 then
      var page := item.pages[0];
      Slug.URLEncodeIsSlug(page.name);
      PublishedItem(item.id, position, page.name, Slug.URLEncode(page.name), page.hashtag,
                    item.icon, page.url, page.urlEnabled, page.newTabEnabled)
    else
      PublishedItem(item.id, position, "", "", None, item.icon, None, false, false)
  }

  /** Pages after the first never influence the published node. */
  lemma PublishedIgnoresLaterPages(item: MenuItem, position: nat, later: seq<PageRef>)
    requires |item.pages| > 0
    ensures SetPublishedItem(item.(pages := [item.pages[0]] + later), position) == SetPublishedItem(item, position)
  {
  }

  /** The slug of a published node spells the page name's letters and
      digits, lower-cased, and stays put when encoded again. */
  lemma PublishedUrlName(item: MenuItem, position: nat)
    requires |item.pages| > 0
    ensures var v := SetPublishedItem(item, position);
            Slug.RemoveDashes(v.urlName) == Slug.LowerAlnums(item.pages[0].name)
            && Slug.URLEncode(v.urlName) == v.urlName
  {
    Slug.URLEncodeKeepsAlnums(item.pages[0].name);
    Slug.URLEncodeIdempotent(item.pages[0].name);
  }

  function EditorPayload(rel: Relation<MenuItem>): MenuItem {
    rel.item
  }

  function PublishedPayload(rel: Relation<MenuItem>): PublishedItem {
    SetPublishedItem(rel.item, rel.position)
  }

  /** The editor view of a menu's ordered relations. */
  function EditorTree(rels: seq<Relation<MenuItem>>): seq<Tree<MenuItem>> {
    Assemble(rels, EditorPayload)
  }

  /** The published view of a menu's ordered relations. */
  function PublishedTree(rels: seq<Relation<MenuItem>>): seq<Tree<PublishedItem>> {
    Assemble(rels, PublishedPayload)
  }

  /** Both views nest the same ids at the same places. */
  lemma ViewsHaveSameNesting(rels: seq<Relation<MenuItem>>)
    ensures Erase(EditorTree(rels)) == Erase(PublishedTree(rels))
    ensures Ids(EditorTree(rels)) == Ids(PublishedTree(rels))
  {
    AssembleShapeIndependentOfPayload(rels, EditorPayload, PublishedPayload);
    EraseIds(EditorTree(rels));
    EraseIds(PublishedTree(rels));
  }

  function ExampleA<T>(x: T): Relation<T> { Relation(1, None, 5, 0, x) }
  function ExampleB<T>(x: T): Relation<T> { Relation(1, Some(5), 2, 0, x) }
  function ExampleC<T>(x: T): Relation<T> { Relation(1, Some(2), 7, 0, x) }

  lemma ExampleSort<T>(x: T)
    ensures Sort([ExampleA(x), ExampleB(x), ExampleC(x)]) == [ExampleA(x), ExampleC(x), ExampleB(x)]
  {
    var a, b, c := ExampleA(x), ExampleB(x), ExampleC(x);
    assert [a, b, c][..2] == [a, b];
    ExampleSortFirstTwo(x);
    ExampleInsertLast(x);
  }

  lemma ExampleSortFirstTwo<T>(x: T)
    ensures Sort([ExampleA(x), ExampleB(x)]) == [ExampleA(x), ExampleB(x)]
  {
    var a, b := ExampleA(x), ExampleB(x);
    assert [a, b][..1] == [a];
    assert Sort([a]) == [a];
    assert Insert(b, [a]) == [a] + Insert(b, []);
  }

  lemma ExampleInsertLast<T>(x: T)
    ensures Insert(ExampleC(x), [ExampleA(x), ExampleB(x)]) == [ExampleA(x), ExampleC(x), ExampleB(x)]
  {
    var a, b, c := ExampleA(x), ExampleB(x), ExampleC(x);
    assert [a, b][1..] == [b];
    assert Insert(c, [b]) == [c, b];
  }

  lemma ExampleListedOrder<T, U>(x: T, mk: Relation<T> -> U)
    ensures Closed([ExampleA(x), ExampleB(x), ExampleC(x)])
    ensures |Ids(Assemble([ExampleA(x), ExampleB(x), ExampleC(x)], mk))| == 3
  {
    var a, b, c := ExampleA(x), ExampleB(x), ExampleC(x);
    assert [a, b, c][..2] == [a, b] && [a, b][..1] == [a] && [a][..0] == [];
    ClosedStep([a]);
    ClosedStep([a, b]);
    ClosedStep([a, b, c]);
    assert Children([a]) == [5];
    assert Children([a, b]) == [5, 2];
    AssembleKeepsAllIffClosed([a, b, c], mk);
  }

  lemma ExampleSortedNotClosed<T>(x: T)
    ensures !Closed([ExampleA(x), ExampleC(x), ExampleB(x)])
  {
    var a, b, c := ExampleA(x), ExampleB(x), ExampleC(x);
    assert [a, c, b][..2] == [a, c] && [a, c][..1] == [a] && [a][..0] == [];
    ClosedStep([a, c]);
    ClosedStep([a, c, b]);
    assert Children([a]) == [5];
  }

  lemma AppendToSingleLeaf<U>(n: Tree<U>, t: Tree<U>)
    requires n.children == [] && t.children == []
    ensures ValidPath([n], [0])
    ensures Ids(AppendAt([n], [0], t)) == [n.id, t.id]
  {
    var r := AppendAt([n], [0], t);
    assert At([n], [0]) == n && At(r, [0]) == r[0];
    assert n.children + [t] == [t];
    assert r[0].children == [t];
    assert r == [n.(children := [t])];
    IdsParentOfLeaf(n.(children := [t]), t);
  }

  lemma IdsParentOfLeaf<U>(m: Tree<U>, t: Tree<U>)
    requires m.children == [t] && t.children == []
    ensures Ids([m]) == [m.id, t.id]
  {
    IdsLeaf(t);
    assert [m][1..] == [];
  }

  lemma ExampleSortedTree<T, U>(x: T, mk: Relation<T> -> U)
    ensures Ids(Assemble([ExampleA(x), ExampleC(x), ExampleB(x)], mk)) == [5, 2]
  {
    var a, b, c := ExampleA(x), ExampleB(x), ExampleC(x);
    assert [a, c, b][..2] == [a, c];
    ExampleSortedPrefixTree(x, mk);
    var f1 := [Leaf(a, mk)];
    assert Assemble([a, c, b], mk) == Step(f1, b, mk);
    IdsLeaf(Leaf(a, mk));
    assert FindParent(f1, 5).value == [0];
    AppendToSingleLeaf(Leaf(a, mk), Leaf(b, mk));
  }

  /** Item 7 finds no parent yet and is dropped. */
  lemma ExampleSortedPrefixTree<T, U>(x: T, mk: Relation<T> -> U)
    ensures Assemble([ExampleA(x), ExampleC(x)], mk) == [Leaf(ExampleA(x), mk)]
  {
    var a, c := ExampleA(x), ExampleC(x);
    assert [a, c][..1] == [a] && [a][..0] == [];
    var f1 := Assemble([a], mk);
    assert f1 == Step([], a, mk);
    assert f1 == [Leaf(a, mk)];
    IdsLeaf(Leaf(a, mk));
  }

  /** The canonical order groups relations by ascending parent id, not by
      depth, so a parent's own relation can come after its children's.
      Item 5 is top level, item 2 hangs under 5 and item 7 under 2: in the
      listed order every parent is placed before it is needed, but sorting
      puts the group of parent 2 before the group of parent 5, and the
      assembly then drops item 7. */
  lemma SortedAssemblyCanDropChild<T, U>(x: T, mk: Relation<T> -> U)
    ensures var rels := [ExampleA(x), ExampleB(x), ExampleC(x)];
            && Closed(rels)
            && |Ids(Assemble(rels, mk))| == 3
            && !Closed(Sort(rels))
            && Ids(Assemble(Sort(rels), mk)) == [5, 2]
  {
    ExampleSort(x);
    ExampleListedOrder(x, mk);
    ExampleSortedNotClosed(x);
    ExampleSortedTree(x, mk);
  }
}

=== FILE: module_service.dfy ===
/** Modules of an app: the lookup with its cache, name availability, lookup
    by id, the write operations with their lookup invalidation, and the
    controller guards.

    Every read of modules (lookup and by id) joins the module type and
    skips modules whose type is soft-deleted, on top of the modules' own
    soft delete.  Module types are a primary-key table from name to its
    deletion mark.  The unique index on (app, name) also covers deleted
    rows; the type is a foreign key to the type table. */
module ModuleService {
  import opened Wrappers
  import opened LookupCache
  import opened NameIndex

  datatype ModuleRec = ModuleRec(
    app: string,
    kind: string,
    name: string,
    settings: string,
    updatedAt: int,
    deleted: bool)

  /** A row of the module lookup: id and name only. */
  datatype ModuleRow = ModuleRow(id: nat, name: string)

  datatype State = State(
    modules: seq<ModuleRec>,
    types: map<string, bool>,
    lookup: map<string, seq<ModuleRow>>)

  function RowName(r: ModuleRow): string { r.name }

  /** A module type that exists and is not soft-deleted: the type check of
      the handlers and the join condition of the reads. */
  predicate TypeLive(types: map<string, bool>, kind: string) {
    kind in types && !types[kind]
  }

  predicate Live(ms: seq<ModuleRec>, id: nat) {
    id < |ms| && !ms[id].deleted
  }

  /** What every read of a module sees: live, with a live type. */
  predicate Visible(st: State, id: nat) {
    Live(st.modules, id) && TypeLive(st.types, st.modules[id].kind)
  }

  // ---------------------------------------------------------------------
  // Queries.

  /** The row's name key: the app, the name, and whether it is live. */
  function ModuleKey(x: ModuleRec): NameKey<string> { NameKey(x.app, x.name, !x.deleted) }

  /** `IsModuleNameAvailable`: no live module of the app has the name, or
      the name is the one to ignore.  The type join is not applied here. */
  function IsModuleNameAvailable(ms: seq<ModuleRec>, app: string, name: string, ignore: Option<string>): (r: bool)
    ensures r <==> ignore == Some(name) || forall i :: 0 <= i < |ms| && !ms[i].deleted && ms[i].app == app ==> ms[i].name != name
  {
    FirstNamed(ms, ModuleKey, app, name, ignore, 0).None?
  }

  /** `IsModuleDeleted`: the id names a soft-deleted module. */
  function IsModuleDeleted(ms: seq<ModuleRec>, id: nat): (r: bool)
    ensures r <==> id < |ms| && !Live(ms, id)
  {
    id < |ms| && ms[id].deleted
  }

  /** The lookup query: the app's visible modules, in id order. */
  function LookupRows(ms: seq<ModuleRec>, types: map<string, bool>, app: string): (r: seq<ModuleRow>)
    ensures forall i :: 0 <= i < |r| ==>
      r[i].id < |ms| && ms[r[i].id].app == app && !ms[r[i].id].deleted && TypeLive(types, ms[r[i].id].kind)
      && r[i].name == ms[r[i].id].name
    ensures forall j :: 0 <= j < |ms| && ms[j].app == app && !ms[j].deleted && TypeLive(types, ms[j].kind) ==>
      ModuleRow(j, ms[j].name) in r
    ensures forall i, k :: 0 <= i < k < |r| ==> r[i].id < r[k].id
  {
    if |ms| == 0 then []
    else
      var n := |ms| - 1;
      var pre := LookupRows(ms[..n], types, app);
      assert forall j :: 0 <= j < n ==> ms[..n][j] == ms[j];
      if ms[n].app == app && !ms[n].deleted && TypeLive(types, ms[n].kind) then pre + [ModuleRow(n, ms[n].name)] else pre
  }

  /** `GetModuleLookup`: the cache-aside lookup of the app's modules
      followed by the optional name filter. */
  function GetModuleLookup(st: State, app: string, name: Option<string>, fx: Faults, queryFails: bool): (r: (map<string, seq<ModuleRow>>, Result<seq<ModuleRow>>))
    ensures fx.existsFails ==> r == (st.lookup, Err(CacheFailure))
    ensures r.1.Ok? && !Blank(name) ==> forall i :: 0 <= i < |r.1.value| ==> Matches(r.1.value[i].name, name.value)
    ensures forall a | a != app :: (a in r.0 <==> a in st.lookup) && (a in st.lookup ==> r.0[a] == st.lookup[a])
    ensures var rows := LookupRows(st.modules, st.types, app);
            fx == NoFaults && !queryFails && (app !in st.lookup || st.lookup[app] == rows) ==>
              r.1 == Ok(FilterByName(rows, RowName, name)) && app in r.0 && r.0[app] == rows
  {
    var query := if queryFails then Err(StoreFailure) else Ok(LookupRows(st.modules, st.types, app));
    var (lookup, res) := Lookup(st.lookup, app, fx, query);
    var out := match res {
      case Err(e) => Err(e)
      case Ok(rows) => Ok(FilterByName(rows, RowName, name))
    };
    (lookup, out)
  }

  /** `GetModuleByID`: the module when it is visible; an id that is not
      reads as absent. */
  function GetModuleByID(st: State, id: nat): (r: Option<ModuleRec>)
    ensures r.Some? <==> Visible(st, id)
    ensures r.Some? ==> r.value == st.modules[id]
  {
    if Visible(st, id) then Some(st.modules[id]) else None
  }

  /** A module whose type is soft-deleted is in no lookup and is not found
      by id, although its own row is live. */
  lemma DeletedTypeHidesModule(st: State, id: nat)
    requires Live(st.modules, id) && st.modules[id].kind in st.types && st.types[st.modules[id].kind]
    ensures GetModuleByID(st, id).None?
    ensures forall i :: 0 <= i < |LookupRows(st.modules, st.types, st.modules[id].app)| ==>
      LookupRows(st.modules, st.types, st.modules[id].app)[i].id != id
  {
  }

  // ---------------------------------------------------------------------
  // Service writes.

  /** The live module the get-or-create of `CreateModule` finds: same app,
      type, name and settings. */
  function FirstFound(ms: seq<ModuleRec>, app: string, kind: string, name: string, settings: string, from: nat): (r: Option<nat>)
    requires from <= |ms|
    ensures r.Some? ==> (from <= r.value < |ms| && !ms[r.value].deleted && ms[r.value].app == app
      && ms[r.value].kind == kind && ms[r.value].name == name && ms[r.value].settings == settings)
    ensures r.None? ==> forall i :: from <= i < |ms| && !ms[i].deleted && ms[i].app == app && ms[i].name == name ==>
      ms[i].kind != kind || ms[i].settings != settings
    decreases |ms| - from
  {
    if from == |ms| then None
    else
      var m := ms[from];
      if !m.deleted && m.app == app && m.kind == kind && m.name == name && m.settings == settings then Some(from)
      else FirstFound(ms, app, kind, name, settings, from + 1)
  }

  /** `CreateModule`: get-or-create by all four fields; a new row must keep
      (app, name) unique and name an existing app (given as `appExists`) and
      an existing type, the two foreign keys.  The app's lookup is
      invalidated after success. */
  function CreateModule(st: State, appExists: bool, app: string, kind: string, name: string, settings: string, now: int, fails: bool): (r: Result<(State, nat)>)
    ensures r.Err? ==> r.error == StoreFailure
    ensures r.Ok? ==> app !in r.value.0.lookup && r.value.0.types == st.types && Live(r.value.0.modules, r.value.1)
    ensures r.Ok? ==> var m := r.value.0.modules[r.value.1];
      m.app == app && m.kind == kind && m.name == name && m.settings == settings
    ensures r.Ok? ==> st.modules <= r.value.0.modules && |r.value.0.modules| <= |st.modules| + 1
    ensures r.Ok? && r.value.1 == |st.modules| ==> r.value.0.modules[r.value.1].updatedAt == now
    ensures !fails && FirstFound(st.modules, app, kind, name, settings, 0).None? ==>
      (r.Err? <==> !appExists || NameInIndex(st.modules, ModuleKey, app, name, -1) || kind !in st.types)
    ensures r.Ok? ==> forall a | a != app :: (a in r.value.0.lookup <==> a in st.lookup) && (a in st.lookup ==> r.value.0.lookup[a] == st.lookup[a])
  {
    if fails then Err(StoreFailure)
    else match FirstFound(st.modules, app, kind, name, settings, 0) {
      case Some(j) => Ok((st.(lookup := Invalidate(st.lookup, app)), j))
      case None =>
        if !appExists || NameInIndex(st.modules, ModuleKey, app, name, -1) || kind !in st.types then Err(StoreFailure)
        else
          var ms := st.modules + [ModuleRec(app, kind, name, settings, now, false)];
          Ok((st.(modules := ms, lookup := Invalidate(st.lookup, app)), |st.modules|))
    }
  }

  /** `UpdateModule`: save the loaded module with the new name, type and
      settings; it keeps its app.  The old app's lookup is invalidated. */
  function UpdateModule(st: State, id: nat, kind: string, name: string, settings: string, now: int, fails: bool): (r: Result<State>)
    requires Live(st.modules, id)
    ensures r.Err? <==> fails || NameInIndex(st.modules, ModuleKey, st.modules[id].app, name, id) || kind !in st.types
    ensures r.Err? ==> r.error == StoreFailure
    ensures r.Ok? ==> |r.value.modules| == |st.modules| && r.value.types == st.types
    ensures r.Ok? ==> r.value.modules[id] == ModuleRec(st.modules[id].app, kind, name, settings, now, false)
    ensures r.Ok? ==> forall i :: 0 <= i < |st.modules| && i != id ==> r.value.modules[i] == st.modules[i]
    ensures r.Ok? ==> r.value.lookup == Invalidate(st.lookup, st.modules[id].app)
  {
    var m := st.modules[id];
    if fails || NameInIndex(st.modules, ModuleKey, m.app, name, id) || kind !in st.types then Err(StoreFailure)
    else
      var m' := m.(kind := kind, name := name, settings := settings, updatedAt := now);
      Ok(st.(modules := st.modules[id := m'], lookup := Invalidate(st.lookup, m.app)))
  }

  /** `DeleteModule`: soft-delete; invalidate the given app's lookup on
      success. */
  function DeleteModule(st: State, id: nat, app: string, fails: bool): (r: Result<State>)
    ensures fails <==> r.Err?
    ensures r.Ok? ==> |r.value.modules| == |st.modules| && !Live(r.value.modules, id) && r.value.types == st.types
    ensures r.Ok? ==> forall i :: 0 <= i < |st.modules| && i != id ==> r.value.modules[i] == st.modules[i]
    ensures r.Ok? && id < |st.modules| ==> r.value.modules[id] == st.modules[id].(deleted := true)
    ensures r.Ok? ==> r.value.lookup == Invalidate(st.lookup, app)
  {
    if fails then Err(StoreFailure)
    else if Live(st.modules, id) then
      Ok(st.(modules := st.modules[id := st.modules[id].(deleted := true)], lookup := Invalidate(st.lookup, app)))
    else Ok(st.(lookup := Invalidate(st.lookup, app)))
  }

  /** `RestoreModule`: clear the deletion mark (stamping the update time),
      read the app name back (an
      unknown id reads as the empty name) and invalidate its lookup.  A
      failing read reports an error after the restore, and nothing is
      invalidated. */
  function RestoreModule(st: State, id: nat, now: int, fails: bool, readFails: bool): (r: (State, Result<()>))
    ensures fails ==> r == (st, Err(StoreFailure))
    ensures !fails ==> |r.0.modules| == |st.modules| && r.0.types == st.types && (id < |st.modules| ==> Live(r.0.modules, id))
    ensures !fails ==> forall i :: 0 <= i < |st.modules| && i != id ==> r.0.modules[i] == st.modules[i]
    ensures !fails && id < |st.modules| ==> r.0.modules[id] == st.modules[id].(deleted := false, updatedAt := now)
    ensures !fails && readFails ==> r.1 == Err(StoreFailure) && r.0.lookup == st.lookup
    ensures !fails && !readFails ==> r.1 == Ok(()) && r.0.lookup == Invalidate(st.lookup, if id < |st.modules| then st.modules[id].app else "")
  {
    if fails then (st, Err(StoreFailure))
    else
      var ms := if id < |st.modules| then st.modules[id := st.modules[id].(deleted := false, updatedAt := now)] else st.modules;
      if readFails then (st.(modules := ms), Err(StoreFailure))
      else (st.(modules := ms, lookup := Invalidate(st.lookup, if id < |st.modules| then st.modules[id].app else "")), Ok(()))
  }

  // ---------------------------------------------------------------------
  // Controller guards.

  /** The `CreateModule` handler: the app and a live type must exist and
      the name must be free among the app's live modules. */
  function CreateModuleOp(st: State, appExists: bool, app: string, kind: string, name: string, settings: string, now: int, fails: bool): (r: Result<(State, nat)>)
    ensures !appExists || !TypeLive(st.types, kind) ==> r == Err(NotFound)
    ensures appExists && TypeLive(st.types, kind) && !IsModuleNameAvailable(st.modules, app, name, None) ==> r == Err(NameTaken)
    ensures r.Ok? ==> r.value.1 == |st.modules| && Visible(r.value.0, r.value.1)
    ensures appExists && TypeLive(st.types, kind) && IsModuleNameAvailable(st.modules, app, name, None) ==>
      (r.Ok? <==> !fails && !NameInIndex(st.modules, ModuleKey, app, name, -1))
  {
    if !appExists || !TypeLive(st.types, kind) then Err(NotFound)
    else if !IsModuleNameAvailable(st.modules, app, name, None) then Err(NameTaken)
    else CreateModule(st, appExists, app, kind, name, settings, now, fails)
  }

  /** The `UpdateModule` handler: the new type must be live, the module
      visible and the copy fresh, and a new name free. */
  function UpdateModuleOp(st: State, id: nat, kind: string, name: string, settings: string, updatedAt: int, now: int, fails: bool): (r: Result<State>)
    ensures !TypeLive(st.types, kind) || !Visible(st, id) ==> r == Err(NotFound)
    ensures TypeLive(st.types, kind) && Visible(st, id) && updatedAt < st.modules[id].updatedAt ==> r == Err(OutOfSync)
    ensures r.Ok? ==> Visible(st, id) && st.modules[id].updatedAt <= updatedAt
    ensures r.Ok? && name != st.modules[id].name ==> IsModuleNameAvailable(st.modules, st.modules[id].app, name, Some(st.modules[id].name))
    ensures r.Ok? ==> (Visible(r.value, id) && r.value.modules[id].app == st.modules[id].app
      && r.value.modules[id].name == name && r.value.modules[id].kind == kind)
  {
    if !TypeLive(st.types, kind) || !Visible(st, id) then Err(NotFound)
    else
      var m := st.modules[id];
      if updatedAt < m.updatedAt then Err(OutOfSync)
      else if name != m.name && !IsModuleNameAvailable(st.modules, m.app, name, Some(m.name)) then Err(NameTaken)
      else UpdateModule(st, id, kind, name, settings, now, fails)
  }

  /** The `DeleteModule` handler: only a visible module is deleted. */
  function DeleteModuleOp(st: State, id: nat, fails: bool): (r: Result<State>)
    ensures !Visible(st, id) ==> r == Err(NotFound)
    ensures r.Ok? <==> Visible(st, id) && !fails
    ensures r.Ok? ==> !Live(r.value.modules, id) && st.modules[id].app !in r.value.lookup
  {
    if !Visible(st, id) then Err(NotFound)
    else DeleteModule(st, id, st.modules[id].app, fails)
  }

  /** The `RestoreModule` handler: only a deleted module is restored. */
  function RestoreModuleOp(st: State, id: nat, now: int, fails: bool, readFails: bool): (r: (State, Result<()>))
    ensures !IsModuleDeleted(st.modules, id) ==> r == (st, Err(NotDeleted))
    ensures r.1.Ok? ==> Live(r.0.modules, id) && st.modules[id].app !in r.0.lookup
  {
    if !IsModuleDeleted(st.modules, id) then (st, Err(NotDeleted))
    else RestoreModule(st, id, now, fails, readFails)
  }

  /** Deleting a module and restoring it gives back the module table it
      started from, up to the restored module's update time, and the
      module is visible again. */
  lemma DeleteThenRestore(st: State, id: nat, now: int)
    requires Visible(st, id)
    ensures var st1 := DeleteModuleOp(st, id, false).value;
      var st2 := RestoreModuleOp(st1, id, now, false, false).0;
      st2.modules == st.modules[id := st.modules[id].(updatedAt := now)] && Visible(st2, id)
  {
    var st1 := DeleteModuleOp(st, id, false).value;
    var st2 := RestoreModuleOp(st1, id, now, false, false).0;
    assert IsModuleDeleted(st1.modules, id);
    assert forall i :: 0 <= i < |st.modules| ==> st2.modules[i] == st.modules[id := st.modules[id].(updatedAt := now)][i];
  }
}

=== FILE: name_index.dfy ===
/** The name checks shared by versions, modules, menus and page partials.
    Each of those tables carries a unique index on (scope, name), where the
    scope is the app, the version, or the page.  The index is declared
    without a condition, so it also covers soft-deleted rows, while the
    availability queries read through the default scope and see live rows
    only. */
module NameIndex {
  import opened Wrappers

  /** What the name checks read from a soft-deletable row: its scope, its
      name, and whether it is live. */
  datatype NameKey<S> = NameKey(scope: S, name: string, live: bool)

  /** The first live row of `scope` named `name` at or after `from`,
      skipping the name `ignore`: the `Limit(1).Find` of the availability
      queries. */
  function FirstNamed<T, S(==)>(rows: seq<T>, key: T -> NameKey<S>, scope: S, name: string, ignore: Option<string>, from: nat): (r: Option<nat>)
    requires from <= |rows|
    ensures r.Some? ==> from <= r.value < |rows| && key(rows[r.value]) == NameKey(scope, name, true)
    ensures r.None? <==>
      || ignore == Some(name)
      || forall i :: from <= i < |rows| && key(rows[i]).live && key(rows[i]).scope == scope ==> key(rows[i]).name != name
    decreases |rows| - from
  {
    if from == |rows| || ignore == Some(name) then None
    else if key(rows[from]) == NameKey(scope, name, true) then Some(from)
    else FirstNamed(rows, key, scope, name, ignore, from + 1)
  }

  /** Whether a row other than `except`, live or soft-deleted, already holds
      (scope, name) in the unique index: a write of that pair violates it. */
  predicate NameInIndex<T, S(==)>(rows: seq<T>, key: T -> NameKey<S>, scope: S, name: string, except: int) {
    exists i :: 0 <= i < |rows| && i != except && key(rows[i]).scope == scope && key(rows[i]).name == name
  }
}

=== FILE: nullable.dfy ===
/** The `utils.NewNull*` constructors: they turn an optional request field
    (a Go `*string`, `nil` = `None`) into the store's nullable column value
    (`sql.Null*`, `Valid == false` = `None`). */
module Nullable {
  import opened Wrappers

  /** Go's `int16`. */
  type int16 = x: int | -0x8000 <= x < 0x8000

  /** `NewNullString`: a missing or empty string is stored as NULL. */
  function NewNullString(value: Option<string>): (r: Option<string>)
    ensures r.Some? <==> value.Some? && value.value != ""
    ensures r.Some? ==> r.value == value.value && r.value != ""
  {
    if value.Some? && value.value != "" then Some(value.value) else None
  }

  /** `NewNullUInt`: a missing or zero id is stored as NULL. Go's `uint` is
      unbounded here; no arithmetic is done on it. */
  function NewNullUInt(value: Option<nat>): (r: Option<nat>)
    ensures r.Some? <==> value.Some? && value.value != 0
    ensures r.Some? ==> r.value == value.value && r.value != 0
  {
    if value.Some? && value.value != 0 then Some(value.value) else None
  }

  /** `NewNullInt16` and `NewNullTime`: only a missing value is NULL; the
      zero value (0, the zero time) is kept.  Times are integer seconds. */
  function NewNullPresent<T>(value: Option<T>): (r: Option<T>)
    ensures r.Some? <==> value.Some?
    ensures r.Some? ==> r.value == value.value
  {
    if value.Some? then Some(value.value) else None
  }

  /** Reading a stored string column back with `.String` (NULL reads as "")
      gives the submitted text, with `nil` and "" both reading as "". */
  lemma NullStringReadBack(value: Option<string>)
    ensures NewNullString(value).GetOr("") == value.GetOr("")
  {
  }

  /** Reading a stored id back with `.V` (NULL reads as 0) gives the
      submitted id, with `nil` and 0 both reading as 0. */
  lemma NullUIntReadBack(value: Option<nat>)
    ensures NewNullUInt(value).GetOr(0) == value.GetOr(0)
  {
  }

  /** Normalising twice is normalising once: a present string is never empty. */
  lemma NullStringIdempotent(value: Option<string>)
    ensures NewNullString(NewNullString(value)) == NewNullString(value)
  {
  }

  /** Zero is the one input on which the unsigned and the 16-bit constructors
      disagree about presence. */
  lemma ZeroHandling()
    ensures NewNullUInt(Some(0)) == None
    ensures NewNullPresent(Some(0 as int16)) == Some(0 as int16)
  {
  }
}

=== FILE: page_freshness.dfy ===
/** The freshness guards of the page controller: a page or partial update
    is rejected when the client's copy is older than the stored one, at the
    root or, for a partial, at any row or column it resubmits.  Timestamps
    are integer seconds. */
module PageFreshness {
  import opened Wrappers
  import opened PageRequests

  /** A stored column as loaded with its row: id and last update. */
  datatype StoredColumn = StoredColumn(id: nat, updatedAt: int)

  /** A stored row as loaded with the partial. */
  datatype StoredRow = StoredRow(id: nat, updatedAt: int, columns: seq<StoredColumn>)

  /** A stored partial as loaded by id. */
  datatype StoredPartial = StoredPartial(id: nat, name: string, updatedAt: int, rows: seq<StoredRow>)

  /** The row index: stored row id to its update time; for a repeated id
      the later row wins. */
  function RowTimes(rows: seq<StoredRow>): (m: map<nat, int>)
    ensures forall i :: 0 <= i < |rows| ==> rows[i].id in m
    ensures forall id | id in m :: exists i :: 0 <= i < |rows| && rows[i].id == id && m[id] == rows[i].updatedAt
  {
    if |rows| == 0 then map[]
    else
      var n := |rows| - 1;
      var pre := RowTimes(rows[..n]);
      assert forall i :: 0 <= i < n ==> rows[..n][i] == rows[i];
      pre[rows[n].id := rows[n].updatedAt]
  }

  /** Some stored row holds a column with id `c` and time `time`. */
  predicate StoredColumnTime(rows: seq<StoredRow>, c: nat, time: int) {
    exists i, j :: 0 <= i < |rows| && 0 <= j < |rows[i].columns| && rows[i].columns[j] == StoredColumn(c, time)
  }

  /** The column index over the columns of every stored row together; each
      entry holds the time of some stored column with that id. */
  function ColumnTimes(rows: seq<StoredRow>): (m: map<nat, int>)
    ensures forall i, j :: 0 <= i < |rows| && 0 <= j < |rows[i].columns| ==> rows[i].columns[j].id in m
    ensures forall c | c in m :: StoredColumnTime(rows, c, m[c])
  {
    if |rows| == 0 then map[]
    else
      var n := |rows| - 1;
      var pre := ColumnTimes(rows[..n]);
      assert forall i :: 0 <= i < n ==> rows[..n][i] == rows[i];
      var m := AddColumns(pre, rows[n].columns);
      forall c | c in m
        ensures StoredColumnTime(rows, c, m[c])
      {
        if StoredColumn(c, m[c]) in rows[n].columns {
          var j :| 0 <= j < |rows[n].columns| && rows[n].columns[j] == StoredColumn(c, m[c]);
          assert rows[n].columns[j] == StoredColumn(c, m[c]);
        } else {
          assert StoredColumnTime(rows[..n], c, pre[c]);
          var i, j :| 0 <= i < n && 0 <= j < |rows[..n][i].columns| && rows[..n][i].columns[j] == StoredColumn(c, pre[c]);
          assert rows[i].columns[j] == StoredColumn(c, m[c]);
        }
      }
      m
  }

  /** The index with a row's columns added, a later column winning over an
      earlier one with the same id. */
  function AddColumns(m: map<nat, int>, cols: seq<StoredColumn>): (r: map<nat, int>)
    ensures forall k | k in m :: k in r
    ensures forall j :: 0 <= j < |cols| ==> cols[j].id in r
    ensures forall k | k in r :: (k in m && r[k] == m[k]) || StoredColumn(k, r[k]) in cols
  {
    if |cols| == 0 then m
    else
      var n := |cols| - 1;
      var pre := AddColumns(m, cols[..n]);
      assert forall j :: 0 <= j < n ==> cols[..n][j] == cols[j];
      pre[cols[n].id := cols[n].updatedAt]
  }

  /** A submitted column that carries an id and a time, names a known
      column, and is older than it. */
  predicate ColumnStale(cols: map<nat, int>, c: ColumnReq) {
    c.id.Some? && c.updatedAt.Some? && c.id.value in cols && c.updatedAt.value < cols[c.id.value]
  }

  /** A submitted row that carries an id and a time and names a known row,
      and is older than it or holds a stale column. */
  predicate RowStale(rows: map<nat, int>, cols: map<nat, int>, r: RowReq) {
    && r.id.Some? && r.updatedAt.Some? && r.id.value in rows
    && (r.updatedAt.value < rows[r.id.value] || exists j :: 0 <= j < |r.columns| && ColumnStale(cols, r.columns[j]))
  }

  /** The inner loop of `isPartialRowsOutOfSync` over a row's columns. */
  function ColumnsOutOfSync(cols: map<nat, int>, newCols: seq<ColumnReq>): (r: bool)
    ensures r <==> exists j :: 0 <= j < |newCols| && ColumnStale(cols, newCols[j])
  {
    if |newCols| == 0 then false
    else if ColumnStale(cols, newCols[0]) then true
    else
      var r := ColumnsOutOfSync(cols, newCols[1..]);
      assert forall j :: 1 <= j < |newCols| ==> newCols[j] == newCols[1..][j - 1];
      r
  }

  /** The outer loop of `isPartialRowsOutOfSync`: skip rows without id or
      time, skip unknown rows, return on a stale row, otherwise check its
      columns. */
  function RowsOutOfSync(rows: map<nat, int>, cols: map<nat, int>, newRows: seq<RowReq>): (r: bool)
    ensures r <==> exists i :: 0 <= i < |newRows| && RowStale(rows, cols, newRows[i])
  {
    if |newRows| == 0 then false
    else
      var row := newRows[0];
      assert forall i :: 1 <= i < |newRows| ==> newRows[i] == newRows[1..][i - 1];
      if row.id.None? || row.updatedAt.None? then RowsOutOfSync(rows, cols, newRows[1..])
      else if row.id.value in rows then
        if row.updatedAt.value < rows[row.id.value] then true
        else ColumnsOutOfSync(cols, row.columns) || RowsOutOfSync(rows, cols, newRows[1..])
      else RowsOutOfSync(rows, cols, newRows[1..])
  }

  /** `isPartialRowsOutOfSync`. */
  function IsPartialRowsOutOfSync(stored: seq<StoredRow>, newRows: seq<RowReq>): (r: bool)
    ensures r <==> exists i :: 0 <= i < |newRows| && RowStale(RowTimes(stored), ColumnTimes(stored), newRows[i])
  {
    RowsOutOfSync(RowTimes(stored), ColumnTimes(stored), newRows)
  }

  /** A column is found through the shared index even when it is submitted
      under a different row than the one that stores it. */
  lemma MovedColumnStillChecked(stored: seq<StoredRow>, newRows: seq<RowReq>, i: nat, a: nat, j: nat, b: nat)
    requires i < |newRows| && a < |stored| && j < |stored[a].columns| && b < |newRows[i].columns|
    requires newRows[i].id.Some? && newRows[i].updatedAt.Some?
    requires newRows[i].id.value in RowTimes(stored)
    requires newRows[i].columns[b].id == Some(stored[a].columns[j].id) && newRows[i].columns[b].updatedAt.Some?
    requires newRows[i].columns[b].updatedAt.value < ColumnTimes(stored)[stored[a].columns[j].id]
    ensures IsPartialRowsOutOfSync(stored, newRows)
  {
    assert ColumnStale(ColumnTimes(stored), newRows[i].columns[b]);
    assert RowStale(RowTimes(stored), ColumnTimes(stored), newRows[i]);
  }

  /** The columns of a submitted row that names no stored row are never
      looked at, however old they are. */
  lemma UnknownRowColumnsIgnored(stored: seq<StoredRow>, before: seq<RowReq>, row: RowReq, after: seq<RowReq>)
    requires row.id.None? || row.updatedAt.None? || row.id.value !in RowTimes(stored)
    ensures IsPartialRowsOutOfSync(stored, before + [row] + after)
        == IsPartialRowsOutOfSync(stored, before + after)
  {
    var rows, cols := RowTimes(stored), ColumnTimes(stored);
    assert !RowStale(rows, cols, row);
    StaleAfterDrop(rows, cols, before, row, after);
    StaleBeforeInsert(rows, cols, before, row, after);
  }

  /** A stale row of the full list other than the dropped one is still in
      the shorter list. */
  lemma StaleAfterDrop(rows: map<nat, int>, cols: map<nat, int>, before: seq<RowReq>, row: RowReq, after: seq<RowReq>)
    requires !RowStale(rows, cols, row)
    ensures (exists i :: 0 <= i < |before + [row] + after| && RowStale(rows, cols, (before + [row] + after)[i]))
        ==> exists i :: 0 <= i < |before + after| && RowStale(rows, cols, (before + after)[i])
  {
    var all, rest := before + [row] + after, before + after;
    if exists i :: 0 <= i < |all| && RowStale(rows, cols, all[i]) {
      var i :| 0 <= i < |all| && RowStale(rows, cols, all[i]);
      if i < |before| {
        assert rest[i] == all[i];
      } else {
        assert i > |before|;
        assert rest[i - 1] == all[i];
      }
    }
  }

  /** A stale row of the shorter list is still in the list with the row
      inserted. */
  lemma StaleBeforeInsert(rows: map<nat, int>, cols: map<nat, int>, before: seq<RowReq>, row: RowReq, after: seq<RowReq>)
    ensures (exists i :: 0 <= i < |before + after| && RowStale(rows, cols, (before + after)[i]))
        ==> exists i :: 0 <= i < |before + [row] + after| && RowStale(rows, cols, (before + [row] + after)[i])
  {
    var all, rest := before + [row] + after, before + after;
    if exists i :: 0 <= i < |rest| && RowStale(rows, cols, rest[i]) {
      var i :| 0 <= i < |rest| && RowStale(rows, cols, rest[i]);
      if i < |before| {
        assert all[i] == rest[i];
      } else {
        assert all[i + 1] == rest[i];
      }
    }
  }

  /** A client that sends back the times it loaded is never out of sync:
      when every submitted row and column that names a stored one carries
      its stored time, no submitted row is stale. */
  lemma {:induction false} StoredTimesAreFresh(stored: seq<StoredRow>, newRows: seq<RowReq>)
    requires forall i :: 0 <= i < |newRows| && newRows[i].id.Some? && newRows[i].updatedAt.Some? && newRows[i].id.value in RowTimes(stored) ==>
      newRows[i].updatedAt.value == RowTimes(stored)[newRows[i].id.value]
    requires forall i, j :: 0 <= i < |newRows| && 0 <= j < |newRows[i].columns| ==>
      var c := newRows[i].columns[j];
      c.id.Some? && c.updatedAt.Some? && c.id.value in ColumnTimes(stored) ==> c.updatedAt.value == ColumnTimes(stored)[c.id.value]
    ensures !IsPartialRowsOutOfSync(stored, newRows)
  {
    var rows, cols := RowTimes(stored), ColumnTimes(stored);
    forall i | 0 <= i < |newRows|
      ensures !RowStale(rows, cols, newRows[i])
    {
      forall j | 0 <= j < |newRows[i].columns|
        ensures !ColumnStale(cols, newRows[i].columns[j])
      {
      }
    }
  }

  /** The `UpdatePage` guard: a missing page is not found, an older copy
      is out of sync. */
  function CheckUpdatePage(storedUpdatedAt: Option<int>, req: UpdatePage): (r: Result<()>)
    ensures r.Ok? <==> storedUpdatedAt.Some? && storedUpdatedAt.value <= req.updatedAt
    ensures storedUpdatedAt.None? ==> r == Err(NotFound)
    ensures storedUpdatedAt.Some? && req.updatedAt < storedUpdatedAt.value ==> r == Err(OutOfSync)
  {
    if storedUpdatedAt.None? then Err(NotFound)
    else if req.updatedAt < storedUpdatedAt.value then Err(OutOfSync)
    else Ok(())
  }

  /** The `UpdatePagePartial` guard, in the controller's order: the page
      must exist, the partial must exist, neither the partial nor any
      resubmitted row or column may be older than stored, and a new name
      must be free. */
  function CheckUpdatePartial(pageExists: bool, stored: Option<StoredPartial>, req: UpdatePartial, takenNames: set<string>): (r: Result<StoredPartial>)
    ensures !pageExists || stored.None? ==> r == Err(NotFound)
    ensures pageExists && stored.Some? ==>
      (r == Err(OutOfSync) <==>
        req.updatedAt < stored.value.updatedAt || IsPartialRowsOutOfSync(stored.value.rows, req.rows))
    ensures r.Ok? <==>
      && pageExists && stored.Some?
      && stored.value.updatedAt <= req.updatedAt
      && !IsPartialRowsOutOfSync(stored.value.rows, req.rows)
      && (req.name == stored.value.name || req.name !in takenNames)
    ensures r.Ok? ==> r.value == stored.value
  {
    if !pageExists || stored.None? then Err(NotFound)
    else
      var prev := stored.value;
      if req.updatedAt < prev.updatedAt || IsPartialRowsOutOfSync(prev.rows, req.rows) then Err(OutOfSync)
      else if req.name != prev.name && req.name in takenNames then Err(NameTaken)
      else Ok(prev)
  }
}

=== FILE: page_requests.dfy ===
/** The request bodies of a page update and of a partial update, and the
    stored attribute values they turn into. */
module PageRequests {
  import opened Wrappers
  import opened Nullable
  import opened IndexingSync

  /** A submitted column.  `sizes` holds the eighteen `int16` breakpoint
      fields in declaration order (xxl … xs, offset … offsetSm, order …
      orderSm). */
  datatype ColumnReq = ColumnReq(
    id: Option<nat>,
    moduleId: Option<nat>,
    position: nat,
    cols: string,
    sizes: seq<Option<int16>>,
    alignSelf: Option<string>,
    content: Option<string>,
    updatedAt: Option<int>)

  /** A submitted row.  `texts` holds the nineteen optional text fields in
      declaration order (hashtag, align … alignSm, alignContent …
      alignContentSm, justify … justifySm). */
  datatype RowReq = RowReq(
    id: Option<nat>,
    position: nat,
    noGutters: bool,
    dense: bool,
    texts: seq<Option<string>>,
    updatedAt: Option<int>,
    columns: seq<ColumnReq>)

  datatype UpdatePartial = UpdatePartial(name: string, updatedAt: int, rows: seq<RowReq>)

  datatype UpdatePage = UpdatePage(
    plugin: Option<string>,
    name: string,
    metaTitle: Option<string>,
    metaDescription: Option<string>,
    hashtag: Option<string>,
    newTabEnabled: bool,
    urlEnabled: bool,
    url: Option<string>,
    enabledAt: Option<int>,
    updatedAt: int,
    indexing: seq<IndexingReq>)

  /** The stored attributes of a row. */
  datatype RowAttrs = RowAttrs(position: nat, noGutters: bool, dense: bool, texts: seq<Option<string>>)

  /** The stored attributes of a column. */
  datatype ColAttrs = ColAttrs(
    position: nat,
    moduleId: Option<nat>,
    cols: string,
    sizes: seq<Option<int16>>,
    alignSelf: Option<string>,
    content: Option<string>)

  /** A row's attributes as the update writes them: every text field
      through `NewNullString`. */
  function RowAttrsOf(r: RowReq): (a: RowAttrs)
    ensures a.position == r.position && a.noGutters == r.noGutters && a.dense == r.dense
    ensures |a.texts| == |r.texts|
    ensures forall i :: 0 <= i < |r.texts| ==>
      (a.texts[i].Some? <==> r.texts[i].Some? && r.texts[i].value != "")
      && (a.texts[i].Some? ==> a.texts[i].value == r.texts[i].value)
  {
    RowAttrs(r.position, r.noGutters, r.dense, seq(|r.texts|, i requires 0 <= i < |r.texts| => NewNullString(r.texts[i])))
  }

  /** A column's attributes as the update writes them: the module id
      through `NewNullUInt`, the sizes through `NewNullInt16`
      (`NewNullPresent`), the texts through `NewNullString`. */
  function ColAttrsOf(c: ColumnReq): (a: ColAttrs)
    ensures a.position == c.position && a.cols == c.cols
    ensures a.moduleId.Some? <==> c.moduleId.Some? && c.moduleId.value != 0
    ensures a.moduleId.Some? ==> a.moduleId == c.moduleId
    ensures a.sizes == c.sizes
    ensures a.alignSelf.Some? <==> c.alignSelf.Some? && c.alignSelf.value != ""
    ensures a.content.Some? <==> c.content.Some? && c.content.value != ""
    ensures a.alignSelf.Some? ==> a.alignSelf == c.alignSelf
    ensures a.content.Some? ==> a.content == c.content
  {
    var sizes := seq(|c.sizes|, i requires 0 <= i < |c.sizes| => NewNullPresent(c.sizes[i]));
    assert sizes == c.sizes;
    ColAttrs(c.position, NewNullUInt(c.moduleId), c.cols, sizes, NewNullString(c.alignSelf), NewNullString(c.content))
  }
}

=== FILE: page_service.dfy ===
/** The page service and the two page update handlers: reading a page,
    getting or creating it, updating its fields and indexing options, and
    reconciling a page partial's rows and columns against a submitted
    partial.

    A page is keyed by (menu item id, locale).  Partials, rows and columns
    are auto-increment tables.  The clock is the parameter `now`; whether
    the store query fails is a parameter too. */
module PageService {
  import opened Wrappers
  import opened Nullable
  import opened IndexingSync
  import IndexingEnum
  import opened PageRequests
  import opened PageFreshness
  import opened PartialTables
  import opened NameIndex
  import MenuEngine

  /** (menu item id, locale) */
  type PageKey = (nat, string)

  datatype PageRec = PageRec(
    plugin: Option<string>,
    name: string,
    metaTitle: Option<string>,
    metaDescription: Option<string>,
    hashtag: Option<string>,
    newTabEnabled: bool,
    urlEnabled: bool,
    url: Option<string>,
    updatedAt: int,
    deleted: bool)

  datatype PartialRec = PartialRec(page: PageKey, name: string, updatedAt: int, deleted: bool)

  /** A partial's entry in the unique (page, name) index, which also holds
      soft-deleted partials. */
  function PartialKey(p: PartialRec): NameKey<PageKey> {
    NameKey(p.page, p.name, !p.deleted)
  }

  /** The tables the page handlers read and write.  `tree` holds the menus,
      menu items and relations a page hangs from. */
  datatype PageStore = PageStore(
    tree: MenuEngine.Store,
    pages: map<PageKey, PageRec>,
    indexing: map<(PageKey, IndexingEnum.Indexing), Option<string>>,
    partials: seq<PartialRec>,
    rows: Table<RowAttrs>,
    cols: Table<ColAttrs>)

  /** Every column hangs from an existing row (the foreign key). */
  predicate WellFormed(st: PageStore) {
    forall j :: 0 <= j < |st.cols| ==> st.cols[j].owner < |st.rows|
  }

  /** `IsPageDeleted`: the page row, its menu item, or any menu the item is
      related to carries a deletion mark. */
  predicate IsPageDeleted(st: PageStore, key: PageKey) {
    || (key in st.pages && st.pages[key].deleted)
    || (key.0 < |st.tree.items| && st.tree.items[key.0].deleted)
    || exists e | e in st.tree.edges :: e.1 == key.0 && e.0 < |st.tree.menus| && st.tree.menus[e.0].deleted
  }

  // ---------------------------------------------------------------------
  // Reading and creating pages.

  /** `GetPage`: a deleted page, or one under a deleted item or menu, reads
      as the empty page (`None`), as does a missing one. */
  function GetPage(st: PageStore, key: PageKey, fails: bool): (r: Result<Option<PageRec>>)
    ensures fails <==> r.Err?
    ensures r.Err? ==> r.error == StoreFailure
    ensures r.Ok? && r.value.Some? <==> !fails && !IsPageDeleted(st, key) && key in st.pages
    ensures r.Ok? && r.value.Some? ==> r.value.value == st.pages[key] && !r.value.value.deleted
  {
    if fails then Err(StoreFailure)
    else if IsPageDeleted(st, key) then Ok(None)
    else if key in st.pages then Ok(Some(st.pages[key]))
    else Ok(None)
  }

  /** The page `GetOrCreatePage` inserts: an empty name, every optional
      field null, both flags off. */
  function NewPage(now: int): PageRec {
    PageRec(None, "", None, None, None, false, false, None, now, false)
  }

  /** `GetOrCreatePage`: a deleted page is neither read nor created; an
      existing page is returned as stored; otherwise a new empty page is
      inserted, which needs its menu item to exist. */
  function GetOrCreatePage(st: PageStore, key: PageKey, now: int, fails: bool): (r: Result<(PageStore, Option<PageRec>)>)
    ensures r.Ok? && r.value.1.None? <==> !fails && IsPageDeleted(st, key)
    ensures r.Err? <==> fails || (!IsPageDeleted(st, key) && key !in st.pages && key.0 >= |st.tree.items|)
    ensures r.Ok? && r.value.1.Some? ==>
      && key in r.value.0.pages && r.value.0.pages[key] == r.value.1.value
      && GetPage(r.value.0, key, false) == Ok(r.value.1)
    ensures r.Ok? && key in st.pages ==> r.value.0 == st
    ensures r.Ok? ==> r.value.0 == st || r.value.0 == st.(pages := st.pages[key := NewPage(now)])
  {
    if fails then Err(StoreFailure)
    else if IsPageDeleted(st, key) then Ok((st, None))
    else if key in st.pages then Ok((st, Some(st.pages[key])))
    else if key.0 >= |st.tree.items| then Err(StoreFailure)
    else
      var st' := st.(pages := st.pages[key := NewPage(now)]);
      assert !IsPageDeleted(st', key);
      Ok((st', Some(NewPage(now))))
  }

  /** Getting or creating a page twice stores and returns what the first
      call did. */
  lemma GetOrCreatePageIdempotent(st: PageStore, key: PageKey, now: int, later: int)
    requires GetOrCreatePage(st, key, now, false).Ok?
    ensures var first := GetOrCreatePage(st, key, now, false).value;
            GetOrCreatePage(first.0, key, later, false) == Ok(first)
  {
    var first := GetOrCreatePage(st, key, now, false).value;
    if !IsPageDeleted(st, key) && key !in st.pages {
      assert !IsPageDeleted(first.0, key);
    }
  }

  // ---------------------------------------------------------------------
  // UpdatePage.

  /** How a nullable text field is stored for a submitted value: null for
      a missing or empty value, the value otherwise. */
  predicate StoredAs(stored: Option<string>, sent: Option<string>) {
    && (stored.Some? <==> sent.Some? && sent.value != "")
    && (stored.Some? ==> stored == sent)
  }

  /** The stored page reflects every field of the request. */
  predicate Reflects(p: PageRec, req: UpdatePage) {
    && p.name == req.name
    && p.newTabEnabled == req.newTabEnabled
    && p.urlEnabled == req.urlEnabled
    && StoredAs(p.plugin, req.plugin)
    && StoredAs(p.metaTitle, req.metaTitle)
    && StoredAs(p.metaDescription, req.metaDescription)
    && StoredAs(p.hashtag, req.hashtag)
    && StoredAs(p.url, req.url)
  }

  /** The page fields as the update evidently means to write them: every
      field of the request, nullable texts through `NewNullString`, and a
      fresh update time. */
  function WritePage(p: PageRec, req: UpdatePage, now: int): (r: PageRec)
    ensures Reflects(r, req)
    ensures r.updatedAt == now && r.deleted == p.deleted
  {
    p.(name := req.name, newTabEnabled := req.newTabEnabled, urlEnabled := req.urlEnabled,
       plugin := NewNullString(req.plugin), metaTitle := NewNullString(req.metaTitle),
       metaDescription := NewNullString(req.metaDescription), hashtag := NewNullString(req.hashtag),
       url := NewNullString(req.url), updatedAt := now)
  }

  /** A struct update as the ORM performs it: a field holding its type's
      zero value (`false`, `""`, a null `sql.NullString`) is left out of the
      statement, so the stored value survives. */
  function WritePageSkippingZeros(p: PageRec, req: UpdatePage, now: int): (r: PageRec)
    ensures r.newTabEnabled == (p.newTabEnabled || req.newTabEnabled)
    ensures r.urlEnabled == (p.urlEnabled || req.urlEnabled)
    ensures req.name != "" ==> r.name == req.name
    ensures req.name == "" ==> r.name == p.name
  {
    var keep := (stored: Option<string>, sent: Option<string>) => if NewNullString(sent).Some? then NewNullString(sent) else stored;
    p.(name := if req.name != "" then req.name else p.name,
       newTabEnabled := req.newTabEnabled || p.newTabEnabled,
       urlEnabled := req.urlEnabled || p.urlEnabled,
       plugin := keep(p.plugin, req.plugin), metaTitle := keep(p.metaTitle, req.metaTitle),
       metaDescription := keep(p.metaDescription, req.metaDescription),
       hashtag := keep(p.hashtag, req.hashtag), url := keep(p.url, req.url), updatedAt := now)
  }

  /** As written, switching a flag off or clearing a text field does not
      reach the stored page. */
  lemma ZeroFieldsAreNotWritten(p: PageRec, req: UpdatePage, now: int)
    requires p.newTabEnabled && !req.newTabEnabled
    requires p.metaTitle.Some? && req.metaTitle.None?
    ensures !Reflects(WritePageSkippingZeros(p, req, now), req)
    ensures Reflects(WritePage(p, req, now), req)
  {
  }

  /** The service `UpdatePage`: a deleted page is not found; otherwise the
      page's fields are overwritten and its indexing options synced with
      the request.  The request's enable time has no column and is not
      stored. */
  function UpdatePage(st: PageStore, key: PageKey, req: UpdatePage, now: int, fails: bool): (r: Result<PageStore>)
    ensures fails ==> r == Err(StoreFailure)
    ensures !fails && IsPageDeleted(st, key) ==> r == Err(NotFound)
    ensures r.Ok? <==> !fails && !IsPageDeleted(st, key)
    ensures r.Ok? ==> r.value.pages.Keys == st.pages.Keys
    ensures r.Ok? && key in st.pages ==> Reflects(r.value.pages[key], req) && r.value.pages[key].updatedAt == now
    ensures r.Ok? ==> forall k | k in st.pages && k != key :: r.value.pages[k] == st.pages[k]
    ensures r.Ok? ==> forall o :: (key, o) in r.value.indexing <==> o in Options(req.indexing)
    ensures r.Ok? ==> forall o | o in Options(req.indexing) ::
      r.value.indexing[(key, o)] == NewNullString(LastValue(req.indexing, o))
    ensures r.Ok? ==> forall k: (PageKey, IndexingEnum.Indexing) | k.0 != key ::
      (k in r.value.indexing <==> k in st.indexing) && (k in st.indexing ==> r.value.indexing[k] == st.indexing[k])
    ensures r.Ok? ==> r.value.tree == st.tree && r.value.partials == st.partials && r.value.rows == st.rows && r.value.cols == st.cols
  {
    if fails then Err(StoreFailure)
    else if IsPageDeleted(st, key) then Err(NotFound)
    else
      var pages := if key in st.pages then st.pages[key := WritePage(st.pages[key], req, now)] else st.pages;
      var ix := SyncIndexingMapped(st.indexing, key, req.indexing, NewNullString);
      Ok(st.(pages := pages, indexing := ix))
  }

  /** The `UpdatePage` handler: read the page, reject a missing page or a
      stale copy, then update. */
  function UpdatePageOp(st: PageStore, key: PageKey, req: UpdatePage, now: int, fails: bool): (r: Result<PageStore>)
    ensures r.Ok? <==>
      && !fails && !IsPageDeleted(st, key) && key in st.pages
      && st.pages[key].updatedAt <= req.updatedAt
    ensures !fails && (IsPageDeleted(st, key) || key !in st.pages) ==> r == Err(NotFound)
    ensures !fails && !IsPageDeleted(st, key) && key in st.pages && req.updatedAt < st.pages[key].updatedAt ==> r == Err(OutOfSync)
    ensures r.Ok? ==> key in r.value.pages && Reflects(r.value.pages[key], req)
  {
    var page :- GetPage(st, key, fails);
    var _ :- CheckUpdatePage(if page.Some? then Some(page.value.updatedAt) else None, req);
    UpdatePage(st, key, req, now, false)
  }

  // ---------------------------------------------------------------------
  // UpdatePagePartial.

  function RowId(q: RowReq): Option<nat> { q.id }

  function ColId(q: ColumnReq): Option<nat> { q.id }

  /** The submitted ids of a list of rows or of columns, in order. */
  function IdsOf<T>(reqs: seq<T>, id: T -> Option<nat>): (r: seq<Option<nat>>)
    ensures |r| == |reqs| && forall i :: 0 <= i < |reqs| ==> r[i] == id(reqs[i])
  {
    seq(|reqs|, i requires 0 <= i < |reqs| => id(reqs[i]))
  }

  function RowAttrsList(reqs: seq<RowReq>): (r: seq<RowAttrs>)
    ensures |r| == |reqs| && forall i :: 0 <= i < |reqs| ==> r[i] == RowAttrsOf(reqs[i])
  {
    seq(|reqs|, i requires 0 <= i < |reqs| => RowAttrsOf(reqs[i]))
  }

  function ColAttrsList(reqs: seq<ColumnReq>): (r: seq<ColAttrs>)
    ensures |r| == |reqs| && forall i :: 0 <= i < |reqs| ==> r[i] == ColAttrsOf(reqs[i])
  {
    seq(|reqs|, i requires 0 <= i < |reqs| => ColAttrsOf(reqs[i]))
  }

  /** A row's live columns are exactly `ids`. */
  ghost predicate ColumnsAre(cols: Table<ColAttrs>, row: nat, ids: seq<nat>) {
    forall j :: LiveChild(cols, row, j) <==> j in ids
  }

  /** A row's columns after its pass: exactly `ids`, one per submitted
      column, and each column written last by the pass holds that
      descriptor's attributes. */
  ghost predicate ColumnsWritten(cols: Table<ColAttrs>, row: nat, ids: seq<nat>, reqs: seq<ColumnReq>) {
    && ColumnsAre(cols, row, ids)
    && |ids| == |reqs|
    && forall c :: 0 <= c < |reqs| && LastWrite(ids, c) ==> ids[c] < |cols| && cols[ids[c]].attrs == ColAttrsOf(reqs[c])
  }

  /** No later position of `ids` repeats the id at `k`. */
  predicate LastWrite(ids: seq<nat>, k: nat)
    requires k < |ids|
  {
    forall m :: k < m < |ids| ==> ids[m] != ids[k]
  }

  /** The column side of one pass of the row loop: the columns gained by
      `cols1` hang from `rid`, and no column of another row changed. */
  predicate ColumnsFollow(cols: Table<ColAttrs>, cols1: Table<ColAttrs>, rids: seq<nat>) {
    && |cols| <= |cols1|
    && (forall j :: 0 <= j < |cols| ==> cols1[j].owner == cols[j].owner)
    && (forall j :: |cols| <= j < |cols1| ==> cols1[j].owner in rids)
    && (forall j :: 0 <= j < |cols| && cols[j].owner !in rids ==> cols1[j] == cols[j])
  }

  /** One pass of the row loop: write the row, then reconcile its columns
      against the columns it holds at that moment. */
  function RowStep(rows: Table<RowAttrs>, cols: Table<ColAttrs>, partialId: nat, existing: seq<nat>, req: RowReq, now: int)
    : (r: (Table<RowAttrs>, Table<ColAttrs>, nat, seq<nat>))
    requires AllLiveChildren(rows, partialId, existing)
    ensures (r.0, r.2) == Upsert(rows, partialId, existing, req.id, RowAttrsOf(req), now)
    ensures AllLiveChildren(r.0, partialId, existing)
    ensures ColumnsFollow(cols, r.1, [r.2])
    ensures ColumnsWritten(r.1, r.2, r.3, req.columns)
  {
    var (rows1, rid) := Upsert(rows, partialId, existing, req.id, RowAttrsOf(req), now);
    var (cols1, cids) := Reconcile(cols, rid, IdsOf(req.columns, ColId), ColAttrsList(req.columns), now);
    (rows1, cols1, rid, cids)
  }

  /** The row loop of `UpdatePagePartial`: one `RowStep` per submitted row,
      in order, against the partial's rows loaded beforehand.  Returns the
      new tables, the row ids in request order, and for each row its column
      ids in request order. */
  function ProcessRows(rows: Table<RowAttrs>, cols: Table<ColAttrs>, partialId: nat, existing: seq<nat>, reqs: seq<RowReq>, now: int)
    : (r: (Table<RowAttrs>, Table<ColAttrs>, seq<nat>, seq<seq<nat>>))
    requires AllLiveChildren(rows, partialId, existing)
    ensures |r.2| == |reqs| && |r.3| == |reqs|
    ensures forall k :: 0 <= k < |reqs| ==> |r.3[k]| == |reqs[k].columns|
    ensures ColumnsFollow(cols, r.1, r.2)
    ensures forall k :: 0 <= k < |reqs| && LastWrite(r.2, k) ==> ColumnsWritten(r.1, r.2[k], r.3[k], reqs[k].columns)
    decreases |reqs|
  {
    if |reqs| == 0 then (rows, cols, [], [])
    else
      var s1 := RowStep(rows, cols, partialId, existing, reqs[0], now);
      var s2 := ProcessRows(s1.0, s1.1, partialId, existing, reqs[1..], now);
      ColumnsFollowTrans(cols, s1.1, s2.1, s1.2, s2.2);
      LastWriteColumns(s1.1, s2.1, reqs, s1.2, s1.3, s2.2, s2.3);
      ColumnCounts(reqs, s1.3, s2.3);
      (s2.0, s2.1, [s1.2] + s2.2, [s1.3] + s2.3)
  }

  lemma ColumnCounts(reqs: seq<RowReq>, cids: seq<nat>, restCols: seq<seq<nat>>)
    requires |reqs| > 0 && |cids| == |reqs[0].columns| && |restCols| == |reqs| - 1
    requires forall k :: 0 <= k < |reqs| - 1 ==> |restCols[k]| == |reqs[1..][k].columns|
    ensures forall k :: 0 <= k < |reqs| ==> |([cids] + restCols)[k]| == |reqs[k].columns|
  {
    var colIds := [cids] + restCols;
    forall k | 1 <= k < |reqs|
      ensures |colIds[k]| == |reqs[k].columns|
    {
      assert colIds[k] == restCols[k - 1] && reqs[k] == reqs[1..][k - 1];
    }
  }

  lemma ColumnsFollowTrans(cols: Table<ColAttrs>, cols1: Table<ColAttrs>, cols2: Table<ColAttrs>, rid: nat, restIds: seq<nat>)
    requires ColumnsFollow(cols, cols1, [rid]) && ColumnsFollow(cols1, cols2, restIds)
    ensures ColumnsFollow(cols, cols2, [rid] + restIds)
  {
    var ids := [rid] + restIds;
    assert forall x :: x in ids <==> x == rid || x in restIds;
  }

  /** The columns of every row written last by the loop are exactly the
      ones the loop reports for it, with the attributes submitted for them,
      given that this holds of the rest of the loop and of the first
      pass. */
  lemma LastWriteColumns(cols1: Table<ColAttrs>, cols2: Table<ColAttrs>, reqs: seq<RowReq>, rid: nat, cids: seq<nat>, restIds: seq<nat>, restCols: seq<seq<nat>>)
    requires |reqs| == |restIds| + 1 && |restIds| == |restCols|
    requires ColumnsWritten(cols1, rid, cids, reqs[0].columns) && ColumnsFollow(cols1, cols2, restIds)
    requires forall k :: 0 <= k < |restIds| && LastWrite(restIds, k) ==> ColumnsWritten(cols2, restIds[k], restCols[k], reqs[1..][k].columns)
    ensures var ids, colIds := [rid] + restIds, [cids] + restCols;
      forall k :: 0 <= k < |ids| && LastWrite(ids, k) ==> ColumnsWritten(cols2, ids[k], colIds[k], reqs[k].columns)
  {
    var ids, colIds := [rid] + restIds, [cids] + restCols;
    if LastWrite(ids, 0) {
      LastWriteHead(rid, restIds);
      ColumnsWrittenKept(cols1, cols2, rid, cids, reqs[0].columns, restIds);
    }
    forall k | 1 <= k < |ids| && LastWrite(ids, k)
      ensures ColumnsWritten(cols2, ids[k], colIds[k], reqs[k].columns)
    {
      LastWriteTail(rid, restIds, k);
      assert ids[k] == restIds[k - 1] && colIds[k] == restCols[k - 1] && reqs[k] == reqs[1..][k - 1];
    }
  }

  lemma LastWriteHead(rid: nat, restIds: seq<nat>)
    requires LastWrite([rid] + restIds, 0)
    ensures rid !in restIds
  {
    var ids := [rid] + restIds;
    forall m | 0 <= m < |restIds| ensures restIds[m] != rid {
      assert ids[m + 1] == restIds[m];
    }
  }

  lemma LastWriteTail(rid: nat, restIds: seq<nat>, k: nat)
    requires 1 <= k <= |restIds| && LastWrite([rid] + restIds, k)
    ensures LastWrite(restIds, k - 1)
  {
    var ids := [rid] + restIds;
    forall m | k - 1 < m < |restIds| ensures restIds[m] != restIds[k - 1] {
      assert ids[m + 1] == restIds[m];
    }
  }

  /** Later passes for other rows leave a row's columns as they are. */
  lemma ColumnsWrittenKept(cols1: Table<ColAttrs>, cols2: Table<ColAttrs>, rid: nat, cids: seq<nat>, reqs: seq<ColumnReq>, restIds: seq<nat>)
    requires ColumnsWritten(cols1, rid, cids, reqs) && ColumnsFollow(cols1, cols2, restIds) && rid !in restIds
    ensures ColumnsWritten(cols2, rid, cids, reqs)
  {
    forall j ensures LiveChild(cols2, rid, j) <==> LiveChild(cols1, rid, j) {
      if 0 <= j < |cols2| && j >= |cols1| {
        assert cols2[j].owner in restIds;
      }
    }
    forall c | 0 <= c < |reqs| && LastWrite(cids, c)
      ensures cids[c] < |cols2| && cols2[cids[c]].attrs == ColAttrsOf(reqs[c])
    {
      assert LiveChild(cols1, rid, cids[c]);
    }
  }

  /** The row table of the loop evolves exactly as a plain write of all
      submitted rows. */
  lemma {:induction false} ProcessRowsWritesRows(rows: Table<RowAttrs>, cols: Table<ColAttrs>, partialId: nat, existing: seq<nat>, reqs: seq<RowReq>, now: int)
    requires AllLiveChildren(rows, partialId, existing)
    ensures var r := ProcessRows(rows, cols, partialId, existing, reqs, now);
            (r.0, r.2) == WriteAll(rows, partialId, existing, IdsOf(reqs, RowId), RowAttrsList(reqs), now)
    decreases |reqs|
  {
    if |reqs| > 0 {
      var s1 := RowStep(rows, cols, partialId, existing, reqs[0], now);
      assert IdsOf(reqs, RowId)[1..] == IdsOf(reqs[1..], RowId);
      assert RowAttrsList(reqs)[1..] == RowAttrsList(reqs[1..]);
      ProcessRowsWritesRows(s1.0, s1.1, partialId, existing, reqs[1..], now);
    }
  }

  /** The row and column writes of the partial update: the row loop, then
      the soft delete of the partial's rows that were not resubmitted. */
  function RowsTx(rows: Table<RowAttrs>, cols: Table<ColAttrs>, partialId: nat, reqs: seq<RowReq>, now: int)
    : (r: (Table<RowAttrs>, Table<ColAttrs>, seq<nat>, seq<seq<nat>>))
    requires forall j :: 0 <= j < |cols| ==> cols[j].owner < |rows|
    ensures forall j :: 0 <= j < |r.1| ==> r.1[j].owner < |r.0|
    ensures |r.2| == |reqs| && |r.3| == |reqs| && forall k :: 0 <= k < |reqs| ==> |r.3[k]| == |reqs[k].columns|
    ensures |cols| <= |r.1|
    ensures forall j :: 0 <= j < |cols| && rows[cols[j].owner].owner != partialId ==> r.1[j] == cols[j]
    ensures forall k :: 0 <= k < |reqs| && LastWrite(r.2, k) ==> ColumnsWritten(r.1, r.2[k], r.3[k], reqs[k].columns)
  {
    var existing := Children(rows, partialId);
    var s := ProcessRows(rows, cols, partialId, existing, reqs, now);
    ProcessRowsWritesRows(rows, cols, partialId, existing, reqs, now);
    forall j | 0 <= j < |cols| && rows[cols[j].owner].owner != partialId
      ensures cols[j].owner !in s.2
    {
      ForeignRowNotWritten(rows, s.0, partialId, s.2, cols[j].owner);
    }
    (DeleteMissing(s.0, existing, s.2), s.1, s.2, s.3)
  }

  /** The transaction of the service `UpdatePagePartial`: rename the
      partial, write the submitted rows and their columns, and soft-delete
      the partial's rows that were not resubmitted.  The rename fails on the
      unique index when another partial of the page, live or soft-deleted,
      holds the new name; the transaction then writes nothing. */
  function UpdatePartialTx(st: PageStore, partialId: nat, req: UpdatePartial, now: int): (r: Result<(PageStore, seq<nat>, seq<seq<nat>>)>)
    requires partialId < |st.partials| && WellFormed(st)
    ensures r.Err? <==> NameInIndex(st.partials, PartialKey, st.partials[partialId].page, req.name, partialId)
    ensures r.Err? ==> r.error == StoreFailure
    ensures r.Ok? ==> var (st', rowIds, colIds) := r.value;
      && WellFormed(st')
      && |st'.partials| == |st.partials|
      && st'.partials[partialId] == st.partials[partialId].(name := req.name, updatedAt := now)
      && (forall i :: 0 <= i < |st.partials| && i != partialId ==> st'.partials[i] == st.partials[i])
      && |rowIds| == |req.rows| && |colIds| == |req.rows| && (forall k :: 0 <= k < |req.rows| ==> |colIds[k]| == |req.rows[k].columns|)
      && |st.cols| <= |st'.cols|
      && (forall j :: 0 <= j < |st.cols| && st.rows[st.cols[j].owner].owner != partialId ==> st'.cols[j] == st.cols[j])
      && (forall k :: 0 <= k < |req.rows| && LastWrite(rowIds, k) ==> ColumnsWritten(st'.cols, rowIds[k], colIds[k], req.rows[k].columns))
      && st'.tree == st.tree && st'.pages == st.pages && st'.indexing == st.indexing
  {
    if NameInIndex(st.partials, PartialKey, st.partials[partialId].page, req.name, partialId) then Err(StoreFailure)
    else
      var t := RowsTx(st.rows, st.cols, partialId, req.rows, now);
      var partials := st.partials[partialId := st.partials[partialId].(name := req.name, updatedAt := now)];
      Ok((st.(partials := partials, rows := t.0, cols := t.1), t.2, t.3))
  }

  /** The row table after the transaction is the one-level reconcile of the
      partial's rows against the submitted rows: the partial's live rows are
      exactly the written ones, rows of other partials are unchanged, and a
      resubmitted live row keeps its id. */
  lemma UpdatePartialTxRows(st: PageStore, partialId: nat, req: UpdatePartial, now: int)
    requires partialId < |st.partials| && WellFormed(st)
    ensures var r := UpdatePartialTx(st, partialId, req, now);
      r.Ok? ==> (r.value.0.rows, r.value.1) == Reconcile(st.rows, partialId, IdsOf(req.rows, RowId), RowAttrsList(req.rows), now)
  {
    var existing := Children(st.rows, partialId);
    ProcessRowsWritesRows(st.rows, st.cols, partialId, existing, req.rows, now);
  }

  /** A row of another partial is never among the ids the loop wrote. */
  lemma ForeignRowNotWritten(rows: Table<RowAttrs>, rows1: Table<RowAttrs>, partialId: nat, ids: seq<nat>, o: nat)
    requires Extends(rows, rows1) && AllLiveChildren(rows1, partialId, ids)
    requires o < |rows| && rows[o].owner != partialId
    ensures o !in ids
  {
    forall k | 0 <= k < |ids|
      ensures ids[k] != o
    {
      assert LiveChild(rows1, partialId, ids[k]);
    }
  }

  /** A column id submitted under a row of this partial but stored under a
      row of another partial is not moved: that column is unchanged. */
  lemma ForeignColumnNotMoved(st: PageStore, partialId: nat, req: UpdatePartial, now: int, j: nat)
    requires partialId < |st.partials| && WellFormed(st)
    requires j < |st.cols| && st.rows[st.cols[j].owner].owner != partialId
    ensures var r := UpdatePartialTx(st, partialId, req, now);
      r.Ok? ==> r.value.0.cols[j] == st.cols[j]
  {
  }

  // ---------------------------------------------------------------------
  // The UpdatePagePartial handler.

  /** The stored partial as the handler loads it: live rows with their live
      columns, each with its update time. */
  function StoredView(st: PageStore, partialId: nat): (r: Option<StoredPartial>)
    ensures r.Some? <==> partialId < |st.partials| && !st.partials[partialId].deleted
    ensures r.Some? ==> |r.value.rows| == |Children(st.rows, partialId)|
  {
    if partialId < |st.partials| && !st.partials[partialId].deleted then
      var p := st.partials[partialId];
      var ids := Children(st.rows, partialId);
      var rows := seq(|ids|, k requires 0 <= k < |ids| =>
        var cs := Children(st.cols, ids[k]);
        StoredRow(ids[k], st.rows[ids[k]].updatedAt,
          seq(|cs|, c requires 0 <= c < |cs| => StoredColumn(cs[c], st.cols[cs[c]].updatedAt))));
      Some(StoredPartial(partialId, p.name, p.updatedAt, rows))
    else None
  }

  /** Names held by the page's live partials: the scope of
      `IsPagePartialNameAvailable`. */
  function TakenNames(st: PageStore, key: PageKey): (r: set<string>)
    ensures forall i :: 0 <= i < |st.partials| && !st.partials[i].deleted && st.partials[i].page == key ==> st.partials[i].name in r
    ensures forall n | n in r :: exists i :: 0 <= i < |st.partials| && !st.partials[i].deleted && st.partials[i].page == key && st.partials[i].name == n
  {
    set i | 0 <= i < |st.partials| && !st.partials[i].deleted && st.partials[i].page == key :: st.partials[i].name
  }

  /** The `UpdatePagePartial` handler: the page must read as present, the
      partial must be live, the copy must not be stale at any level, a new
      name must be free among the page's live partials; then the
      transaction runs, which can still fail on a name a soft-deleted
      partial holds. */
  function UpdatePagePartialOp(st: PageStore, key: PageKey, partialId: nat, req: UpdatePartial, now: int, fails: bool)
    : (r: Result<(PageStore, seq<nat>, seq<seq<nat>>)>)
    requires WellFormed(st)
    ensures fails ==> r == Err(StoreFailure)
    ensures !fails && (IsPageDeleted(st, key) || key !in st.pages) ==> r == Err(NotFound)
    ensures r.Ok? <==>
      && !fails && !IsPageDeleted(st, key) && key in st.pages
      && partialId < |st.partials| && !st.partials[partialId].deleted
      && st.partials[partialId].updatedAt <= req.updatedAt
      && !IsPartialRowsOutOfSync(StoredView(st, partialId).value.rows, req.rows)
      && (req.name == st.partials[partialId].name || req.name !in TakenNames(st, key))
      && !NameInIndex(st.partials, PartialKey, st.partials[partialId].page, req.name, partialId)
    ensures r.Ok? ==> r == UpdatePartialTx(st, partialId, req, now)
  {
    var page :- GetPage(st, key, fails);
    var stored :- CheckUpdatePartial(page.Some?, StoredView(st, partialId), req, TakenNames(st, key));
    UpdatePartialTx(st, partialId, req, now)
  }
}

=== FILE: partial_tables.dfy ===
/** The child tables of a page partial: rows owned by a partial, columns
    owned by a row.  Both are soft-deletable auto-increment tables, so a
    table is a sequence whose index is the id; `owner` is the foreign key
    to the parent.  The three primitives here are the ones the partial
    update applies at both levels: list a parent's live children, write one
    submitted child, and soft-delete the children that were not
    resubmitted. */
module PartialTables {
  import opened Wrappers

  datatype Rec<A> = Rec(owner: nat, attrs: A, updatedAt: int, deleted: bool)

  type Table<A> = seq<Rec<A>>

  /** A live child of `owner`. */
  predicate LiveChild<A>(t: Table<A>, owner: nat, j: int) {
    0 <= j < |t| && t[j].owner == owner && !t[j].deleted
  }

  /** Ids the caller may name as existing children of `owner`. */
  predicate AllLiveChildren<A>(t: Table<A>, owner: nat, ids: seq<nat>) {
    forall k :: 0 <= k < |ids| ==> LiveChild(t, owner, ids[k])
  }

  /** `t'` only appends, never re-parents, never deletes or restores. */
  predicate Extends<A>(t: Table<A>, t': Table<A>) {
    && |t| <= |t'|
    && forall j :: 0 <= j < |t| ==> t'[j].owner == t[j].owner && t'[j].deleted == t[j].deleted
  }

  /** Only the listed ids may differ. */
  predicate ChangedOnly<A(==)>(t: Table<A>, t': Table<A>, ids: seq<nat>) {
    |t| <= |t'| && forall j :: 0 <= j < |t| && j !in ids ==> t'[j] == t[j]
  }

  /** The live children of `owner` with id at least `from`, in id order:
      the `Where("… = ?", owner).Find` of the update. */
  function ChildrenFrom<A>(t: Table<A>, owner: nat, from: nat): (r: seq<nat>)
    requires from <= |t|
    ensures forall k :: 0 <= k < |r| ==> from <= r[k] && LiveChild(t, owner, r[k])
    ensures forall j :: from <= j < |t| && LiveChild(t, owner, j) ==> j in r
    decreases |t| - from
  {
    if from == |t| then []
    else if LiveChild(t, owner, from) then [from] + ChildrenFrom(t, owner, from + 1)
    else ChildrenFrom(t, owner, from + 1)
  }

  function Children<A>(t: Table<A>, owner: nat): (r: seq<nat>)
    ensures AllLiveChildren(t, owner, r)
    ensures forall j :: LiveChild(t, owner, j) ==> j in r
  {
    ChildrenFrom(t, owner, 0)
  }

  /** The first live child of `owner` with exactly these attributes, at or
      after `i`: the lookup half of `FirstOrCreate(rec, rec)`, matching on
      every attribute, zero-valued ones included. */
  function FirstEqual<A(==)>(t: Table<A>, owner: nat, attrs: A, i: nat): (r: Option<nat>)
    requires i <= |t|
    ensures r.Some? ==> i <= r.value && LiveChild(t, owner, r.value) && t[r.value].attrs == attrs
    ensures r.None? ==> forall j :: i <= j < |t| && LiveChild(t, owner, j) ==> t[j].attrs != attrs
    decreases |t| - i
  {
    if i == |t| then None
    else if LiveChild(t, owner, i) && t[i].attrs == attrs then Some(i)
    else FirstEqual(t, owner, attrs, i + 1)
  }

  /** Writing one submitted child.  A submitted id that is one of the
      parent's children loaded beforehand is updated in place (its update
      time becomes `now`); otherwise the child is got-or-created by parent
      and attributes: an equal live child is reused unchanged, else a new
      one is appended.  The chosen id is returned. */
  function Upsert<A(==)>(t: Table<A>, owner: nat, existing: seq<nat>, id: Option<nat>, attrs: A, now: int): (r: (Table<A>, nat))
    requires AllLiveChildren(t, owner, existing)
    ensures Extends(t, r.0) && (|r.0| == |t| || (|r.0| == |t| + 1 && r.1 == |t|))
    ensures LiveChild(r.0, owner, r.1) && r.0[r.1].attrs == attrs
    ensures ChangedOnly(t, r.0, [r.1])
    ensures id.Some? && id.value in existing ==> r.1 == id.value && r.0[r.1].updatedAt == now
    ensures !(id.Some? && id.value in existing) ==>
      if r.1 < |t| then r.0 == t && LiveChild(t, owner, r.1) && t[r.1].attrs == attrs
      else r.0 == t + [Rec(owner, attrs, now, false)]
           && forall j :: LiveChild(t, owner, j) ==> t[j].attrs != attrs
  {
    if id.Some? && id.value in existing then
      var k := id.value;
      (t[k := t[k].(attrs := attrs, updatedAt := now)], k)
    else match FirstEqual(t, owner, attrs, 0) {
      case Some(j) => (t, j)
      case None => (t + [Rec(owner, attrs, now, false)], |t|)
    }
  }

  /** Soft-deleting every child in `existing` whose id is not in `keep`. */
  function DeleteMissing<A(==)>(t: Table<A>, existing: seq<nat>, keep: seq<nat>): (r: Table<A>)
    requires forall k :: 0 <= k < |existing| ==> existing[k] < |t|
    ensures |r| == |t|
    ensures forall j :: 0 <= j < |t| && j in existing && j !in keep ==> r[j] == t[j].(deleted := true)
    ensures forall j :: 0 <= j < |t| && !(j in existing && j !in keep) ==> r[j] == t[j]
  {
    if |existing| == 0 then t
    else
      var n := |existing| - 1;
      var pre := DeleteMissing(t, existing[..n], keep);
      assert forall j :: j in existing <==> j in existing[..n] || j == existing[n];
      var e := existing[n];
      if e in keep then pre else pre[e := pre[e].(deleted := true)]
  }

  /** Writing a submitted list of children in order with `Upsert`; the
      chosen ids come back in request order. */
  function WriteAll<A(==)>(t: Table<A>, owner: nat, existing: seq<nat>, ids: seq<Option<nat>>, attrs: seq<A>, now: int): (r: (Table<A>, seq<nat>))
    requires |ids| == |attrs|
    requires AllLiveChildren(t, owner, existing)
    ensures Extends(t, r.0) && ChangedOnly(t, r.0, r.1)
    ensures |r.1| == |ids| && AllLiveChildren(r.0, owner, r.1)
    ensures forall j :: |t| <= j < |r.0| ==> j in r.1
    ensures forall k :: 0 <= k < |ids| && ids[k].Some? && ids[k].value in existing ==> r.1[k] == ids[k].value
    ensures forall k :: 0 <= k < |ids| && (forall m :: k < m < |ids| ==> r.1[m] != r.1[k]) ==> r.0[r.1[k]].attrs == attrs[k]
    decreases |ids|
  {
    if |ids| == 0 then (t, [])
    else
      var (t1, id) := Upsert(t, owner, existing, ids[0], attrs[0], now);
      var (t2, rest) := WriteAll(t1, owner, existing, ids[1..], attrs[1..], now);
      WriteCons(t, t1, t2, owner, id, rest, attrs[0], attrs[1..]);
      assert [attrs[0]] + attrs[1..] == attrs;
      (t2, [id] + rest)
  }

  /** The step of `WriteAll`: one `Upsert` followed by the writes of the
      rest keeps the facts `WriteAll` promises about the whole list. */
  lemma {:induction false} WriteCons<A>(t: Table<A>, t1: Table<A>, t2: Table<A>, owner: nat, id: nat, rest: seq<nat>, a: A, more: seq<A>)
    requires Extends(t, t1) && ChangedOnly(t, t1, [id]) && (|t1| == |t| || (|t1| == |t| + 1 && id == |t|))
    requires LiveChild(t1, owner, id) && t1[id].attrs == a
    requires Extends(t1, t2) && ChangedOnly(t1, t2, rest)
    requires |rest| == |more| && AllLiveChildren(t2, owner, rest)
    requires forall j :: |t1| <= j < |t2| ==> j in rest
    requires forall k :: 0 <= k < |rest| && (forall m :: k < m < |rest| ==> rest[m] != rest[k]) ==> t2[rest[k]].attrs == more[k]
    ensures Extends(t, t2) && ChangedOnly(t, t2, [id] + rest)
    ensures AllLiveChildren(t2, owner, [id] + rest)
    ensures forall j :: |t| <= j < |t2| ==> j in [id] + rest
    ensures forall k :: 0 <= k < |rest| + 1 && (forall m :: k < m < |rest| + 1 ==> ([id] + rest)[m] != ([id] + rest)[k]) ==>
      t2[([id] + rest)[k]].attrs == ([a] + more)[k]
  {
    var out := [id] + rest;
    var attrs := [a] + more;
    assert forall m :: 1 <= m < |out| ==> out[m] == rest[m - 1] && attrs[m] == more[m - 1];
    assert forall j :: j in out <==> j == id || j in rest;
    forall k | 0 <= k < |out| && (forall m :: k < m < |out| ==> out[m] != out[k])
      ensures t2[out[k]].attrs == attrs[k]
    {
      if k == 0 {
        assert id !in rest by {
          forall m | 0 <= m < |rest|
            ensures rest[m] != id
          {
            assert out[m + 1] != out[0];
          }
        }
        assert t2[id] == t1[id];
      } else {
        assert forall m :: k - 1 < m < |rest| ==> rest[m] != rest[k - 1] by {
          forall m | k - 1 < m < |rest|
            ensures rest[m] != rest[k - 1]
          {
            assert out[m + 1] != out[k];
          }
        }
      }
    }
  }

  /** One level of the partial update: write the submitted children, then
      soft-delete the parent's previously live children that were not
      written.  Afterwards the parent's live children are exactly the
      written ids, and no other parent's children have changed. */
  function Reconcile<A(==)>(t: Table<A>, owner: nat, ids: seq<Option<nat>>, attrs: seq<A>, now: int): (r: (Table<A>, seq<nat>))
    requires |ids| == |attrs|
    ensures |t| <= |r.0| && |r.1| == |ids| && AllLiveChildren(r.0, owner, r.1)
    ensures forall j :: LiveChild(r.0, owner, j) <==> j in r.1
    ensures forall j :: 0 <= j < |t| ==> r.0[j].owner == t[j].owner
    ensures forall j :: |t| <= j < |r.0| ==> r.0[j].owner == owner
    ensures forall j :: 0 <= j < |t| && t[j].owner != owner ==> r.0[j] == t[j]
    ensures forall k :: 0 <= k < |ids| && ids[k].Some? && LiveChild(t, owner, ids[k].value) ==> r.1[k] == ids[k].value
    ensures forall k :: 0 <= k < |ids| && (forall m :: k < m < |ids| ==> r.1[m] != r.1[k]) ==> r.0[r.1[k]].attrs == attrs[k]
  {
    var existing := Children(t, owner);
    var (t1, out) := WriteAll(t, owner, existing, ids, attrs, now);
    var t2 := DeleteMissing(t1, existing, out);
    DeleteMissingLeavesWritten(t, t1, t2, owner, existing, out);
    (t2, out)
  }

  /** The deletion step of `Reconcile`: after soft-deleting the previous
      children that were not written, the parent's live children are
      exactly the written ones, and other parents' rows are untouched. */
  lemma {:induction false} DeleteMissingLeavesWritten<A>(t: Table<A>, t1: Table<A>, t2: Table<A>, owner: nat, existing: seq<nat>, out: seq<nat>)
    requires AllLiveChildren(t, owner, existing)
    requires forall j :: LiveChild(t, owner, j) ==> j in existing
    requires Extends(t, t1) && ChangedOnly(t, t1, out) && AllLiveChildren(t1, owner, out)
    requires forall j :: |t| <= j < |t1| ==> j in out
    requires |t2| == |t1|
    requires forall j :: 0 <= j < |t1| && j in existing && j !in out ==> t2[j] == t1[j].(deleted := true)
    requires forall j :: 0 <= j < |t1| && !(j in existing && j !in out) ==> t2[j] == t1[j]
    ensures AllLiveChildren(t2, owner, out)
    ensures forall j :: LiveChild(t2, owner, j) <==> j in out
    ensures forall j :: 0 <= j < |t| ==> t2[j].owner == t[j].owner
    ensures forall j :: |t| <= j < |t2| ==> t2[j].owner == owner
    ensures forall j :: 0 <= j < |t| && t[j].owner != owner ==> t2[j] == t[j]
    ensures forall k :: 0 <= k < |out| ==> t2[out[k]].attrs == t1[out[k]].attrs
  {
    forall j | j in out
      ensures LiveChild(t2, owner, j)
    {
      var k :| 0 <= k < |out| && out[k] == j;
      assert LiveChild(t1, owner, out[k]);
    }
    forall j | LiveChild(t2, owner, j)
      ensures j in out
    {
      if j < |t| && j !in out {
        assert LiveChild(t, owner, j);
      }
    }
    forall j | 0 <= j < |t| && t[j].owner != owner
      ensures t2[j] == t[j]
    {
      assert j !in existing;
      assert t1[j].owner != owner;
    }
  }
}

=== FILE: relation_order.dfy ===
// The canonical order of a menu's item relations.
//
// A relation row links a child item to an optional parent item inside one
// menu, at a position.  Before a menu is rendered its relations are sorted
// stably: rows without a parent first, then by ascending parent id, then by
// ascending position, then by ascending child id.

module RelationOrder {
  import opened Wrappers

  /** One row of the relation table.  The primary key is (menu, child).
      `item` is the child item loaded with the row; the order never looks at
      it. */
  datatype Relation<T> = Relation(menu: nat, parent: Option<nat>, child: nat, position: nat, item: T)

  /** The comparator handed to the stable sort. */
  predicate Less<T>(a: Relation<T>, b: Relation<T>) {
    if a.parent.Some? != b.parent.Some? then a.parent.None?
    else if a.parent.Some? && a.parent.value != b.parent.value then a.parent.value < b.parent.value
    else if a.position != b.position then a.position < b.position
    else a.child < b.child
  }

  /** No element is smaller than an element before it. */
  predicate Sorted<T>(s: seq<Relation<T>>) {
    forall i, j :: 0 <= i < j < |s| ==> !Less(s[j], s[i])
  }

  /** Child ids are pairwise distinct, as the table's primary key guarantees
      for the rows of one menu. */
  predicate UniqueChildren<T>(s: seq<Relation<T>>) {
    forall i, j :: 0 <= i < |s| && 0 <= j < |s| && s[i].child == s[j].child ==> i == j
  }

  lemma LessIrreflexive<T>(a: Relation<T>)
    ensures !Less(a, a)
  {
  }

  lemma LessTransitive<T>(a: Relation<T>, b: Relation<T>, c: Relation<T>)
    requires Less(a, b) && Less(b, c)
    ensures Less(a, c)
  {
  }

  /** Incomparability is transitive as well, so the comparator is a strict
      weak order: the sort's result is well defined. */
  lemma NotLessTransitive<T>(a: Relation<T>, b: Relation<T>, c: Relation<T>)
    requires !Less(b, a) && !Less(c, b)
    ensures !Less(c, a)
  {
  }

  /** Two rows with different children are always ordered one way or the
      other. */
  lemma LessTotal<T>(a: Relation<T>, b: Relation<T>)
    requires a.child != b.child
    ensures Less(a, b) || Less(b, a)
    ensures !(Less(a, b) && Less(b, a))
  {
  }

  /** A row no greater than any row of a sorted list may go in front of it. */
  lemma {:induction false} ConsSorted<T>(h: Relation<T>, t: seq<Relation<T>>)
    requires Sorted(t)
    requires forall j :: 0 <= j < |t| ==> !Less(t[j], h)
    ensures Sorted([h] + t)
  {
    var r := [h] + t;
    forall i, j | 0 <= i < j < |r|
      ensures !Less(r[j], r[i])
    {
      assert r[j] == t[j - 1];
      if i > 0 {
        assert r[i] == t[i - 1];
      }
    }
  }

  /** Inserts `x` into sorted `t` after every element not greater than it,
      which keeps equal elements in arrival order. */
  function Insert<T>(x: Relation<T>, t: seq<Relation<T>>): (r: seq<Relation<T>>)
    requires Sorted(t)
    ensures multiset(r) == multiset(t) + multiset{x}
    ensures Sorted(r)
  {
    if |t| == 0 then [x]
    else if Less(x, t[0]) then
      assert forall j :: 0 <= j < |t| ==> !Less(t[j], x) by {
        forall j | 0 <= j < |t|
          ensures !Less(t[j], x)
        {
          if Less(t[j], x) {
            LessTransitive(t[j], x, t[0]);
            if j == 0 { LessIrreflexive(t[0]); }
          }
        }
      }
      ConsSorted(x, t);
      [x] + t
    else
      var rest := Insert(x, t[1..]);
      assert t == [t[0]] + t[1..];
      assert forall j :: 0 <= j < |rest| ==> !Less(rest[j], t[0]) by {
        forall j | 0 <= j < |rest|
          ensures !Less(rest[j], t[0])
        {
          var e := rest[j];
          assert e in multiset(rest);
          if e != x {
            assert e in multiset(t[1..]);
            var k :| 0 <= k < |t[1..]| && t[1..][k] == e;
            assert t[k + 1] == e;
          }
        }
      }
      ConsSorted(t[0], rest);
      [t[0]] + rest
  }

  /** The stable sort of the relation list, as an insertion sort that takes
      the elements in input order. */
  function Sort<T>(s: seq<Relation<T>>): (r: seq<Relation<T>>)
    ensures multiset(r) == multiset(s)
    ensures Sorted(r)
  {
    if |s| == 0 then []
    else
      assert s == s[..|s| - 1] + [s[|s| - 1]];
      Insert(s[|s| - 1], Sort(s[..|s| - 1]))
  }

  lemma {:induction false} InsertAtEnd<T>(x: Relation<T>, t: seq<Relation<T>>)
    requires Sorted(t)
    requires forall j :: 0 <= j < |t| ==> !Less(x, t[j])
    ensures Insert(x, t) == t + [x]
  {
    if |t| > 0 {
      InsertAtEnd(x, t[1..]);
      assert [t[0]] + (t[1..] + [x]) == t + [x];
    }
  }

  /** A sorted list is left as it is, so sorting twice is sorting once. */
  lemma {:induction false} SortOfSorted<T>(s: seq<Relation<T>>)
    requires Sorted(s)
    ensures Sort(s) == s
  {
    if |s| > 0 {
      var p := s[..|s| - 1];
      assert Sorted(p);
      SortOfSorted(p);
      InsertAtEnd(s[|s| - 1], p);
    }
  }

  lemma SortIdempotent<T>(s: seq<Relation<T>>)
    ensures Sort(Sort(s)) == Sort(s)
  {
    SortOfSorted(Sort(s));
  }

  /** Distinct children stated on the multiset of rows. */
  predicate BagUnique<T(==)>(m: multiset<Relation<T>>) {
    && (forall x | x in m :: m[x] == 1)
    && (forall x, y | x in m && y in m && x.child == y.child :: x == y)
  }

  lemma {:induction false} UniqueToBag<T>(s: seq<Relation<T>>)
    requires UniqueChildren(s)
    ensures BagUnique(multiset(s))
  {
    if |s| > 0 {
      var rest := s[1..];
      assert s == [s[0]] + rest;
      assert UniqueChildren(rest) by {
        forall i, j | 0 <= i < |rest| && 0 <= j < |rest| && rest[i].child == rest[j].child
          ensures i == j
        {
          assert s[i + 1].child == s[j + 1].child;
        }
      }
      UniqueToBag(rest);
      forall y | y in multiset(rest)
        ensures y.child != s[0].child
      {
        var k :| 0 <= k < |rest| && rest[k] == y;
        assert s[k + 1] == y;
      }
    }
  }

  lemma {:induction false} BagToUnique<T>(s: seq<Relation<T>>)
    requires BagUnique(multiset(s))
    ensures UniqueChildren(s)
  {
    if |s| > 0 {
      var rest := s[1..];
      assert s == [s[0]] + rest;
      var m := multiset(s);
      assert m == multiset{s[0]} + multiset(rest);
      assert m[s[0]] == 1 + multiset(rest)[s[0]];
      assert s[0] !in multiset(rest);
      assert BagUnique(multiset(rest)) by {
        forall x | x in multiset(rest)
          ensures multiset(rest)[x] == 1
        {
          assert m[x] == multiset{s[0]}[x] + multiset(rest)[x];
        }
      }
      BagToUnique(rest);
      forall k | 1 <= k < |s|
        ensures s[k].child != s[0].child
      {
        assert s[k] == rest[k - 1];
        assert s[k] in multiset(rest);
      }
      forall i, j | 0 <= i < |s| && 0 <= j < |s| && s[i].child == s[j].child
        ensures i == j
      {
        if i > 0 && j > 0 {
          assert rest[i - 1].child == rest[j - 1].child;
        }
      }
    }
  }

  /** Two sorted lists holding the same rows with distinct children start
      with the same row. */
  lemma SortedSameHead<T>(a: seq<Relation<T>>, b: seq<Relation<T>>)
    requires Sorted(a) && Sorted(b) && |a| > 0 && |b| > 0
    requires multiset(a) == multiset(b) && UniqueChildren(a)
    ensures a[0] == b[0]
  {
    if a[0] != b[0] {
      assert b[0] in multiset(a);
      var k :| 0 <= k < |a| && a[k] == b[0];
      assert a[0] in multiset(b);
      var l :| 0 <= l < |b| && b[l] == a[0];
      assert a[0].child != a[k].child;
      LessTotal(a[0], b[0]);
      assert false;
    }
  }

  lemma TailsSameRows<T>(a: seq<Relation<T>>, b: seq<Relation<T>>)
    requires |a| > 0 && |b| > 0 && a[0] == b[0] && multiset(a) == multiset(b)
    ensures multiset(a[1..]) == multiset(b[1..])
  {
    assert a == [a[0]] + a[1..] && b == [b[0]] + b[1..];
    assert multiset(a[1..]) == multiset(a) - multiset{a[0]};
    assert multiset(b[1..]) == multiset(b) - multiset{b[0]};
  }

  /** Two sorted lists holding the same rows with distinct children are
      equal. */
  lemma {:induction false} SortedUnique<T>(a: seq<Relation<T>>, b: seq<Relation<T>>)
    requires Sorted(a) && Sorted(b)
    requires multiset(a) == multiset(b) && UniqueChildren(a)
    ensures a == b
    decreases |a|
  {
    assert |a| == |multiset(a)| == |b|;
    if |a| > 0 {
      SortedSameHead(a, b);
      TailsSameRows(a, b);
      assert UniqueChildren(a[1..]) by {
        forall i, j | 0 <= i < |a[1..]| && 0 <= j < |a[1..]| && a[1..][i].child == a[1..][j].child
          ensures i == j
        {
          assert a[i + 1].child == a[j + 1].child;
        }
      }
      SortedUnique(a[1..], b[1..]);
      assert a == [a[0]] + a[1..] && b == [b[0]] + b[1..];
    }
  }

  /** With distinct children the sorted order depends only on which rows
      there are, not on the order they were loaded in. */
  lemma SortDependsOnlyOnRows<T>(a: seq<Relation<T>>, b: seq<Relation<T>>)
    requires multiset(a) == multiset(b) && UniqueChildren(a)
    ensures Sort(a) == Sort(b)
  {
    UniqueToBag(a);
    BagToUnique(Sort(a));
    SortedUnique(Sort(a), Sort(b));
  }
}

=== FILE: slug.dfy ===
/** `utils.URLEncode`: turns a page name into an ASCII, URL-safe slug.
    The steps follow the source: trim white space, lower-case, (strip
    combining marks), replace every run of characters outside `[a-z0-9]`
    by one '-', collapse repeated '-', trim '-' from both ends.

    Lower-casing is modelled for ASCII letters only and the NFD
    decomposition that strips combining marks is not modelled: any
    non-ASCII character is simply a character outside `[a-z0-9]`. */
module Slug {

  /** `unicode.IsSpace`: the Unicode White_Space characters. */
  predicate IsSpace(c: char) {
    var n := c as int;
    (0x09 <= n <= 0x0D) || n == 0x20 || n == 0x85 || n == 0xA0 || n == 0x1680
    || (0x2000 <= n <= 0x200A) || n == 0x2028 || n == 0x2029 || n == 0x202F
    || n == 0x205F || n == 0x3000
  }

  /** The characters the slug keeps: `[a-z0-9]`. */
  predicate IsSlugChar(c: char) {
    ('a' <= c <= 'z') || ('0' <= c <= '9')
  }

  /** ASCII letters and digits of the input, before lower-casing. */
  predicate IsAsciiAlnum(c: char) {
    ('a' <= c <= 'z') || ('A' <= c <= 'Z') || ('0' <= c <= '9')
  }

  function LowerChar(c: char): (d: char)
    ensures IsSlugChar(d) <==> IsAsciiAlnum(c)
    ensures !('A' <= c <= 'Z') ==> d == c
  {
    if 'A' <= c <= 'Z' then (c as int + 32) as char else c
  }

  /** `strings.ToLower`, on ASCII letters. */
  function ToLower(s: string): (r: string)
    ensures |r| == |s|
    ensures forall i :: 0 <= i < |s| ==> r[i] == LowerChar(s[i])
  {
    seq(|s|, i requires 0 <= i < |s| => LowerChar(s[i]))
  }

  function TrimLeftSpace(s: string): string
    decreases |s|
  {
    if |s| > 0 && IsSpace(s[0]) then TrimLeftSpace(s[1..]) else s
  }

  function TrimRightSpace(s: string): string
    decreases |s|
  {
    if |s| > 0 && IsSpace(s[|s| - 1]) then TrimRightSpace(s[..|s| - 1]) else s
  }

  /** `strings.TrimSpace`. */
  function TrimSpace(s: string): string {
    TrimRightSpace(TrimLeftSpace(s))
  }

  /** `regexp.MustCompile("[^a-z0-9]+").ReplaceAllString(s, "-")`; `inRun`
      says that the previous character already belonged to a replaced run. */
  function ReplaceRuns(s: string, inRun: bool): string
    decreases |s|
  {
    if |s| == 0 then ""
    else if IsSlugChar(s[0]) then [s[0]] + ReplaceRuns(s[1..], false)
    else if inRun then ReplaceRuns(s[1..], true)
    else "-" + ReplaceRuns(s[1..], true)
  }

  /** `regexp.MustCompile("-+").ReplaceAllString(s, "-")`. */
  function CollapseDashes(s: string, inRun: bool): string
    decreases |s|
  {
    if |s| == 0 then ""
    else if s[0] != '-' then [s[0]] + CollapseDashes(s[1..], false)
    else if inRun then CollapseDashes(s[1..], true)
    else "-" + CollapseDashes(s[1..], true)
  }

  function TrimLeftDash(s: string): string
    decreases |s|
  {
    if |s| > 0 && s[0] == '-' then TrimLeftDash(s[1..]) else s
  }

  function TrimRightDash(s: string): string
    decreases |s|
  {
    if |s| > 0 && s[|s| - 1] == '-' then TrimRightDash(s[..|s| - 1]) else s
  }

  /** `strings.Trim(s, "-")`. */
  function TrimDashes(s: string): string {
    TrimRightDash(TrimLeftDash(s))
  }

  /** `URLEncode` (src/utils/url.go:21-50). */
  function URLEncode(s: string): string {
    if s == "" then ""
    else
      var t := TrimSpace(s);
      if t == "" then ""
      else TrimDashes(CollapseDashes(ReplaceRuns(ToLower(t), false), false))
  }

  // ---------------------------------------------------------------------
  // Reference definition: the slug is the input's maximal runs of
  // `[a-z0-9]` (after lower-casing), joined by single dashes.

  predicate AllSlugChars(s: string) {
    forall i :: 0 <= i < |s| ==> IsSlugChar(s[i])
  }

  predicate NoSlugChars(s: string) {
    forall i :: 0 <= i < |s| ==> !IsSlugChar(s[i])
  }

  /** Length of the longest prefix made of slug characters. */
  function WordLength(s: string): (k: nat)
    ensures k <= |s|
    ensures AllSlugChars(s[..k])
    ensures k < |s| ==> !IsSlugChar(s[k])
    decreases |s|
  {
    if |s| > 0 && IsSlugChar(s[0]) then 1 + WordLength(s[1..]) else 0
  }

  /** The maximal runs of slug characters, in order. */
  function Words(s: string): (ws: seq<string>)
    decreases |s|
  {
    if |s| == 0 then []
    else if !IsSlugChar(s[0]) then Words(s[1..])
    else
      var k := WordLength(s);
      [s[..k]] + Words(s[k..])
  }

  function JoinDash(ws: seq<string>): string {
    if |ws| == 0 then ""
    else if |ws| == 1 then ws[0]
    else ws[0] + "-" + JoinDash(ws[1..])
  }

  /** Well-formed slugs: only `[a-z0-9-]`, no '-' at either end, no "--". */
  predicate IsSlug(t: string) {
    && SlugCharsOrDashes(t)
    && (|t| > 0 ==> t[0] != '-' && t[|t| - 1] != '-')
    && NoDoubleDash(t)
  }

  predicate SlugCharsOrDashes(t: string) {
    forall i :: 0 <= i < |t| ==> IsSlugChar(t[i]) || t[i] == '-'
  }

  predicate NoDoubleDash(t: string) {
    forall i :: 0 <= i < |t| - 1 ==> !(t[i] == '-' && t[i + 1] == '-')
  }

  function RemoveDashes(s: string): string {
    if |s| == 0 then "" else (if s[0] == '-' then "" else [s[0]]) + RemoveDashes(s[1..])
  }

  /** The input's ASCII letters and digits, lower-cased, in order. */
  function LowerAlnums(s: string): string {
    if |s| == 0 then ""
    else (if IsAsciiAlnum(s[0]) then [LowerChar(s[0])] else "") + LowerAlnums(s[1..])
  }

  predicate GoodWords(ws: seq<string>) {
    forall i :: 0 <= i < |ws| ==> |ws[i]| > 0 && AllSlugChars(ws[i])
  }

  function Concat(ws: seq<string>): string {
    if |ws| == 0 then "" else ws[0] + Concat(ws[1..])
  }

  // ---------------------------------------------------------------------
  // Lemmas about the pipeline steps.

  lemma {:induction false} WordsNone(s: string)
    requires NoSlugChars(s)
    ensures Words(s) == []
    decreases |s|
  {
    if |s| > 0 {
      WordsNone(s[1..]);
    }
  }

  lemma {:induction false} WordsGood(s: string)
    ensures GoodWords(Words(s))
    decreases |s|
  {
    if |s| > 0 {
      if !IsSlugChar(s[0]) {
        WordsGood(s[1..]);
      } else {
        WordsGood(s[WordLength(s)..]);
      }
    }
  }

  /** A run that stops at a non-slug character or at the end of input. */
  lemma WordLengthOf(w: string, rest: string)
    requires |w| > 0 && AllSlugChars(w)
    requires |rest| > 0 ==> !IsSlugChar(rest[0])
    ensures WordLength(w + rest) == |w|
  {
    var s := w + rest;
    var k := WordLength(s);
    assert forall j :: 0 <= j < |w| ==> s[j] == w[j];
    assert |rest| > 0 ==> s[|w|] == rest[0];
    assert forall j :: 0 <= j < k ==> s[..k][j] == s[j];
  }

  lemma {:induction false} JoinNonEmpty(ws: seq<string>)
    requires GoodWords(ws) && |ws| > 0
    ensures |JoinDash(ws)| > 0 && IsSlugChar(JoinDash(ws)[0])
  {
    if |ws| > 1 {
      assert JoinDash(ws) == ws[0] + ("-" + JoinDash(ws[1..]));
    }
  }

  lemma {:induction false} ReplaceAfterRunStart(s: string)
    ensures ReplaceRuns(s, false) == (if |s| > 0 && !IsSlugChar(s[0]) then "-" else "") + ReplaceRuns(s, true)
  {
  }

  lemma {:induction false} ReplaceWord(w: string, rest: string, inRun: bool)
    requires AllSlugChars(w)
    requires |w| > 0 || !inRun
    ensures ReplaceRuns(w + rest, inRun) == w + ReplaceRuns(rest, false)
    decreases |w|
  {
    if |w| > 0 {
      assert (w + rest)[1..] == w[1..] + rest;
      ReplaceWord(w[1..], rest, false);
    } else {
      assert w + rest == rest;
    }
  }

  lemma {:induction false} ReplaceNoSlugChars(s: string)
    requires NoSlugChars(s)
    ensures ReplaceRuns(s, true) == ""
    ensures ReplaceRuns(s, false) == (if |s| > 0 then "-" else "")
    decreases |s|
  {
    if |s| > 0 {
      ReplaceNoSlugChars(s[1..]);
    }
  }

  lemma {:induction false} TrimLeftDashNoop(s: string)
    requires |s| == 0 || s[0] != '-'
    ensures TrimLeftDash(s) == s
  {
  }

  lemma {:induction false} TrimRightDashAppend(a: string, y: string)
    requires TrimRightDash(y) != ""
    ensures TrimRightDash(a + y) == a + TrimRightDash(y)
    decreases |y|
  {
    if |y| > 0 && y[|y| - 1] == '-' {
      assert (a + y)[..|a + y| - 1] == a + y[..|y| - 1];
      TrimRightDashAppend(a, y[..|y| - 1]);
    }
  }

  lemma {:induction false} TrimRightDashWord(w: string)
    requires |w| > 0 && AllSlugChars(w)
    ensures TrimRightDash(w) == w
    ensures TrimRightDash(w + "-") == w
  {
    assert (w + "-")[..|w + "-"| - 1] == w;
  }

  /** Replacing runs never emits a leading dash after a run, nor "--". */
  lemma {:induction false} ReplaceShape(s: string, inRun: bool)
    ensures SlugCharsOrDashes(ReplaceRuns(s, inRun))
    ensures NoDoubleDash(ReplaceRuns(s, inRun))
    ensures inRun && |ReplaceRuns(s, inRun)| > 0 ==> ReplaceRuns(s, inRun)[0] != '-'
    decreases |s|
  {
    if |s| > 0 {
      var r := ReplaceRuns(s, inRun);
      if IsSlugChar(s[0]) {
        ReplaceShape(s[1..], false);
        PrependShape([s[0]], ReplaceRuns(s[1..], false));
      } else if inRun {
        ReplaceShape(s[1..], true);
      } else {
        ReplaceShape(s[1..], true);
        PrependShape("-", ReplaceRuns(s[1..], true));
      }
    }
  }

  lemma PrependShape(c: string, t: string)
    requires |c| == 1 && (IsSlugChar(c[0]) || c[0] == '-')
    requires SlugCharsOrDashes(t) && NoDoubleDash(t)
    requires c[0] == '-' && |t| > 0 ==> t[0] != '-'
    ensures SlugCharsOrDashes(c + t) && NoDoubleDash(c + t)
  {
    var r := c + t;
    assert forall i :: 1 <= i < |r| ==> r[i] == t[i - 1];
  }

  lemma {:induction false} CollapseNoop(s: string, inRun: bool)
    requires NoDoubleDash(s)
    requires inRun && |s| > 0 ==> s[0] != '-'
    ensures CollapseDashes(s, inRun) == s
    decreases |s|
  {
    if |s| > 0 {
      CollapseNoop(s[1..], s[0] == '-');
      assert s == [s[0]] + s[1..];
    }
  }

  /** A slug character anywhere in the input yields at least one word. */
  lemma {:induction false} WordsNonEmpty(s: string, i: nat)
    requires i < |s| && IsSlugChar(s[i])
    ensures Words(s) != []
    decreases |s|
  {
    if !IsSlugChar(s[0]) {
      WordsNonEmpty(s[1..], i - 1);
    }
  }

  lemma {:induction false} TrimDashesDropLeading(y: string)
    ensures TrimDashes("-" + y) == TrimDashes(y)
  {
    assert ("-" + y)[1..] == y;
  }

  /** The last word: nothing but separators follows it. */
  lemma {:induction false} ReplaceTrimLastWord(w: string, r: string)
    requires |w| > 0 && AllSlugChars(w) && NoSlugChars(r)
    ensures TrimDashes(w + ReplaceRuns(r, false)) == w
  {
    ReplaceNoSlugChars(r);
    TrimRightDashWord(w);
    if |r| == 0 {
      assert w + ReplaceRuns(r, false) == w;
    }
    TrimLeftDashNoop(w + ReplaceRuns(r, false));
  }

  /** A word followed by a separator and more text holding a word. */
  lemma {:induction false} ReplaceTrimInnerWord(w: string, y: string)
    requires |w| > 0 && AllSlugChars(w)
    requires |y| == 0 || y[0] != '-'
    requires TrimDashes(y) != ""
    ensures TrimDashes(w + "-" + y) == w + "-" + TrimDashes(y)
  {
    TrimLeftDashNoop(y);
    TrimLeftDashNoop(w + "-" + y);
    TrimRightDashAppend(w + "-", y);
  }

  /** The core of the slug algorithm: trimming the dashes of the replaced
      text leaves exactly the words joined by single dashes. */
  lemma {:induction false} ReplaceTrimIsJoin(s: string, inRun: bool)
    ensures TrimDashes(ReplaceRuns(s, inRun)) == JoinDash(Words(s))
    decreases |s|
  {
    if |s| == 0 {
    } else if !IsSlugChar(s[0]) {
      ReplaceTrimIsJoin(s[1..], true);
      if !inRun {
        TrimDashesDropLeading(ReplaceRuns(s[1..], true));
      }
    } else {
      var k := WordLength(s);
      var w, r := s[..k], s[k..];
      assert s == w + r;
      ReplaceWord(w, r, inRun);
      assert Words(s) == [w] + Words(r);
      if NoSlugChars(r) {
        WordsNone(r);
        ReplaceTrimLastWord(w, r);
      } else {
        var y := ReplaceRuns(r[1..], true);
        assert ReplaceRuns(r, false) == "-" + y;
        assert w + ReplaceRuns(r, false) == w + "-" + y;
        ReplaceTrimIsJoin(r[1..], true);
        var i :| 0 <= i < |r| && IsSlugChar(r[i]);
        WordsNonEmpty(r[1..], i - 1);
        WordsGood(r[1..]);
        JoinNonEmpty(Words(r[1..]));
        ReplaceShape(r[1..], true);
        ReplaceTrimInnerWord(w, y);
      }
    }
  }

  // ---------------------------------------------------------------------
  // Trimming white space does not change the words.

  lemma {:induction false} WordsDropLast(x: string)
    requires |x| > 0 && !IsSlugChar(x[|x| - 1])
    ensures Words(x) == Words(x[..|x| - 1])
    decreases |x|
  {
    var y := x[..|x| - 1];
    if |x| == 1 {
    } else if !IsSlugChar(x[0]) {
      assert y[1..] == x[1..][..|x[1..]| - 1];
      WordsDropLast(x[1..]);
    } else {
      var k := WordLength(x);
      assert k < |x|;
      assert x[..k] == y[..k];
      assert y == x[..k] + y[k..];
      WordLengthOf(x[..k], y[k..]);
      assert y[k..] == x[k..][..|x[k..]| - 1];
      WordsDropLast(x[k..]);
    }
  }

  lemma {:induction false} WordsTrimLeftSpace(s: string)
    ensures Words(ToLower(TrimLeftSpace(s))) == Words(ToLower(s))
    decreases |s|
  {
    if |s| > 0 && IsSpace(s[0]) {
      WordsTrimLeftSpace(s[1..]);
      assert ToLower(s)[1..] == ToLower(s[1..]);
    }
  }

  lemma {:induction false} WordsTrimRightSpace(s: string)
    ensures Words(ToLower(TrimRightSpace(s))) == Words(ToLower(s))
    decreases |s|
  {
    if |s| > 0 && IsSpace(s[|s| - 1]) {
      WordsTrimRightSpace(s[..|s| - 1]);
      var l := ToLower(s);
      assert l[..|l| - 1] == ToLower(s[..|s| - 1]);
      WordsDropLast(l);
    }
  }

  // ---------------------------------------------------------------------
  // Main results about URLEncode.

  /** `URLEncode` yields the words of the lower-cased input joined by single
      dashes: every maximal run of other characters between two words
      becomes exactly one '-', and runs at either end disappear. */
  lemma URLEncodeIsJoinedWords(s: string)
    ensures URLEncode(s) == JoinDash(Words(ToLower(s)))
  {
    if s != "" {
      var t := TrimSpace(s);
      WordsTrimLeftSpace(s);
      WordsTrimRightSpace(TrimLeftSpace(s));
      if t != "" {
        var r := ReplaceRuns(ToLower(t), false);
        ReplaceShape(ToLower(t), false);
        CollapseNoop(r, false);
        ReplaceTrimIsJoin(ToLower(t), false);
      }
    }
  }

  /** Empty or white-space-only input yields the empty slug. */
  lemma URLEncodeBlank(s: string)
    requires forall i :: 0 <= i < |s| ==> IsSpace(s[i])
    ensures URLEncode(s) == ""
  {
    URLEncodeIsJoinedWords(s);
    assert forall i :: 0 <= i < |s| ==> ToLower(s)[i] == s[i];
    WordsNone(ToLower(s));
  }

  lemma {:induction false} JoinIsSlug(ws: seq<string>)
    requires GoodWords(ws)
    ensures IsSlug(JoinDash(ws))
  {
    if |ws| > 1 {
      JoinIsSlug(ws[1..]);
      JoinNonEmpty(ws[1..]);
      var t := JoinDash(ws[1..]);
      var r := ws[0] + "-" + t;
      assert forall i :: 0 <= i < |ws[0]| ==> r[i] == ws[0][i];
      assert r[|ws[0]|] == '-';
      assert forall i :: |ws[0]| < i < |r| ==> r[i] == t[i - |ws[0]| - 1];
    }
  }

  /** The slug contains only `[a-z0-9-]`, never starts or ends with '-' and
      never contains "--". */
  lemma URLEncodeIsSlug(s: string)
    ensures IsSlug(URLEncode(s))
  {
    URLEncodeIsJoinedWords(s);
    WordsGood(ToLower(s));
    JoinIsSlug(Words(ToLower(s)));
  }

  lemma {:induction false} RemoveDashesAppend(a: string, b: string)
    ensures RemoveDashes(a + b) == RemoveDashes(a) + RemoveDashes(b)
    decreases |a|
  {
    if |a| > 0 {
      assert (a + b)[1..] == a[1..] + b;
      RemoveDashesAppend(a[1..], b);
    } else {
      assert a + b == b;
    }
  }

  lemma {:induction false} RemoveDashesWord(w: string)
    requires AllSlugChars(w)
    ensures RemoveDashes(w) == w
    decreases |w|
  {
    if |w| > 0 {
      RemoveDashesWord(w[1..]);
    }
  }

  lemma {:induction false} RemoveDashesJoin(ws: seq<string>)
    requires GoodWords(ws)
    ensures RemoveDashes(JoinDash(ws)) == Concat(ws)
  {
    if |ws| == 1 {
      RemoveDashesWord(ws[0]);
      assert Concat(ws) == ws[0] + Concat([]);
    } else if |ws| > 1 {
      var t := JoinDash(ws[1..]);
      RemoveDashesJoin(ws[1..]);
      RemoveDashesWord(ws[0]);
      assert JoinDash(ws) == ws[0] + ("-" + t);
      RemoveDashesAppend(ws[0], "-" + t);
      assert ("-" + t)[1..] == t;
      assert RemoveDashes("-" + t) == RemoveDashes(t);
    }
  }

  /** The slug characters of a string, in order. */
  function SlugChars(s: string): string {
    if |s| == 0 then "" else (if IsSlugChar(s[0]) then [s[0]] else "") + SlugChars(s[1..])
  }

  lemma {:induction false} SlugCharsAppend(a: string, b: string)
    ensures SlugChars(a + b) == SlugChars(a) + SlugChars(b)
    decreases |a|
  {
    if |a| > 0 {
      assert (a + b)[1..] == a[1..] + b;
      SlugCharsAppend(a[1..], b);
    } else {
      assert a + b == b;
    }
  }

  lemma {:induction false} SlugCharsWord(w: string)
    requires AllSlugChars(w)
    ensures SlugChars(w) == w
    decreases |w|
  {
    if |w| > 0 {
      SlugCharsWord(w[1..]);
    }
  }

  lemma {:induction false} ConcatWords(x: string)
    ensures Concat(Words(x)) == SlugChars(x)
    decreases |x|
  {
    if |x| > 0 {
      if !IsSlugChar(x[0]) {
        ConcatWords(x[1..]);
      } else {
        var k := WordLength(x);
        ConcatWords(x[k..]);
        assert x == x[..k] + x[k..];
        SlugCharsAppend(x[..k], x[k..]);
        SlugCharsWord(x[..k]);
        assert Concat(Words(x)) == x[..k] + Concat(Words(x[k..]));
      }
    }
  }

  lemma {:induction false} SlugCharsLower(s: string)
    ensures SlugChars(ToLower(s)) == LowerAlnums(s)
    decreases |s|
  {
    if |s| > 0 {
      SlugCharsLower(s[1..]);
      assert ToLower(s)[1..] == ToLower(s[1..]);
    }
  }

  /** Deleting the dashes of the slug gives the input's ASCII letters and
      digits, lower-cased, in order. */
  lemma URLEncodeKeepsAlnums(s: string)
    ensures RemoveDashes(URLEncode(s)) == LowerAlnums(s)
  {
    URLEncodeIsJoinedWords(s);
    WordsGood(ToLower(s));
    RemoveDashesJoin(Words(ToLower(s)));
    ConcatWords(ToLower(s));
    SlugCharsLower(s);
  }

  lemma {:induction false} WordsOfJoin(ws: seq<string>)
    requires GoodWords(ws)
    ensures Words(JoinDash(ws)) == ws
  {
    if |ws| == 1 {
      WordLengthOf(ws[0], "");
      assert ws[0] + "" == ws[0];
      assert JoinDash(ws)[|ws[0]|..] == "";
    } else if |ws| > 1 {
      var t := JoinDash(ws[1..]);
      var x := ws[0] + ("-" + t);
      assert JoinDash(ws) == x;
      WordLengthOf(ws[0], "-" + t);
      assert x[..|ws[0]|] == ws[0];
      assert x[|ws[0]|..] == "-" + t;
      assert ("-" + t)[1..] == t;
      WordsOfJoin(ws[1..]);
    }
  }

  lemma LowerOfSlug(t: string)
    requires IsSlug(t)
    ensures ToLower(t) == t
  {
  }

  /** Encoding a slug again changes nothing. */
  lemma URLEncodeIdempotent(s: string)
    ensures URLEncode(URLEncode(s)) == URLEncode(s)
  {
    var t := URLEncode(s);
    URLEncodeIsJoinedWords(s);
    URLEncodeIsSlug(s);
    WordsGood(ToLower(s));
    URLEncodeIsJoinedWords(t);
    LowerOfSlug(t);
    WordsOfJoin(Words(ToLower(s)));
  }
}

=== FILE: tree_assembly.dfy ===
// Nested menu trees rebuilt from the ordered, flat relation list.
//
// Each relation without a parent becomes a new top-level node.  A relation
// with a parent is appended as the last child of the first node, in
// pre-order, whose id is that parent; when no such node exists yet the
// relation is dropped.  The editor view and the published view run the
// same algorithm and differ only in the payload each node carries, so the
// algorithm is written once over a payload built by `mk`.

module TreeAssembly {
  import opened Wrappers
  import opened RelationOrder

  datatype Tree<U> = Node(id: nat, position: nat, item: U, children: seq<Tree<U>>)

  /** Ids of a forest in pre-order. */
  function Ids<U>(f: seq<Tree<U>>): seq<nat>
    decreases f
  {
    if |f| == 0 then [] else [f[0].id] + Ids(f[0].children) + Ids(f[1..])
  }

  /** Ids of the top-level nodes, in order. */
  function TopIds<U>(f: seq<Tree<U>>): seq<nat> {
    seq(|f|, k requires 0 <= k < |f| => f[k].id)
  }

  /** A path of child indices leading from the forest to one node. */
  predicate ValidPath<U>(f: seq<Tree<U>>, p: seq<nat>)
    decreases p
  {
    && |p| > 0
    && p[0] < |f|
    && (|p| == 1 || ValidPath(f[p[0]].children, p[1..]))
  }

  function At<U>(f: seq<Tree<U>>, p: seq<nat>): Tree<U>
    requires ValidPath(f, p)
    decreases p
  {
    if |p| == 1 then f[p[0]] else At(f[p[0]].children, p[1..])
  }

  /** `p` comes no later than `q` in pre-order: `p` is a prefix of `q`, or
      `p` turns to an earlier sibling where the two first differ. */
  predicate PathLe(p: seq<nat>, q: seq<nat>)
    decreases p
  {
    |p| == 0 || (|q| > 0 && (p[0] < q[0] || (p[0] == q[0] && PathLe(p[1..], q[1..]))))
  }

  lemma {:induction false} IdsSuffix<U>(f: seq<Tree<U>>, i: nat)
    requires i < |f|
    ensures Ids(f[i..]) == [f[i].id] + Ids(f[i].children) + Ids(f[i + 1..])
  {
    assert f[i..][0] == f[i];
    assert f[i..][1..] == f[i + 1..];
  }

  lemma {:induction false} IdsAppend<U>(f: seq<Tree<U>>, g: seq<Tree<U>>)
    ensures Ids(f + g) == Ids(f) + Ids(g)
  {
    if |f| == 0 {
      assert f + g == g;
    } else {
      assert (f + g)[0] == f[0];
      assert (f + g)[1..] == f[1..] + g;
      IdsAppend(f[1..], g);
    }
  }

  /** The search of the source: scan the siblings from index `i`; a sibling
      with the id is the answer, otherwise search its children before moving
      on to the next sibling. */
  function FindFrom<U>(f: seq<Tree<U>>, i: nat, id: nat): (r: Option<seq<nat>>)
    requires i <= |f|
    ensures r.None? <==> id !in Ids(f[i..])
    ensures r.Some? ==> ValidPath(f, r.value) && r.value[0] >= i && At(f, r.value).id == id
    decreases f, |f| - i
  {
    if i == |f| then None
    else
      IdsSuffix(f, i);
      if f[i].id == id then Some([i])
      else match FindFrom(f[i].children, 0, id) {
        case Some(p) =>
          assert ([i] + p)[1..] == p;
          Some([i] + p)
        case None =>
          assert f[i].children[0..] == f[i].children;
          FindFrom(f, i + 1, id)
      }
  }

  /** Finds the node a child relation hangs under; `None` exactly when no
      node of the forest has the id. */
  function FindParent<U>(f: seq<Tree<U>>, id: nat): (r: Option<seq<nat>>)
    ensures r.None? <==> id !in Ids(f)
    ensures r.Some? ==> ValidPath(f, r.value) && At(f, r.value).id == id
  {
    assert f[0..] == f;
    FindFrom(f, 0, id)
  }

  lemma {:induction false} IdsOfMember<U>(f: seq<Tree<U>>, k: nat)
    requires k < |f|
    ensures f[k].id in Ids(f)
    ensures forall x | x in Ids(f[k].children) :: x in Ids(f)
  {
    if k > 0 {
      IdsOfMember(f[1..], k - 1);
    }
  }

  lemma {:induction false} AtInIds<U>(f: seq<Tree<U>>, q: seq<nat>)
    requires ValidPath(f, q)
    ensures At(f, q).id in Ids(f)
    decreases q
  {
    IdsOfMember(f, q[0]);
    if |q| > 1 {
      AtInIds(f[q[0]].children, q[1..]);
    }
  }

  lemma {:induction false} FindFromFirst<U>(f: seq<Tree<U>>, i: nat, id: nat, q: seq<nat>)
    requires i <= |f|
    requires FindFrom(f, i, id).Some?
    requires ValidPath(f, q) && q[0] >= i && At(f, q).id == id
    ensures PathLe(FindFrom(f, i, id).value, q)
    decreases f, |f| - i
  {
    var p := FindFrom(f, i, id).value;
    if f[i].id == id {
      assert p == [i];
      assert p[1..] == [];
    } else if q[0] > i {
      assert p[0] >= i;
      match FindFrom(f[i].children, 0, id) {
        case Some(p') =>
          assert p == [i] + p';
        case None =>
          assert p == FindFrom(f, i + 1, id).value;
          FindFromFirst(f, i + 1, id, q);
      }
    } else {
      assert |q| > 1;
      AtInIds(f[i].children, q[1..]);
      assert f[i].children[0..] == f[i].children;
      var p' := FindFrom(f[i].children, 0, id).value;
      FindFromFirst(f[i].children, 0, id, q[1..]);
      assert p == [i] + p';
      assert p[1..] == p';
    }
  }

  /** The node found is the first node with the id in pre-order. */
  lemma FindParentIsFirst<U>(f: seq<Tree<U>>, id: nat, q: seq<nat>)
    requires ValidPath(f, q) && At(f, q).id == id
    ensures FindParent(f, id).Some?
    ensures PathLe(FindParent(f, id).value, q)
  {
    AtInIds(f, q);
    FindFromFirst(f, 0, id, q);
  }

  /** Appends `t` as the last child of the node at `p`; the forest keeps its
      top-level nodes and every other top-level subtree. */
  function AppendAt<U>(f: seq<Tree<U>>, p: seq<nat>, t: Tree<U>): (r: seq<Tree<U>>)
    requires ValidPath(f, p)
    ensures |r| == |f| && r == f[p[0] := f[p[0]].(children := r[p[0]].children)]
    ensures ValidPath(r, p) && At(r, p).children == At(f, p).children + [t]
    ensures multiset(Ids(r)) == multiset(Ids(f)) + multiset(Ids([t]))
    decreases p
  {
    var k := p[0];
    var n := f[k];
    var c := if |p| == 1 then n.children + [t] else AppendAt(n.children, p[1..], t);
    assert multiset(Ids(c)) == multiset(Ids(n.children)) + multiset(Ids([t])) by {
      if |p| == 1 {
        IdsAppend(n.children, [t]);
      }
    }
    IdsReplaceChildren(f, k, c, multiset(Ids([t])));
    var r := f[k := n.(children := c)];
    assert r[k].children == c;
    r
  }

  /** Replacing the children of one top-level node by children with `m`
      more ids adds `m` to the forest's multiset of ids. */
  lemma {:induction false} IdsReplaceChildren<U>(f: seq<Tree<U>>, k: nat, c: seq<Tree<U>>, m: multiset<nat>)
    requires k < |f| && multiset(Ids(c)) == multiset(Ids(f[k].children)) + m
    ensures multiset(Ids(f[k := f[k].(children := c)])) == multiset(Ids(f)) + m
  {
    var r := f[k := f[k].(children := c)];
    IdsSplitAt(f, k);
    IdsSplitAt(r, k);
    assert r[..k] == f[..k] && r[k + 1..] == f[k + 1..];
  }

  lemma {:induction false} IdsSplitAt<U>(f: seq<Tree<U>>, k: nat)
    requires k < |f|
    ensures Ids(f) == Ids(f[..k]) + ([f[k].id] + Ids(f[k].children) + Ids(f[k + 1..]))
  {
    assert f == f[..k] + f[k..];
    IdsAppend(f[..k], f[k..]);
    IdsSuffix(f, k);
  }

  /** The node a relation contributes: its child id and position, the
      payload built from it, and no children yet. */
  function Leaf<T, U>(rel: Relation<T>, mk: Relation<T> -> U): (t: Tree<U>)
    ensures t.id == rel.child && t.position == rel.position && t.children == []
  {
    Node(rel.child, rel.position, mk(rel), [])
  }

  /** Whether a relation finds its place in the forest built so far. */
  predicate Placed<T, U>(f: seq<Tree<U>>, rel: Relation<T>) {
    rel.parent.None? || rel.parent.value in Ids(f)
  }

  /** Trees with the same top-level ids in the same order have the same
      top ids; stated apart so that `Step` does not unfold `TopIds`. */
  lemma TopIdsSame<U>(f: seq<Tree<U>>, r: seq<Tree<U>>)
    requires |r| == |f| && forall k :: 0 <= k < |f| ==> r[k].id == f[k].id
    ensures TopIds(r) == TopIds(f)
  {
  }

  lemma TopIdsAppend<U>(f: seq<Tree<U>>, t: Tree<U>)
    ensures TopIds(f + [t]) == TopIds(f) + [t.id]
  {
  }

  lemma IdsLeaf<U>(t: Tree<U>)
    requires t.children == []
    ensures Ids([t]) == [t.id]
  {
    assert [t][1..] == [];
  }

  /** One iteration of the assembly loop. */
  function Step<T, U>(f: seq<Tree<U>>, rel: Relation<T>, mk: Relation<T> -> U): (r: seq<Tree<U>>)
    ensures Placed(f, rel) ==> multiset(Ids(r)) == multiset(Ids(f)) + multiset{rel.child}
    ensures !Placed(f, rel) ==> r == f
    ensures rel.parent.None? ==> TopIds(r) == TopIds(f) + [rel.child]
    ensures rel.parent.Some? ==> TopIds(r) == TopIds(f)
  {
    var t := Leaf(rel, mk);
    IdsLeaf(t);
    if rel.parent.None? then
      IdsAppend(f, [t]);
      TopIdsAppend(f, t);
      f + [t]
    else match FindParent(f, rel.parent.value) {
      case None => f
      case Some(p) =>
        var r := AppendAt(f, p, t);
        TopIdsSame(f, r);
        r
    }
  }

  /** The child ids of a relation list, in order. */
  function Children<T>(rels: seq<Relation<T>>): seq<nat> {
    if |rels| == 0 then [] else Children(rels[..|rels| - 1]) + [rels[|rels| - 1].child]
  }

  /** The child ids of the relations without a parent, in order. */
  function Roots<T>(rels: seq<Relation<T>>): seq<nat> {
    if |rels| == 0 then []
    else Roots(rels[..|rels| - 1]) + (if rels[|rels| - 1].parent.None? then [rels[|rels| - 1].child] else [])
  }

  /** Every relation's parent is the child of an earlier relation. */
  predicate Closed<T>(rels: seq<Relation<T>>) {
    forall i | 0 <= i < |rels| && rels[i].parent.Some? :: rels[i].parent.value in Children(rels[..i])
  }

  /** The assembly loop over the ordered relations. */
  function Assemble<T, U>(rels: seq<Relation<T>>, mk: Relation<T> -> U): (f: seq<Tree<U>>)
    ensures |Ids(f)| <= |rels|
    ensures forall x | x in Ids(f) :: x in Children(rels)
    ensures TopIds(f) == Roots(rels)
  {
    if |rels| == 0 then []
    else
      var pre := rels[..|rels| - 1];
      var g := Assemble(pre, mk);
      var f := Step(g, rels[|rels| - 1], mk);
      StepIds(g, rels[|rels| - 1], mk);
      f
  }

  /** One step adds at most the relation's child to the ids. */
  lemma {:induction false} StepIds<T, U>(g: seq<Tree<U>>, rel: Relation<T>, mk: Relation<T> -> U)
    ensures |Ids(Step(g, rel, mk))| <= |Ids(g)| + 1
    ensures forall x | x in Ids(Step(g, rel, mk)) :: x in Ids(g) || x == rel.child
  {
    var f := Step(g, rel, mk);
    if Placed(g, rel) {
      assert |Ids(f)| == |multiset(Ids(f))|;
      assert |Ids(g)| == |multiset(Ids(g))|;
      forall x | x in Ids(f)
        ensures x in Ids(g) || x == rel.child
      {
        assert x in multiset(Ids(f));
      }
    }
  }

  /** How one more relation changes the node count. */
  lemma AssembleCount<T, U>(rels: seq<Relation<T>>, mk: Relation<T> -> U)
    requires |rels| > 0
    ensures var g := Assemble(rels[..|rels| - 1], mk);
            multiset(Ids(Assemble(rels, mk))) ==
              multiset(Ids(g)) + (if Placed(g, rels[|rels| - 1]) then multiset{rels[|rels| - 1].child} else multiset{})
  {
  }

  lemma {:induction false} AllChildrenPlaced<T, U>(rels: seq<Relation<T>>, mk: Relation<T> -> U)
    requires |Ids(Assemble(rels, mk))| == |rels|
    ensures forall x | x in Children(rels) :: x in Ids(Assemble(rels, mk))
  {
    if |rels| > 0 {
      var pre := rels[..|rels| - 1];
      var g := Assemble(pre, mk);
      var last := rels[|rels| - 1];
      var m := multiset(Ids(Assemble(rels, mk)));
      AssembleCount(rels, mk);
      assert |m| == |rels|;
      assert |Ids(g)| == |multiset(Ids(g))| <= |pre|;
      assert Placed(g, last) && |Ids(g)| == |pre|;
      AllChildrenPlaced(pre, mk);
      forall x | x in Children(rels)
        ensures x in Ids(Assemble(rels, mk))
      {
        if x != last.child {
          assert x in Children(pre);
          assert x in multiset(Ids(g));
        }
        assert x in m;
      }
    }
  }

  lemma ClosedStep<T>(rels: seq<Relation<T>>)
    requires |rels| > 0
    ensures var pre := rels[..|rels| - 1];
            var last := rels[|rels| - 1];
            Closed(rels) <==> Closed(pre) && (last.parent.Some? ==> last.parent.value in Children(pre))
  {
    var n := |rels|;
    var pre := rels[..n - 1];
    forall i | 0 <= i < n - 1
      ensures rels[..i] == pre[..i]
    {
    }
  }

  /** Every relation yields a node exactly when every parent was placed by
      an earlier relation; otherwise some relation is dropped and there are
      fewer nodes than relations. */
  lemma {:induction false} AssembleKeepsAllIffClosed<T, U>(rels: seq<Relation<T>>, mk: Relation<T> -> U)
    ensures |Ids(Assemble(rels, mk))| == |rels| <==> Closed(rels)
  {
    if |rels| > 0 {
      var n := |rels|;
      var pre := rels[..n - 1];
      var g := Assemble(pre, mk);
      var last := rels[n - 1];
      AssembleKeepsAllIffClosed(pre, mk);
      ClosedStep(rels);
      AssembleCount(rels, mk);
      assert |multiset(Ids(Assemble(rels, mk)))| == |Ids(Assemble(rels, mk))|;
      assert |multiset(Ids(g))| == |Ids(g)| <= |pre|;
      if Closed(rels) {
        AllChildrenPlaced(pre, mk);
        assert Placed(g, last);
      }
    }
  }

  /** The forest with every payload erased, i.e. its shape. */
  function Erase<U>(f: seq<Tree<U>>): (r: seq<Tree<()>>)
    ensures |r| == |f|
    decreases f
  {
    if |f| == 0 then [] else [Node(f[0].id, f[0].position, (), Erase(f[0].children))] + Erase(f[1..])
  }

  lemma {:induction false} EraseAt<U>(f: seq<Tree<U>>, k: nat)
    requires k < |f|
    ensures Erase(f)[k] == Node(f[k].id, f[k].position, (), Erase(f[k].children))
  {
    if k > 0 {
      EraseAt(f[1..], k - 1);
    }
  }

  lemma {:induction false} EraseIds<U>(f: seq<Tree<U>>)
    ensures Ids(Erase(f)) == Ids(f)
    decreases f
  {
    if |f| > 0 {
      EraseIds(f[0].children);
      EraseIds(f[1..]);
      var e := Erase(f);
      assert e[0] == Node(f[0].id, f[0].position, (), Erase(f[0].children));
      assert e[1..] == Erase(f[1..]);
    }
  }

  lemma {:induction false} EraseUpdate<U>(f: seq<Tree<U>>, k: nat, n: Tree<U>)
    requires k < |f|
    ensures Erase(f[k := n]) == Erase(f)[k := Node(n.id, n.position, (), Erase(n.children))]
  {
    var l := Erase(f[k := n]);
    var r := Erase(f)[k := Node(n.id, n.position, (), Erase(n.children))];
    forall j | 0 <= j < |f|
      ensures l[j] == r[j]
    {
      EraseAt(f[k := n], j);
      EraseAt(f, j);
    }
  }

  lemma {:induction false} EraseAppend<U>(f: seq<Tree<U>>, g: seq<Tree<U>>)
    ensures Erase(f + g) == Erase(f) + Erase(g)
  {
    if |f| == 0 {
      assert f + g == g;
    } else {
      assert (f + g)[0] == f[0];
      assert (f + g)[1..] == f[1..] + g;
      EraseAppend(f[1..], g);
    }
  }

  lemma {:induction false} ValidPathErase<U>(f: seq<Tree<U>>, p: seq<nat>)
    requires ValidPath(f, p)
    ensures ValidPath(Erase(f), p)
    decreases p
  {
    EraseAt(f, p[0]);
    if |p| > 1 {
      ValidPathErase(f[p[0]].children, p[1..]);
    }
  }

  lemma {:induction false} EraseAppendAt<U, V>(f: seq<Tree<U>>, g: seq<Tree<V>>, p: seq<nat>, t: Tree<U>, s: Tree<V>)
    requires ValidPath(f, p) && ValidPath(g, p)
    requires Erase(f) == Erase(g) && Erase([t]) == Erase([s])
    ensures Erase(AppendAt(f, p, t)) == Erase(AppendAt(g, p, s))
    decreases p
  {
    var k := p[0];
    EraseAt(f, k);
    EraseAt(g, k);
    EraseAt([t], 0);
    EraseAt([s], 0);
    var n := f[k];
    var m := g[k];
    assert Erase(n.children) == Erase(m.children);
    if |p| == 1 {
      EraseAppend(n.children, [t]);
      EraseAppend(m.children, [s]);
      EraseUpdate(f, k, n.(children := n.children + [t]));
      EraseUpdate(g, k, m.(children := m.children + [s]));
    } else {
      EraseAppendAt(n.children, m.children, p[1..], t, s);
      EraseUpdate(f, k, n.(children := AppendAt(n.children, p[1..], t)));
      EraseUpdate(g, k, m.(children := AppendAt(m.children, p[1..], s)));
    }
  }

  lemma {:induction false} FindFromOnlyIds<U, V>(f: seq<Tree<U>>, g: seq<Tree<V>>, i: nat, id: nat)
    requires Erase(f) == Erase(g) && i <= |f|
    ensures FindFrom(f, i, id) == FindFrom(g, i, id)
    decreases f, |f| - i
  {
    if i < |f| {
      EraseAt(f, i);
      EraseAt(g, i);
      assert f[i].id == g[i].id && Erase(f[i].children) == Erase(g[i].children);
      if f[i].id != id {
        FindFromOnlyIds(f[i].children, g[i].children, 0, id);
        FindFromOnlyIds(f, g, i + 1, id);
      }
    }
  }

  /** The nesting does not depend on the payload: the editor view and the
      published view of the same relation list have the same shape. */
  lemma {:induction false} AssembleShapeIndependentOfPayload<T, U, V>(rels: seq<Relation<T>>, mk: Relation<T> -> U, mk': Relation<T> -> V)
    ensures Erase(Assemble(rels, mk)) == Erase(Assemble(rels, mk'))
  {
    if |rels| > 0 {
      var pre := rels[..|rels| - 1];
      var f := Assemble(pre, mk);
      var g := Assemble(pre, mk');
      var last := rels[|rels| - 1];
      AssembleShapeIndependentOfPayload(pre, mk, mk');
      var t := Leaf(last, mk);
      var s := Leaf(last, mk');
      assert Erase([t]) == Erase([s]);
      if last.parent.None? {
        EraseAppend(f, [t]);
        EraseAppend(g, [s]);
      } else {
        FindFromOnlyIds(f, g, 0, last.parent.value);
        match FindParent(f, last.parent.value) {
          case None =>
          case Some(p) =>
            EraseAppendAt(f, g, p, t, s);
        }
      }
    }
  }
}

=== FILE: utf8.dfy ===
/** UTF-8, the encoding Go's strings hold.  A Go string is a byte sequence
    and `string(b)` keeps the bytes as they are; text here is a sequence of
    Unicode characters, so a byte sequence is read as the text whose UTF-8
    encoding it is. */
module Utf8 {
  type byte = x: int | 0 <= x < 0x100

  /** A continuation byte, 10xxxxxx. */
  predicate IsCont(b: byte) {
    0x80 <= b < 0xC0
  }

  /** The shortest encoding of one character: one byte below 0x80, then
      two, three or four bytes, each continuation carrying six bits. */
  function EncodeChar(c: char): (r: seq<byte>)
    ensures 1 <= |r| <= 4
    ensures r[0] < 0x80 || 0xC2 <= r[0] < 0xF5
    ensures forall i :: 1 <= i < |r| ==> IsCont(r[i])
  {
    var x := c as int;
    if x < 0x80 then [x]
    else if x < 0x800 then [0xC0 + x / 0x40, 0x80 + x % 0x40]
    else if x < 0x10000 then [0xE0 + x / 0x1000, 0x80 + (x / 0x40) % 0x40, 0x80 + x % 0x40]
    else [0xF0 + x / 0x40000, 0x80 + (x / 0x1000) % 0x40, 0x80 + (x / 0x40) % 0x40, 0x80 + x % 0x40]
  }

  function Encode(s: string): (r: seq<byte>)
    ensures |s| <= |r| <= 4 * |s|
    decreases |s|
  {
    if |s| == 0 then [] else EncodeChar(s[0]) + Encode(s[1..])
  }

  /** The character `b` starts with and the number of bytes it takes.  A
      byte that starts no well-formed, shortest encoding of a character
      reads as U+FFFD and takes one byte. */
  function DecodeFirst(b: seq<byte>): (r: (char, nat))
    requires |b| > 0
    ensures 1 <= r.1 <= |b| && r.1 <= 4
  {
    var b0 := b[0] as int;
    if b0 < 0x80 then (b0 as char, 1)
    else if 0xC2 <= b0 < 0xE0 && 2 <= |b| && IsCont(b[1]) then
      (((b0 - 0xC0) * 0x40 + (b[1] as int - 0x80)) as char, 2)
    else if 0xE0 <= b0 < 0xF0 && 3 <= |b| && IsCont(b[1]) && IsCont(b[2]) then
      var x := (b0 - 0xE0) * 0x1000 + (b[1] as int - 0x80) * 0x40 + (b[2] as int - 0x80);
      if 0x800 <= x && !(0xD800 <= x < 0xE000) then (x as char, 3) else (0xFFFD as char, 1)
    else if 0xF0 <= b0 < 0xF5 && 4 <= |b| && IsCont(b[1]) && IsCont(b[2]) && IsCont(b[3]) then
      var x := (b0 - 0xF0) * 0x40000 + (b[1] as int - 0x80) * 0x1000 + (b[2] as int - 0x80) * 0x40 + (b[3] as int - 0x80);
      if 0x10000 <= x < 0x110000 then (x as char, 4) else (0xFFFD as char, 1)
    else (0xFFFD as char, 1)
  }

  /** The text a byte sequence holds, one character at a time. */
  function Decode(b: seq<byte>): (r: string)
    ensures |r| <= |b|
    decreases |b|
  {
    if |b| == 0 then []
    else
      var (c, n) := DecodeFirst(b);
      [c] + Decode(b[n..])
  }

  /** Decoding the front of an encoding gives back its first character and
      consumes exactly its bytes. */
  lemma DecodeFirstEncoded(c: char, rest: seq<byte>)
    ensures DecodeFirst(EncodeChar(c) + rest) == (c, |EncodeChar(c)|)
  {
    var x := c as int;
    if x < 0x80 {
      assert (EncodeChar(c) + rest)[0] == x;
    } else if x < 0x800 {
      DecodeTwo(c, rest);
    } else if x < 0x10000 {
      DecodeThree(c, rest);
    } else {
      DecodeFour(c, rest);
    }
  }

  lemma DecodeTwo(c: char, rest: seq<byte>)
    requires 0x80 <= c as int < 0x800
    ensures DecodeFirst(EncodeChar(c) + rest) == (c, 2)
  {
    var x := c as int;
    var b := EncodeChar(c) + rest;
    assert b[0] == 0xC0 + x / 0x40 && b[1] == 0x80 + x % 0x40;
    assert (x / 0x40) * 0x40 + x % 0x40 == x;
  }

  lemma DecodeThree(c: char, rest: seq<byte>)
    requires 0x800 <= c as int < 0x10000
    ensures DecodeFirst(EncodeChar(c) + rest) == (c, 3)
  {
    var x := c as int;
    var b := EncodeChar(c) + rest;
    assert b[0] == 0xE0 + x / 0x1000 && b[1] == 0x80 + (x / 0x40) % 0x40 && b[2] == 0x80 + x % 0x40;
    assert (x / 0x1000) * 0x1000 + ((x / 0x40) % 0x40) * 0x40 + x % 0x40 == x;
  }

  lemma DecodeFour(c: char, rest: seq<byte>)
    requires 0x10000 <= c as int
    ensures DecodeFirst(EncodeChar(c) + rest) == (c, 4)
  {
    var x := c as int;
    var b := EncodeChar(c) + rest;
    assert b[0] == 0xF0 + x / 0x40000 && b[1] == 0x80 + (x / 0x1000) % 0x40;
    assert b[2] == 0x80 + (x / 0x40) % 0x40 && b[3] == 0x80 + x % 0x40;
    assert (x / 0x40000) * 0x40000 + ((x / 0x1000) % 0x40) * 0x1000 + ((x / 0x40) % 0x40) * 0x40 + x % 0x40 == x;
  }

  /** Every text survives encoding and decoding. */
  lemma {:induction false} DecodeEncode(s: string)
    ensures Decode(Encode(s)) == s
    decreases |s|
  {
    if |s| > 0 {
      var e, rest := EncodeChar(s[0]), Encode(s[1..]);
      DecodeFirstEncoded(s[0], rest);
      assert (e + rest)[|e|..] == rest;
      DecodeEncode(s[1..]);
    }
  }
}

=== FILE: version.dfy ===
/** Versions of an app: the lookup with its cache, name availability, the
    write operations with their lookup invalidation, and the controller
    guards that make publishing a small state machine.

    Versions live in an auto-increment table; `deleted` is the soft-delete
    mark.  The unique index on (app, name) also covers deleted rows.  The
    clock is the parameter `now`; failing store commands are parameters. */
module VersionService {
  import opened Wrappers
  import opened LookupCache
  import opened NameIndex

  datatype VersionRec = VersionRec(
    app: string,
    name: string,
    enabledAt: Option<int>,
    publishedAt: Option<int>,
    updatedAt: int,
    deleted: bool)

  /** A row of the version lookup: id and name only. */
  datatype VersionRow = VersionRow(id: nat, name: string)

  datatype State = State(versions: seq<VersionRec>, lookup: map<string, seq<VersionRow>>)

  function RowName(r: VersionRow): string { r.name }

  predicate Live(vs: seq<VersionRec>, id: nat) {
    id < |vs| && !vs[id].deleted
  }

  // ---------------------------------------------------------------------
  // Queries.

  /** The row's name key: the app, the name, and whether it is live. */
  function VersionKey(x: VersionRec): NameKey<string> { NameKey(x.app, x.name, !x.deleted) }

  /** `IsVersionAvailable`: no live version of the app has the name, or the
      name is the one to ignore. */
  function IsVersionAvailable(vs: seq<VersionRec>, app: string, name: string, ignore: Option<string>): (r: bool)
    ensures r <==> ignore == Some(name) || forall i :: 0 <= i < |vs| && !vs[i].deleted && vs[i].app == app ==> vs[i].name != name
  {
    FirstNamed(vs, VersionKey, app, name, ignore, 0).None?
  }

  /** The lookup query: the live, enabled versions of the app, in id order. */
  function LookupRows(vs: seq<VersionRec>, app: string): (r: seq<VersionRow>)
    ensures forall i :: 0 <= i < |r| ==>
      r[i].id < |vs| && vs[r[i].id].app == app && !vs[r[i].id].deleted && vs[r[i].id].enabledAt.Some?
      && r[i].name == vs[r[i].id].name
    ensures forall j :: 0 <= j < |vs| && vs[j].app == app && !vs[j].deleted && vs[j].enabledAt.Some? ==>
      VersionRow(j, vs[j].name) in r
    ensures forall i, k :: 0 <= i < k < |r| ==> r[i].id < r[k].id
  {
    if |vs| == 0 then []
    else
      var n := |vs| - 1;
      var pre := LookupRows(vs[..n], app);
      assert forall j :: 0 <= j < n ==> vs[..n][j] == vs[j];
      if vs[n].app == app && !vs[n].deleted && vs[n].enabledAt.Some? then pre + [VersionRow(n, vs[n].name)] else pre
  }

  /** Two tables that agree on every column the lookup reads give the same
      lookup. */
  lemma {:induction false} LookupRowsReadsOnly(vs: seq<VersionRec>, ws: seq<VersionRec>, app: string)
    requires |vs| == |ws|
    requires forall i :: 0 <= i < |vs| ==>
      vs[i].app == ws[i].app && vs[i].name == ws[i].name && vs[i].deleted == ws[i].deleted && vs[i].enabledAt.Some? == ws[i].enabledAt.Some?
    ensures LookupRows(vs, app) == LookupRows(ws, app)
    decreases |vs|
  {
    if |vs| > 0 {
      var n := |vs| - 1;
      assert forall i :: 0 <= i < n ==> vs[..n][i] == vs[i] && ws[..n][i] == ws[i];
      LookupRowsReadsOnly(vs[..n], ws[..n], app);
      assert vs[n].app == ws[n].app && vs[n].name == ws[n].name;
      assert vs[n].deleted == ws[n].deleted && vs[n].enabledAt.Some? == ws[n].enabledAt.Some?;
    }
  }

  /** `GetVersionLookup`: the cache-aside lookup of the app's versions
      followed by the optional name filter. */
  function GetVersionLookup(st: State, app: string, name: Option<string>, fx: Faults, queryFails: bool): (r: (map<string, seq<VersionRow>>, Result<seq<VersionRow>>))
    ensures fx.existsFails ==> r == (st.lookup, Err(CacheFailure))
    ensures r.1.Ok? && !Blank(name) ==> forall i :: 0 <= i < |r.1.value| ==> Matches(r.1.value[i].name, name.value)
    ensures forall a | a != app :: (a in r.0 <==> a in st.lookup) && (a in st.lookup ==> r.0[a] == st.lookup[a])
    ensures var rows := LookupRows(st.versions, app);
            fx == NoFaults && !queryFails && (app !in st.lookup || st.lookup[app] == rows) ==>
              r.1 == Ok(FilterByName(rows, RowName, name)) && app in r.0 && r.0[app] == rows
  {
    var query := if queryFails then Err(StoreFailure) else Ok(LookupRows(st.versions, app));
    var (lookup, res) := Lookup(st.lookup, app, fx, query);
    var out := match res {
      case Err(e) => Err(e)
      case Ok(rows) => Ok(FilterByName(rows, RowName, name))
    };
    (lookup, out)
  }

  // ---------------------------------------------------------------------
  // Service writes.

  /** The first live version the get-or-create of `CreateVersion` finds: same
      app and name, and the same enable time when one is given (a null time
      is left out of the condition). */
  function FirstFound(vs: seq<VersionRec>, app: string, name: string, enabledAt: Option<int>, from: nat): (r: Option<nat>)
    requires from <= |vs|
    ensures r.Some? ==> (from <= r.value < |vs| && !vs[r.value].deleted && vs[r.value].app == app && vs[r.value].name == name
      && (enabledAt.Some? ==> vs[r.value].enabledAt == enabledAt))
    ensures r.None? ==> forall i :: from <= i < |vs| && !vs[i].deleted && vs[i].app == app && vs[i].name == name ==>
      enabledAt.Some? && vs[i].enabledAt != enabledAt
    decreases |vs| - from
  {
    if from == |vs| then None
    else if !vs[from].deleted && vs[from].app == app && vs[from].name == name && (enabledAt.None? || vs[from].enabledAt == enabledAt) then Some(from)
    else FirstFound(vs, app, name, enabledAt, from + 1)
  }

  /** `CreateVersion`: get-or-create by (app, name, enable time); a new row
      must name an existing app (the foreign key to the apps table, given
      as `appExists`) and must not repeat (app, name), which would violate
      the unique index.  The app's lookup is invalidated after success. */
  function CreateVersion(st: State, appExists: bool, app: string, name: string, enabledAt: Option<int>, now: int, fails: bool): (r: Result<(State, nat)>)
    ensures r.Err? ==> r.error == StoreFailure
    ensures r.Ok? ==> app !in r.value.0.lookup && Live(r.value.0.versions, r.value.1)
    ensures r.Ok? ==> r.value.0.versions[r.value.1].app == app && r.value.0.versions[r.value.1].name == name
    ensures r.Ok? ==> r.value.0.versions[r.value.1].publishedAt.None? || r.value.1 < |st.versions|
    ensures r.Ok? ==> st.versions <= r.value.0.versions && |r.value.0.versions| <= |st.versions| + 1
    ensures r.Ok? && r.value.1 == |st.versions| ==> r.value.0.versions[r.value.1] == VersionRec(app, name, enabledAt, None, now, false)
    ensures !fails && FirstFound(st.versions, app, name, enabledAt, 0).None? ==>
      (r.Err? <==> !appExists || NameInIndex(st.versions, VersionKey, app, name, -1))
    ensures r.Ok? ==> forall a | a != app :: (a in r.value.0.lookup <==> a in st.lookup) && (a in st.lookup ==> r.value.0.lookup[a] == st.lookup[a])
  {
    if fails then Err(StoreFailure)
    else match FirstFound(st.versions, app, name, enabledAt, 0) {
      case Some(j) => Ok((st.(lookup := Invalidate(st.lookup, app)), j))
      case None =>
        if !appExists || NameInIndex(st.versions, VersionKey, app, name, -1) then Err(StoreFailure)
        else
          var vs := st.versions + [VersionRec(app, name, enabledAt, None, now, false)];
          Ok((State(vs, Invalidate(st.lookup, app)), |st.versions|))
    }
  }

  /** `UpdateVersion`: save the loaded version with the new name and enable
      time (a missing one clears it); the row keeps its app and publish
      state.  A name another row holds violates the unique index. */
  function UpdateVersion(st: State, id: nat, name: string, enabledAt: Option<int>, now: int, fails: bool): (r: Result<State>)
    requires Live(st.versions, id)
    ensures r.Err? <==> fails || NameInIndex(st.versions, VersionKey, st.versions[id].app, name, id)
    ensures r.Err? ==> r.error == StoreFailure
    ensures r.Ok? ==> |r.value.versions| == |st.versions|
    ensures r.Ok? ==> var v := r.value.versions[id];
      v.name == name && v.enabledAt == enabledAt && v.updatedAt == now
      && v.app == st.versions[id].app && v.publishedAt == st.versions[id].publishedAt && !v.deleted
    ensures r.Ok? ==> forall i :: 0 <= i < |st.versions| && i != id ==> r.value.versions[i] == st.versions[i]
    ensures r.Ok? ==> r.value.lookup == Invalidate(st.lookup, st.versions[id].app)
  {
    var v := st.versions[id];
    if fails || NameInIndex(st.versions, VersionKey, v.app, name, id) then Err(StoreFailure)
    else Ok(State(st.versions[id := v.(name := name, enabledAt := enabledAt, updatedAt := now)], Invalidate(st.lookup, v.app)))
  }

  /** The first statement of `PublishVersion`: clear the publish time of
      every live version of the app (the update also stamps the update
      time). */
  function UnpublishApp(vs: seq<VersionRec>, app: string, now: int): (r: seq<VersionRec>)
    ensures |r| == |vs|
    ensures forall i :: 0 <= i < |vs| && !vs[i].deleted && vs[i].app == app ==> r[i] == vs[i].(publishedAt := None, updatedAt := now)
    ensures forall i :: 0 <= i < |vs| && (vs[i].deleted || vs[i].app != app) ==> r[i] == vs[i]
  {
    seq(|vs|, i requires 0 <= i < |vs| => if !vs[i].deleted && vs[i].app == app then vs[i].(publishedAt := None, updatedAt := now) else vs[i])
  }

  /** `PublishVersion`: in one transaction, unpublish the app's live
      versions, then publish the given one if it is live; both updates stamp
      the update time.  A failure rolls everything back. */
  function PublishVersion(vs: seq<VersionRec>, app: string, id: nat, now: int, fails: bool): (r: Result<seq<VersionRec>>)
    ensures fails <==> r.Err?
    ensures r.Ok? ==> |r.value| == |vs|
    ensures r.Ok? && Live(vs, id) ==> r.value[id] == vs[id].(publishedAt := Some(now), updatedAt := now)
    ensures r.Ok? ==> forall i :: 0 <= i < |vs| && i != id && !vs[i].deleted && vs[i].app == app ==> r.value[i].publishedAt.None?
    ensures r.Ok? ==> forall i :: 0 <= i < |vs| && i != id && (vs[i].deleted || vs[i].app != app) ==> r.value[i] == vs[i]
    ensures r.Ok? ==> forall i :: 0 <= i < |vs| ==>
      r.value[i].(publishedAt := None, updatedAt := 0) == vs[i].(publishedAt := None, updatedAt := 0)
  {
    if fails then Err(StoreFailure)
    else
      var cleared := UnpublishApp(vs, app, now);
      if Live(vs, id) then Ok(cleared[id := cleared[id].(publishedAt := Some(now), updatedAt := now)]) else Ok(cleared)
  }

  /** `DeleteVersion`: soft-delete; invalidate the app's lookup on success. */
  function DeleteVersion(st: State, id: nat, app: string, fails: bool): (r: Result<State>)
    ensures fails <==> r.Err?
    ensures r.Ok? ==> |r.value.versions| == |st.versions| && !Live(r.value.versions, id)
    ensures r.Ok? ==> forall i :: 0 <= i < |st.versions| && i != id ==> r.value.versions[i] == st.versions[i]
    ensures r.Ok? && id < |st.versions| ==> r.value.versions[id] == st.versions[id].(deleted := true)
    ensures r.Ok? ==> r.value.lookup == Invalidate(st.lookup, app)
  {
    if fails then Err(StoreFailure)
    else if Live(st.versions, id) then
      Ok(State(st.versions[id := st.versions[id].(deleted := true)], Invalidate(st.lookup, app)))
    else Ok(st.(lookup := Invalidate(st.lookup, app)))
  }

  /** `RestoreVersion`: clear the deletion mark (stamping the update
      time), then read the app name
      back (an unknown id reads as the empty name) and invalidate its
      lookup.  A failing read reports an error after the restore has
      happened, and nothing is invalidated. */
  function RestoreVersion(st: State, id: nat, now: int, fails: bool, readFails: bool): (r: (State, Result<()>))
    ensures fails ==> r == (st, Err(StoreFailure))
    ensures !fails ==> |r.0.versions| == |st.versions| && (id < |st.versions| ==> Live(r.0.versions, id))
    ensures !fails ==> forall i :: 0 <= i < |st.versions| && i != id ==> r.0.versions[i] == st.versions[i]
    ensures !fails && id < |st.versions| ==> r.0.versions[id] == st.versions[id].(deleted := false, updatedAt := now)
    ensures !fails && readFails ==> r.1 == Err(StoreFailure) && r.0.lookup == st.lookup
    ensures !fails && !readFails ==> r.1 == Ok(()) && r.0.lookup == Invalidate(st.lookup, if id < |st.versions| then st.versions[id].app else "")
  {
    if fails then (st, Err(StoreFailure))
    else
      var vs := if id < |st.versions| then st.versions[id := st.versions[id].(deleted := false, updatedAt := now)] else st.versions;
      if readFails then (st.(versions := vs), Err(StoreFailure))
      else (State(vs, Invalidate(st.lookup, if id < |st.versions| then st.versions[id].app else "")), Ok(()))
  }

  // ---------------------------------------------------------------------
  // Controller guards.

  /** At most one version per app is published, and a published version is
      live and enabled. */
  predicate PublishInvariant(vs: seq<VersionRec>) {
    && (forall i :: 0 <= i < |vs| && vs[i].publishedAt.Some? ==> !vs[i].deleted && vs[i].enabledAt.Some?)
    && (forall i, j :: 0 <= i < |vs| && 0 <= j < |vs| && vs[i].publishedAt.Some? && vs[j].publishedAt.Some? && vs[i].app == vs[j].app ==> i == j)
  }

  /** The `CreateVersion` handler: the app must exist and the name must be
      free among the app's live versions. */
  function CreateVersionOp(st: State, appExists: bool, app: string, name: string, enabledAt: Option<int>, now: int, fails: bool): (r: Result<(State, nat)>)
    ensures !appExists ==> r == Err(NotFound)
    ensures appExists && !IsVersionAvailable(st.versions, app, name, None) ==> r == Err(NameTaken)
    ensures r.Ok? ==> r.value.1 == |st.versions| && Live(r.value.0.versions, r.value.1) && r.value.0.versions[r.value.1].publishedAt.None?
    ensures PublishInvariant(st.versions) && r.Ok? ==> PublishInvariant(r.value.0.versions)
  {
    if !appExists then Err(NotFound)
    else if !IsVersionAvailable(st.versions, app, name, None) then Err(NameTaken)
    else
      CreateVersion(st, appExists, app, name, enabledAt, now, fails)
  }

  /** The `UpdateVersion` handler: the version must be live, the copy
      fresh, a new name free, and a published version stays enabled. */
  function UpdateVersionOp(st: State, id: nat, name: string, enabledAt: Option<int>, updatedAt: int, now: int, fails: bool): (r: Result<State>)
    ensures !Live(st.versions, id) ==> r == Err(NotFound)
    ensures Live(st.versions, id) && updatedAt < st.versions[id].updatedAt ==> r == Err(OutOfSync)
    ensures r.Ok? ==> Live(st.versions, id) && st.versions[id].updatedAt <= updatedAt
    ensures r.Ok? && name != st.versions[id].name ==> IsVersionAvailable(st.versions, st.versions[id].app, name, Some(st.versions[id].name))
    ensures r.Ok? && st.versions[id].publishedAt.Some? ==> enabledAt.Some?
    ensures (&& Live(st.versions, id) && st.versions[id].updatedAt <= updatedAt
             && (name == st.versions[id].name || IsVersionAvailable(st.versions, st.versions[id].app, name, Some(st.versions[id].name)))
             && st.versions[id].publishedAt.Some? && enabledAt.None?) ==> r == Err(IsPublished)
    ensures PublishInvariant(st.versions) && r.Ok? ==> PublishInvariant(r.value.versions)
  {
    if !Live(st.versions, id) then Err(NotFound)
    else
      var v := st.versions[id];
      if updatedAt < v.updatedAt then Err(OutOfSync)
      else if name != v.name && !IsVersionAvailable(st.versions, v.app, name, Some(v.name)) then Err(NameTaken)
      else if v.publishedAt.Some? && enabledAt.None? then Err(IsPublished)
      else UpdateVersion(st, id, name, enabledAt, now, fails)
  }

  /** The `PublishVersion` handler: the version must be live, enabled and
      not yet published; then it is the app's only published version. */
  function PublishVersionOp(st: State, id: nat, now: int, fails: bool): (r: Result<State>)
    ensures !Live(st.versions, id) ==> r == Err(NotFound)
    ensures Live(st.versions, id) && st.versions[id].enabledAt.None? ==> r == Err(NotEnabled)
    ensures Live(st.versions, id) && st.versions[id].enabledAt.Some? && st.versions[id].publishedAt.Some? ==> r == Err(IsPublished)
    ensures r.Ok? <==> Live(st.versions, id) && st.versions[id].enabledAt.Some? && st.versions[id].publishedAt.None? && !fails
    ensures r.Ok? ==> |r.value.versions| == |st.versions| && r.value.versions[id].publishedAt == Some(now)
    ensures r.Ok? ==> forall i :: 0 <= i < |st.versions| && i != id && !st.versions[i].deleted && st.versions[i].app == st.versions[id].app ==>
      r.value.versions[i].publishedAt.None?
    ensures r.Ok? ==> r.value.lookup == st.lookup
    ensures PublishInvariant(st.versions) && r.Ok? ==> PublishInvariant(r.value.versions)
  {
    if !Live(st.versions, id) then Err(NotFound)
    else
      var v := st.versions[id];
      if v.enabledAt.None? then Err(NotEnabled)
      else if v.publishedAt.Some? then Err(IsPublished)
      else
        var vs :- PublishVersion(st.versions, v.app, id, now, fails);
        Ok(st.(versions := vs))
  }

  /** The `DeleteVersion` handler: only a live, unpublished version is
      deleted. */
  function DeleteVersionOp(st: State, id: nat, fails: bool): (r: Result<State>)
    ensures !Live(st.versions, id) ==> r == Err(NotFound)
    ensures Live(st.versions, id) && st.versions[id].publishedAt.Some? ==> r == Err(IsPublished)
    ensures r.Ok? <==> Live(st.versions, id) && st.versions[id].publishedAt.None? && !fails
    ensures r.Ok? ==> !Live(r.value.versions, id) && st.versions[id].app !in r.value.lookup
    ensures PublishInvariant(st.versions) && r.Ok? ==> PublishInvariant(r.value.versions)
  {
    if !Live(st.versions, id) then Err(NotFound)
    else if st.versions[id].publishedAt.Some? then Err(IsPublished)
    else DeleteVersion(st, id, st.versions[id].app, fails)
  }

  /** The `RestoreVersion` handler: only a deleted version is restored. */
  function RestoreVersionOp(st: State, id: nat, now: int, fails: bool, readFails: bool): (r: (State, Result<()>))
    ensures !(id < |st.versions| && st.versions[id].deleted) ==> r == (st, Err(NotDeleted))
    ensures r.1.Ok? ==> Live(r.0.versions, id) && st.versions[id].app !in r.0.lookup
    ensures PublishInvariant(st.versions) ==> PublishInvariant(r.0.versions)
  {
    if !(id < |st.versions| && st.versions[id].deleted) then (st, Err(NotDeleted))
    else RestoreVersion(st, id, now, fails, readFails)
  }

  /** Publishing changes no column the lookup reads, which is why it leaves
      the lookup cache alone: a coherent cache stays coherent. */
  lemma PublishKeepsLookup(st: State, id: nat, now: int, app: string)
    requires PublishVersionOp(st, id, now, false).Ok?
    ensures LookupRows(PublishVersionOp(st, id, now, false).value.versions, app) == LookupRows(st.versions, app)
  {
    var vs := PublishVersionOp(st, id, now, false).value.versions;
    forall i | 0 <= i < |st.versions|
      ensures st.versions[i].app == vs[i].app && st.versions[i].name == vs[i].name
      ensures st.versions[i].deleted == vs[i].deleted && st.versions[i].enabledAt == vs[i].enabledAt
    {
      assert vs[i].(publishedAt := None, updatedAt := 0) == st.versions[i].(publishedAt := None, updatedAt := 0);
    }
    LookupRowsReadsOnly(st.versions, vs, app);
  }

  /** After a successful write the next lookup of the app, without faults,
      answers from the store. */
  lemma WriteThenLookupIsFresh(st: State, id: nat, fails: bool, app: string, name: Option<string>)
    requires Live(st.versions, id) && st.versions[id].publishedAt.None? && !fails
    requires app == st.versions[id].app
    ensures var st' := DeleteVersionOp(st, id, fails).value;
      GetVersionLookup(st', app, name, NoFaults, false).1 == Ok(FilterByName(LookupRows(st'.versions, app), RowName, name))
  {
  }
}

=== FILE: wrappers.dfy ===
/** Failure-carrying datatypes shared by every module of the model.
    `Option` stands for the source's nullable values (`*T`, `sql.Null*`),
    `Result` for Go's `(value, error)` returns. */
module Wrappers {

  datatype Option<+T> = None | Some(value: T) {

    /** The wrapped value, or `default` when absent. */
    function GetOr(default: T): T {
      match this
      case Some(v) => v
      case None => default
    }
  }

  /** The error kinds the services and controllers return. */
  datatype Error =
    | NotFound          // gorm.ErrRecordNotFound, or an empty record where one was expected
    | OutOfSync         // errorutil.OutOfSync: a submitted timestamp is older than the stored one
    | NameTaken         // a `*Available` error code: the name is already used in its scope
    | NotEnabled        // errors.VersionNotEnabled
    | IsPublished       // errors.VersionIsPublished
    | NotDeleted        // restoring something that is not deleted
    | StoreFailure      // any other error reported by the relational store
    | CacheFailure      // an error reported by the key-value cache
    | UnsupportedType   // Indexing.Scan of a value of an unsupported kind

  datatype Result<+T> = Ok(value: T) | Err(error: Error) {

    predicate IsFailure() {
      Err?
    }

    function PropagateFailure<U>(): Result<U>
      requires Err?
    {
      Err(error)
    }

    function Extract(): T
      requires Ok?
    {
      value
    }
  }
}
